=== FILE: README.md ===
# Labour-law assistant backend: a Dafny model of its core

The backend answers labour-law questions for one Indian jurisdiction, and
optionally compares it with others. It also keeps each user's chat sessions
and answer feedback in a blob store. This project models its sequential,
deterministic core and proves properties of that model:

- **Routing** (`Pipeline`, `Extraction`). `process_query` asks the language
  model to classify `"<query> for <state>"`. A reply that does not parse
  routes to `GENERAL`, which means one greeting or decline call. `TECHNICAL`
  hands over to the comparison pipeline. Any other intent value gets the
  fixed text `"Unable to determine query intent."`. The strict
  `states_query` parser has no fallback.
- **The two technical-query variants** (`TechQuery`):
  - the comparison variant in `core/tech_query_test.py`: state extraction,
    JSON query expansion capped at ten terms (as evidently intended; as
    written every expansion is `query.strip()`, see Findings), a primary
    retrieval with k=6, then a fan-out loop over the extracted states with
    k=3;
  - the single-index variant in `core/tech_query.py`: comma-split
    expansion, one retrieval with k=12.
  Both return nothing when the primary retrieval is empty. Otherwise they
  fill the answer prompt with the cited context, the normalised question
  and the chat history or `"No prior conversation."`.
- **Helpers** shared by both variants:
  - `safe_text` (`Text`);
  - `format_docs_with_citation` (`Citations`);
  - the two jurisdiction-to-index tables (`Jurisdictions`), which spell
    Uttarakhand differently;
  - both `expand_query` post-processors (`Expansion`).
- **The fan-out loop** (`FanOut`) is modelled as written. With `n`
  extracted states, `num` runs from `n` down to `0`, so the loop visits
  `states[n-1], …, states[0]` and then `states[-1]`. Python wraps that
  last index to the last state. The last extracted state is therefore
  retrieved twice, unless it is the primary state. Each block is
  prepended, so the secondary context lists the blocks for
  `states[n-1], states[0], …, states[n-1]`, with the primary state
  skipped. `FanOut.FanOutClosedForm` and `FanOut.GujaratTwice` state this.
- **Session and feedback bookkeeping** (`BlobStore`, `Records`, `Sessions`,
  `Feedback`). The blob store is a map from path to JSON document, and
  every operation returns the store as it leaves it together with its
  value or exception. A write made before an exception therefore stays
  made, as it does in the source:
  - `delete_user_session` rewrites the active list even when no record
    matches;
  - `remove_feedback_logic` keeps the chat-history reset when no feedback
    entry matches.

External calls are parameters of the model, gathered in `Calls.World`:
the language model's replies (a JSON parse result or plain text), the
retrieval oracle `(index path, query, k) -> passages`, and the answer
model. Each pipeline run also returns the trace of external calls it made,
so that "no answer call", "exactly one retrieval" and "the technical
pipeline is never invoked" can be stated. Python values are the `Json`
datatype of `PyValues`. Python exceptions are the `Error` datatype, and
each operation raises the error its source line raises.

## Model

| member | source | states |
|---|---|---|
| Text.Strip | core/tech_query_test.py:44 | `str.strip()` leaves no whitespace at either end, never lengthens the string, and leaves an already trimmed string unchanged |
| Text.StripOnlyEnds | core/tech_query_test.py:44 | `str.strip()` removes only whitespace at the ends: the result occurs in the input with nothing but whitespace before and after it |
| Text.CollapseSingleSpaced | core/tech_query_test.py:43 | after `re.sub(r"\s+", " ", …)` every whitespace character is a plain space and no two whitespace characters are adjacent |
| Text.CollapseFixpoint | core/tech_query_test.py:43 | the substitution leaves an already single-spaced string unchanged |
| Text.SafeTextNormalized | core/tech_query_test.py:40-44 | `safe_text` output has no whitespace at its ends, every whitespace in it is a space, and no two are adjacent |
| Text.SafeTextIdempotent | core/tech_query_test.py:40-44 | applying `safe_text` to its own output changes nothing |
| Text.SafeTextHasNoNewline | core/tech_query_test.py:40-44 | `safe_text` output contains no line break, so a citation block's content stays on one line |
| Text.SafeTextIsJoinedWords | core/tech_query_test.py:40-44 | `safe_text(s)` equals the whitespace-separated words of `s` joined by single spaces, an independent definition of the normalisation |
| Text.SafeText | core/tech_query_test.py:40-44 | `safe_text` output has no whitespace at either end and is never longer than its input |
| Text.Collapse | core/tech_query_test.py:43 | the substitution keeps whether the string starts with whitespace, keeps a non-space first character, and never lengthens the string |
| Text.Split | core/tech_query.py:202 | `str.split(c)` always gives at least one piece |
| Text.SplitLength | core/tech_query.py:202 | `str.split(c)` gives one more piece than there are separators, and no piece contains the separator |
| Text.SplitJoin | core/tech_query.py:202 | joining the pieces of `str.split(c)` with `c` gives the original string back |
| Text.JoinSplit | core/tech_query.py:202-203 | splitting a join of separator-free pieces gives the pieces back |
| Text.StripTrailingSpace | core/tech_query_test.py:236-238 | `(q + " ").strip()` equals `q.strip()`, which is the result of an expansion with no terms |
| Citations.FormatDocs | core/tech_query_test.py:46-55 | the formatted context is empty exactly when there are no passages |
| Citations.FormatDocsHead | core/tech_query_test.py:46-55 | a non-empty context begins with the first passage's source-and-page tag |
| Citations.FormatDocsLines | core/tech_query_test.py:46-55 | when the metadata values are single-line, the context's lines are tag, normalised content, blank line, repeated per passage in order, with no trailing blank line |
| Citations.LayoutAt | core/tech_query_test.py:52-55 | in that layout, passage `i` has its tag on line `3i`, its content on line `3i+1`, and a blank separator after it unless it is the last |
| Citations.TagDefaults | core/tech_query_test.py:49-50 | a passage with no `source` or `page` metadata is tagged with source `Unknown` and page `?` |
| Jurisdictions.IndexPath | core/tech_query_test.py:35 | the index folder is the root folder followed by the table entry for the state; a state not in the table raises `KeyError` naming the state |
| Jurisdictions.IndexPathOf | core/tech_query_test.py:259 | an extracted state that is a string is looked up like the primary state; a list or dict key raises `TypeError` (unhashable); any other value raises `KeyError` |
| Jurisdictions.TableSizes | core/tech_query_test.py:13-21 | each variant's table has seven jurisdictions |
| Jurisdictions.TablesInjective | core/tech_query_test.py:13-21 | no two jurisdictions share an index folder, in either table |
| Jurisdictions.IndexPathInjective | core/tech_query_test.py:35 | different jurisdictions load different index paths |
| Jurisdictions.TableSpellings | core/tech_query.py:12-20 | the comparison table spells "Uttarakhand", the single-index table "Uttrakhand"; each lacks the other spelling and both map to the same folder |
| Jurisdictions.TablesAgreeElsewhere | core/tech_query.py:12-20 | apart from that spelling, both tables have the same keys and folders |
| Expansion.Cap | core/tech_query_test.py:233 | `terms[:10]` keeps at most ten terms, and a list keeps exactly its first `min(10, n)`; a value that cannot be sliced raises `TypeError` |
| Expansion.StringsOf | core/tech_query_test.py:236 | `" ".join` succeeds exactly when every term is a string, and then yields those strings; otherwise it raises `TypeError` |
| Expansion.StringsOfStrJson | core/tech_query_test.py:236 | a list of JSON strings is read back as exactly those strings |
| Expansion.ExpandQuery | core/tech_query_test.py:226-238 | the expanded query is always trimmed, and a reply that does not parse gives `query.strip()` |
| Expansion.ExpandTermsOf | core/tech_query_test.py:226-238 | a reply `{"terms": ts}` expands the query with exactly the first `min(10, len(ts))` terms |
| Expansion.ExpandedTermsKept | core/tech_query_test.py:232-238 | for a trimmed query and one-word terms, splitting the expanded query on spaces gives the query's pieces followed by the first `min(10, n)` terms: no term is lost or reordered and at most ten are added |
| Expansion.NoTerms | core/tech_query_test.py:236-238 | with no terms the expansion is the stripped query |
| Expansion.ExpandAsWritten | core/tech_query_test.py:226-230 | as written (no `json` import) every reply gives `query.strip()` |
| Expansion.ExpansionDiscarded | core/tech_query_test.py:226-238 | the reply `{"terms":["wages"]}` for "overtime" should give "overtime wages" but as written gives "overtime" |
| Expansion.CommaTerms | core/tech_query.py:202 | the comma-split variant yields one term per comma plus one, each stripped |
| Expansion.CommaTermsOfPieces | core/tech_query.py:202 | for any reply written as comma-free pieces joined by commas, term i is exactly piece i stripped, in order |
| Expansion.CommaTermsRoundTrip | core/tech_query.py:202 | splitting a comma-join of stripped comma-free terms gives those terms back, so no cap is applied |
| Expansion.CommaExpand | core/tech_query.py:203-204 | the expanded query begins with the original query followed by one space |
| Expansion.CommaExpandTerms | core/tech_query.py:202-204 | a reply listing stripped, comma-free terms separated by commas expands the query to the query, one space, and exactly those terms in order joined by single spaces |
| Expansion.CommaExpandPieces | core/tech_query.py:202-204 | for any reply written as comma-free pieces joined by commas, the expansion is the query, one space, and the pieces, each stripped, in order, joined by single spaces |
| Expansion.CommaExpandNotStripped | core/tech_query.py:203-204 | the result is not stripped: query " q" with an empty reply gives " q " |
| Extraction.RouteQuery | core/query_pipeline.py:52-57 | an unparsable reply routes to `GENERAL`; a parsed non-object raises `AttributeError` (only `JSONDecodeError` is caught); an object routes to `GENERAL` exactly when `intent` is absent or `GENERAL`, and otherwise to the `intent` value itself |
| Extraction.RouteIntentUnvalidated | core/query_pipeline.py:54 | any `intent` value is returned verbatim, with no membership check |
| Extraction.StatesQuery | core/test_comparsion.py:43-55 | a malformed reply raises `JSONDecodeError`, a missing key `KeyError('states')`, a non-object `TypeError`; a list is returned unchanged in length and order |
| Extraction.EchoStates | core/test_comparsion.py:50-53 | the print loop runs exactly `len(states)` times, prints the states last to first, and leaves the list unchanged |
| FanOut.Visited | core/tech_query_test.py:253-268 | no states means no iterations; `n` states mean `n+1` iterations |
| FanOut.VisitedReversed | core/tech_query_test.py:256-268 | the visit order is `states[n-1], …, states[0], states[n-1]`: the `-1` index wraps to the last state |
| FanOut.FanOutLoop | core/tech_query_test.py:253-268 | the `while num >= 0` loop computes the same context, retrieval calls and error as the recursive walk over the visit order |
| FanOut.LoopRound | core/tech_query_test.py:257-268 | one iteration either raises as the walk does or advances the walk by one visit |
| FanOut.WalkShape | core/tech_query_test.py:256-268 | the loop raises exactly when some visited state is not a table key (and not the primary state); every call it makes is a k=3 retrieval for the expanded query, at most one per visit |
| FanOut.WalkClosedForm | core/tech_query_test.py:256-268 | when every visited state resolves, the calls are one retrieval per non-primary visit in visit order, and the context is their blocks in reverse visit order, because each block is prepended |
| FanOut.Walk | core/tech_query_test.py:255-268 | the loop makes at most one retrieval per visited element |
| FanOut.WalkPrimaryOnly | core/tech_query_test.py:256-267 | a walk that meets only the primary state makes no retrieval, raises nothing and leaves the gathered context as it was |
| FanOut.FanOutClosedForm | core/tech_query_test.py:253-270 | the secondary context is the blocks of `states[n-1], states[0], …, states[n-1]` with the primary state skipped |
| FanOut.PrimaryNeverRetrieved | core/tech_query_test.py:257 | no call of the loop retrieves from the primary state's index |
| FanOut.PairFetchesOtherTwice | core/tech_query_test.py:253-268 | for states `[primary, other]` the other index is retrieved twice and its block appears twice |
| FanOut.OtherPrimaryOther | core/tech_query_test.py:256-268 | visiting `other, primary, other` retrieves `other` twice and skips the primary |
| FanOut.GujaratTwice | core/tech_query_test.py:253-268 | primary Maharashtra with extracted `[Maharashtra, Gujarat]` retrieves `guj_ada` twice |
| FanOut.NoStatesNoRetrieval | core/tech_query_test.py:253-255 | no extracted states means no secondary retrieval and an empty secondary context |
| TechQuery.HistoryOrDefault | core/tech_query_test.py:276 | a truthy chat history is passed through; a falsy one becomes `"No prior conversation."` |
| TechQuery.ProcessComparison | core/tech_query_test.py:35-80 | an unknown primary state raises `KeyError` before any model or index call; otherwise the first external call is the state extraction |
| TechQuery.Compare | core/tech_query_test.py:243-283 | the first call is the k=6 primary retrieval; the result is `None` exactly when that retrieval is empty; a returned answer comes from the last call, the answer call |
| TechQuery.ComparisonAsWritten | core/tech_query_test.py:226-245 | whatever the model replies to the expansion prompt, the run as written searches the primary index with the expansion as written, `query.strip()` |
| TechQuery.ComparisonSearchesStrippedQuery | core/tech_query_test.py:241-245 | with an unparsable expansion reply the primary retrieval searches `query.strip()` with k=6 |
| TechQuery.ComparisonNoDocs | core/tech_query_test.py:244-249 | an empty primary retrieval returns `None` after exactly one retrieval, with no secondary retrieval and no answer call |
| TechQuery.ComparisonPrompt | core/tech_query_test.py:270-280 | the prompt's context is the primary block, a space, then the fan-out context; its question is `safe_text` of the expanded query and is normalised; the answer is the model's reply to that prompt |
| TechQuery.ComparisonAnswersOnce | core/tech_query_test.py:244-283 | a comparison run calls the answer model exactly once if it returns an answer, and never otherwise |
| TechQuery.ComparisonEarlyExit | core/tech_query_test.py:35-240 | a comparison request that fails at the table lookup, the state extraction or the expansion raises and has made no answer call |
| TechQuery.CompareAnswersOnce | core/tech_query_test.py:244-283 | the same from the primary retrieval onwards |
| TechQuery.ProcessSingle | core/tech_query.py:34-214 | an unknown state raises `KeyError` before any call; otherwise the run starts with the expansion call and makes at least one more |
| TechQuery.SingleNoDocs | core/tech_query.py:209-214 | an empty k=12 retrieval returns `None` with no answer call |
| TechQuery.SinglePrompt | core/tech_query.py:216-229 | the prompt's context is the formatted passages only, its question `safe_text` of an expanded query that begins with the original query and a space, and its history defaults to `"No prior conversation."` |
| TechQuery.SingleRun | core/tech_query.py:206-232 | a run with passages makes exactly three calls: expansion, one k=12 retrieval on the expanded query, one answer |
| TechQuery.UttarakhandSplitsVariants | core/tech_query.py:12-34 | "Uttarakhand" raises `KeyError` in the single-index variant but is accepted by the comparison variant |
| Pipeline.RouterInput | core/query_pipeline.py:62 | the router sees the query, then `" for "`, then the state |
| Pipeline.ProcessQuery | core/query_pipeline.py:59-88 | every run starts with the routing call on `"<query> for <state>"` |
| Pipeline.GeneralDeclines | core/query_pipeline.py:66-77 | intent `GENERAL` makes exactly one decline call after routing, returns its reply, and never reaches the technical pipeline |
| Pipeline.MalformedReplyDeclines | core/query_pipeline.py:55-57 | an unparsable router reply takes the `GENERAL` path |
| Pipeline.NonObjectReplyRaises | core/query_pipeline.py:53-57 | a router reply that parses to a non-object raises `AttributeError` right after routing |
| Pipeline.TechnicalDelegates | core/query_pipeline.py:79-86 | intent `TECHNICAL` runs the comparison pipeline on the original query, state, perspective and history, and returns its result |
| Pipeline.OtherIntentGivesUp | core/query_pipeline.py:53-88 | whenever the router reply yields an intent other than the two known ones, whatever other keys the reply object holds, the run returns `"Unable to determine query intent."` after the router call alone |
| Pipeline.ExtraKeysIgnored | core/query_pipeline.py:53-88 | a reply object with an extra `reason` key beside an unknown `intent` still gives up after the router call alone |
| Pipeline.AnswersAtMostOnce | core/query_pipeline.py:59-88 | a request calls the answer model at most once, and exactly once when it is technical and yields an answer |
| BlobStore.Read | utility/blob_utils.py:13-18 | a stored path reads its document; a missing path reads `{}`, which is falsy |
| BlobStore.Write | utility/blob_utils.py:20-24 | the path now holds the document and no other path changes |
| BlobStore.Copy | utility/blob_utils.py:26-30 | the destination gets the source's document and nothing else changes; a missing source raises `FileNotFoundError` and changes nothing |
| BlobStore.Remove | utility/blob_utils.py:32-35 | the path holds nothing afterwards, nothing else changes, and deleting a missing path is a no-op |
| BlobStore.ReadAfterWrite | utility/blob_utils.py:13-24 | a write is read back, and other paths read as before |
| BlobStore.MissingIsEmptyList | utility/blob_utils.py:13-16 | a missing blob read with `or []` is the empty list |
| BlobStore.PathsDistinct | utility/manage_sessions.py:117-120 | the six blobs of one user (active and deleted session lists, active and deleted histories, active and removed feedback logs) are pairwise different |
| Records.FindFirst | utility/manage_sessions.py:101-104 | the scan with `break` finds the first record with the field value, after only non-matching dicts; it finds none if no record matches; it raises `AttributeError` at the first non-dict before a match |
| Records.FindFirstAt | utility/manage_sessions.py:59-63 | a match at `i` preceded by non-matching dicts is what the scan finds |
| Records.FindFirstNone | utility/manage_sessions.py:59-65 | a list of non-matching dicts gives no match |
| Records.SetAt | utility/manage_sessions.py:103 | `items[i][key] = v` changes one field of one record and nothing else |
| Records.Unmatched | utility/manage_sessions.py:130-137 | the kept records are exactly the non-matching ones, never more than the input |
| Records.UnmatchedAppend | utility/manage_sessions.py:130-137 | the records kept from a concatenation are those kept from each part, in order: the loop neither reorders records nor merges duplicates |
| Records.UnmatchedSingle | utility/manage_sessions.py:133-137 | one record is kept exactly when its field does not have the value |
| Records.LastMatch | utility/manage_sessions.py:133-135 | the remembered record is the last match, and there is none exactly when no record matches |
| Records.Partition | utility/manage_sessions.py:130-137 | the partitioning loop raises `AttributeError` exactly when some record is not a dict; otherwise it returns the non-matching records in order and the last match |
| Sessions.GetUserSessions | utility/manage_sessions.py:27-30 | an absent or falsy session list reads as `[]` |
| Sessions.GetChatSession | utility/manage_sessions.py:33-36 | the stored history, or `{}` when absent |
| Sessions.LastTimestamp | utility/manage_sessions.py:57 | `messages[-1]["timestamp"]`: `IndexError` on an empty list, `TypeError` on a non-dict, `KeyError` on a missing field |
| Sessions.TouchExisting | utility/manage_sessions.py:59-63 | with an existing id, only the first match's `last_updated` changes and the length is unchanged |
| Sessions.TouchNew | utility/manage_sessions.py:65-73 | with a new id, exactly one new record is appended and earlier records are unchanged |
| Sessions.Touch | utility/manage_sessions.py:59-73 | after touching, the session is listed and its first record carries the new `last_updated`; a list that cannot be scanned raises `AttributeError` or `TypeError` |
| Sessions.Extend | utility/manage_sessions.py:84 | the history's messages become the old ones followed by the new ones; other fields are kept; a non-dict history raises `TypeError` and a missing list `KeyError` |
| Sessions.UpdateOrCreate | utility/manage_sessions.py:53-57 | a bad last timestamp raises before anything is written |
| Sessions.UpdateFrame | utility/manage_sessions.py:39-91 | only the user's session list and this session's history can change |
| Sessions.UpdateStores | utility/manage_sessions.py:53-86 | on success the session list is the touched list, and the history holds the prior messages (or none for a new session) followed by the new ones |
| Sessions.UpdatePartialWrite | utility/manage_sessions.py:75-84 | for any update whose timestamp and session list are usable, a stored history that is truthy but not a dict raises `TypeError` after the touched session list has already been written |
| Sessions.StarSession | utility/manage_sessions.py:94-109 | only the session list can change, and nothing changes on error |
| Sessions.StarFirstOnly | utility/manage_sessions.py:101-109 | `starred` is set on the first match only; with no match it raises `ValueError("Session not found")` and writes nothing |
| Sessions.StarIdempotent | utility/manage_sessions.py:94-109 | starring twice with the same flag is starring once |
| Sessions.UpdateThenStarSucceeds | utility/manage_sessions.py:59-106 | after a successful update, starring that session succeeds |
| Sessions.RenameSession | utility/manage_sessions.py:151-179 | only the session list can change, and nothing changes on error |
| Sessions.RenameFirstOnly | utility/manage_sessions.py:163-176 | the first match gets the new title and timestamp, other records are unchanged, and the reply is `{session_id, new_title}` |
| Sessions.DeleteSession | utility/manage_sessions.py:123 | a missing history raises `FileNotFoundError` before anything changes |
| Sessions.Unlist | utility/manage_sessions.py:127-147 | the metadata step touches only the active and deleted session lists |
| Sessions.DeleteFrame | utility/manage_sessions.py:112-149 | only the two session lists and the two history paths can change |
| Sessions.DeleteMovesHistory | utility/manage_sessions.py:122-124 | the history moves from the active path to the deleted path |
| Sessions.DeleteDropsAll | utility/manage_sessions.py:127-145 | the active list loses every record with the id, duplicates included, and the last match is appended to the deleted list |
| Sessions.DeleteNoMatchStillWrites | utility/manage_sessions.py:139-147 | with no matching record, `ValueError` is raised after the history has moved and the active list has been written back with every record (created empty when it was missing) |
| Sessions.DeleteThenStarFails | utility/manage_sessions.py:101-106 | after a successful delete, starring the session raises `ValueError("Session not found")` |
| Feedback.Messages | utility/feedback.py:13 | `history.get("messages", [])`: a non-dict history raises `AttributeError`, and a missing list is empty |
| Feedback.FindBotMessage | utility/feedback.py:13-17 | the first message with the run id and role `bot`, after only messages that are not; `KeyError('role')` or `AttributeError` at the first message the test cannot read |
| Feedback.FindBotMessageAt | utility/feedback.py:13-17 | a bot message at `i` preceded by readable non-matching messages is what the scan finds |
| Feedback.Score | utility/feedback.py:38-43 | a score is 0, 1 or 2 |
| Feedback.ScoreIgnoresCase | utility/feedback.py:38-43 | the score does not depend on letter case, and exists exactly for bad, good and awesome |
| Feedback.ScoreOrder | utility/feedback.py:38-43 | bad scores 0, good 1, awesome 2, anything else none |
| Feedback.Entry | utility/feedback.py:27-33 | the log entry carries the run id and the feedback value |
| Feedback.Reply | utility/feedback.py:46-57 | the success reply when logging succeeds, otherwise an error reply with the exception text |
| Feedback.MarkAt | utility/feedback.py:15 | setting the status changes one message's field and nothing else in the history |
| Feedback.Log | utility/feedback.py:34-36 | the feedback log gets the entry appended at its end and nothing else changes; a log that is not a list raises `AttributeError` without writing |
| Feedback.SubmitFeedback | utility/feedback.py:7-57 | a successful submission found a bot message with the id and returns the score of the value and the reply for the LangSmith outcome; a failed one changes no blob other than the session's history |
| Feedback.SubmitFrame | utility/feedback.py:7-57 | only the session's history and the user's feedback log can change |
| Feedback.SubmitNoMatchNoWrite | utility/feedback.py:19-20 | with no matching bot message it raises `ValueError` and writes nothing |
| Feedback.SubmitMarksFirstBot | utility/feedback.py:12-23 | on success the first matching bot message's status is the value, nothing else in the history changes, and the result carries the score and reply |
| Feedback.SubmitSkipsUserMessage | utility/feedback.py:14 | a user message with the same id stays untouched and the bot message after it is marked |
| Feedback.SubmitAppendsOne | utility/feedback.py:26-36 | on success the feedback log grows by exactly the new entry, at its end |
| Feedback.SubmitSucceeds | utility/feedback.py:7-57 | a readable history with a matching bot message and a list-shaped log is enough for success |
| Feedback.Withdraw | utility/feedback.py:78-101 | the log step touches only the active and removed feedback logs, and nothing on error |
| Feedback.RemoveFeedback | utility/feedback.py:60-101 | a successful removal found a message with the id and returns the `removed` status for that id; a failed one changes no blob other than the session's history |
| Feedback.RemoveFrame | utility/feedback.py:60-101 | only the history and the two feedback logs can change |
| Feedback.RemoveNoMessageNoWrite | utility/feedback.py:72-73 | with no message of that id it raises `ValueError` and writes nothing |
| Feedback.RemoveResetsFirst | utility/feedback.py:65-75 | the first message with the id, whatever its role, is reset to `"not given"`, and nothing else in the history changes |
| Feedback.RemoveNoEntryKeepsReset | utility/feedback.py:75-99 | with no log entry for the id it raises `ValueError`, but the history reset has already been written |
| Feedback.WithdrawPartitions | utility/feedback.py:84-99 | the active log loses every entry with the id, and the last such entry, stamped `removed_on`, is appended to the removed log |
| Feedback.SubmitThenRemove | utility/feedback.py:7-101 | removing just-submitted feedback restores the log to its earlier entries without that id and archives the new entry |
| Feedback.SubmitLeavesLogs | utility/feedback.py:23-36 | after submission the active log is the old log plus the entry and the removed log is untouched |
| Feedback.SubmitKeepsRemoved | utility/feedback.py:7-57 | submitting, successful or not, never changes the removed-feedback log |

## Left out

- Language-model calls and prompt text. Replies are inputs (`World`), and the instruction prose of the prompt templates is not behaviour that can be checked.
- FAISS loading, embeddings and similarity ranking. Retrieval is an oracle from index path, query and `k` to passages; only the index path, query and `k` of each call are recorded.
- Environment loading and the `RuntimeError` for missing configuration: process plumbing.
- `main.py` (HTTP routes, CORS, uuids, clocks): plumbing outside the core.
- `utility/blob_utils_old.py`: nothing modelled imports it.
- `blob_exists`: no modelled operation calls it; membership in the store map is the same test.
- `authenticate_user_service`: it returns a constant reply.
- File-system I/O in `utility/blob_utils.py`: abstracted as the path-to-document map. JSON indentation and key order on disk are not modelled.
- Path resolution: `utility/blob_utils.py:7-8` joins user and session ids into OS paths unchecked, while the model compares path strings. User and session ids are assumed to contain no `/` and no `..`; an id such as `../../../sessions/u/active/sessions` would make two distinct model paths name one file.
- JSON floats: `Json` numbers are integers only, so values such as `0.0` (falsy) or `1.0 == 1` are not represented; the modelled operations only compare, copy or store such values.
- The LangSmith `create_feedback` call: its outcome is the parameter `logError`. `utility/feedback.py` does not parse as written, because the comment on line 49 swallows the comma after `key=""`. The model follows the evidently intended call and keeps only its outcome.
- The unused `score` parameter of `submit_feedback_logic`, which line 43 overwrites.
- Timestamps from `datetime.now()`: parameters (`now`, `later`).
- `print` diagnostics. The states print loop is kept only to state that it terminates and does not change the list.
- The UTF-8 round trip with `errors="ignore"` in `safe_text` is the identity on Dafny strings, whose characters are Unicode scalar values. `Text.IsSpace` lists the characters Python's `str.isspace()` accepts, which is what the `\s` class matches in `str` patterns.
- Feedback.Lower: folds ASCII letters only, not Python's full Unicode `str.lower()`. This is exact for the three score words, and other values score nothing either way.
- TechQuery.ProcessComparison: runs the corrected expansion (`Expansion.ExpandQuery`) with the model's reply as a parameter. As written every expansion is `query.strip()` (see Findings); `TechQuery.ComparisonAsWritten` states that the as-written behaviour is the corrected pipeline given an unparsable reply.
- Expansion.Cap: slicing a dict is modelled as `TypeError` (Python 3.11 and earlier); Python 3.12 raises `KeyError`. Slicing a string keeps its first ten characters, which `" ".join` then separates with spaces.
- Behaviour the model keeps as the code has it:
  - a router reply that parses to a non-object raises instead of routing to `GENERAL`;
  - an intent outside the two known values gets the fixed text, not the `GENERAL` path;
  - `states_query` has no fallback and runs before expansion and the primary retrieval;
  - the comma-split expansion in `core/tech_query.py` has no ten-term cap.

## Findings

| source | as written | input that shows it | evidently intended | confidence | as-written member | corrected member |
|---|---|---|---|---|---|---|
| core/tech_query_test.py:226-230 | `json` is never imported in this function or file, so `json.loads` raises `NameError`, which `except Exception` swallows; every expansion is `query.strip()` | model reply `{"terms": ["wages"]}` for the query "overtime" gives "overtime" | the parsed terms are appended: "overtime wages", keeping at most ten terms | not executed | Expansion.ExpandAsWritten | Expansion.ExpandQuery |

`Expansion.ExpandAsWritten` models the function as written, and
`Expansion.ExpansionDiscarded` exhibits the reply it throws away.
`Expansion.ExpandQuery` is the corrected definition, and the pipeline uses it
with the reply as a parameter. `Expansion.ExpandTermsOf` and
`Expansion.ExpandedTermsKept` prove that it keeps the first ten terms in
order. An unparsable reply reproduces the as-written behaviour.

=== FILE: blob_store.dfy ===
/** The local blob store of utility/blob_utils.py as a map from blob path
    to the JSON document stored there, and the blob paths the session and
    feedback services use. */
module BlobStore {
  import opened Wrappers
  import opened PyValues

  /** Every stored blob, by path. */
  type Store = map<string, Json>

  /** A store operation that may raise: the store as it was left (writes
      made before an exception stay made) and the value or the
      exception. */
  datatype Effect<T> = Effect(store: Store, result: Result<T, Error>)

  /** `read_json_from_blob` (utility/blob_utils.py:13-18): the stored
      document, or an empty dict for a path that holds none. */
  function Read(store: Store, path: string): (j: Json)
    ensures path !in store ==> j == JObj(map[]) && !Truthy(j)
    ensures path in store ==> j == store[path]
  {
    if path in store then store[path] else JObj(map[])
  }

  /** `write_json_to_blob` (utility/blob_utils.py:20-24): the path now
      holds the document; no other path changes. */
  function Write(store: Store, path: string, doc: Json): (s: Store)
    ensures path in s && s[path] == doc
    ensures forall p :: p != path ==> Unchanged(store, s, p)
  {
    store[path := doc]
  }

  /** `copy_blob` (utility/blob_utils.py:26-30): the destination gets the
      source's document; a missing source raises `FileNotFoundError` and
      changes nothing. */
  function Copy(store: Store, src: string, dst: string): (r: Result<Store, Error>)
    ensures r.Ok? <==> src in store
    ensures r.Err? ==> r.error == FileNotFound(src)
    ensures r.Ok? ==> dst in r.value && r.value[dst] == store[src]
    ensures r.Ok? ==> forall p :: p != dst ==> Unchanged(store, r.value, p)
  {
    if src in store then Ok(Write(store, dst, store[src])) else Err(FileNotFound(src))
  }

  /** `delete_blob` (utility/blob_utils.py:32-35): the path holds nothing
      afterwards; deleting a missing path changes nothing. */
  function Remove(store: Store, path: string): (s: Store)
    ensures path !in s
    ensures forall p :: p != path ==> Unchanged(store, s, p)
    ensures path !in store ==> s == store
  {
    store - {path}
  }

  /** Path `p` holds the same thing (or nothing) in both stores. */
  predicate Unchanged(a: Store, b: Store, p: string) {
    (p in a <==> p in b) && (p in a ==> a[p] == b[p])
  }

  /** A write is read back, and reading any other path sees the old
      store. */
  lemma ReadAfterWrite(store: Store, path: string, doc: Json, other: string)
    ensures Read(Write(store, path, doc), path) == doc
    ensures other != path ==> Read(Write(store, path, doc), other) == Read(store, other)
  {
    if other != path {
      assert Unchanged(store, Write(store, path, doc), other);
    }
  }

  /** A path that did not change reads the same. */
  lemma ReadUnchanged(a: Store, b: Store, p: string)
    requires Unchanged(a, b, p)
    ensures Read(a, p) == Read(b, p)
  {
  }

  /** A missing blob read with `or []` is the empty list. */
  lemma MissingIsEmptyList(store: Store, path: string)
    requires path !in store
    ensures Or(Read(store, path), JArr([])) == JArr([])
  {
  }

  /** Blob of a user's active session list. */
  function SessionsPath(user: string): string {
    "sessions/" + user + "/active/sessions.json"
  }

  /** Blob of a user's deleted session list. */
  function DeletedSessionsPath(user: string): string {
    "sessions/" + user + "/deleted/sessions.json"
  }

  /** Blob of the chat history of an active session. */
  function HistoryPath(user: string, session: string): string {
    "chat_history/" + user + "/active/" + session + ".json"
  }

  /** Blob of the chat history of a deleted session. */
  function DeletedHistoryPath(user: string, session: string): string {
    "chat_history/" + user + "/deleted/" + session + ".json"
  }

  /** Blob of a user's feedback log. */
  function FeedbackPath(user: string): string {
    "feedback/" + user + "/active/feedback.json"
  }

  /** Blob of a user's removed feedback entries. */
  function RemovedFeedbackPath(user: string): string {
    "feedback/" + user + "/removed/feedback.json"
  }

  /** The six blobs one user's operations touch are pairwise different:
      the top folder tells the kinds apart, and the second folder after
      the user tells active from deleted or removed. */
  lemma PathsDistinct(user: string, session: string)
    ensures SessionsPath(user) != DeletedSessionsPath(user)
    ensures HistoryPath(user, session) != DeletedHistoryPath(user, session)
    ensures FeedbackPath(user) != RemovedFeedbackPath(user)
    ensures SessionsPath(user) != HistoryPath(user, session)
    ensures DeletedSessionsPath(user) != HistoryPath(user, session)
    ensures DeletedSessionsPath(user) != DeletedHistoryPath(user, session)
    ensures SessionsPath(user) != DeletedHistoryPath(user, session)
    ensures FeedbackPath(user) != HistoryPath(user, session)
    ensures RemovedFeedbackPath(user) != HistoryPath(user, session)
    ensures SessionsPath(user) != FeedbackPath(user) && SessionsPath(user) != RemovedFeedbackPath(user)
    ensures DeletedSessionsPath(user) != FeedbackPath(user) && DeletedSessionsPath(user) != RemovedFeedbackPath(user)
    ensures DeletedHistoryPath(user, session) != FeedbackPath(user)
    ensures DeletedHistoryPath(user, session) != RemovedFeedbackPath(user)
  {
    var n := |user|;
    assert SessionsPath(user)[9 + n + 1] == 'a';
    assert DeletedSessionsPath(user)[9 + n + 1] == 'd';
    assert HistoryPath(user, session)[13 + n + 1] == 'a';
    assert DeletedHistoryPath(user, session)[13 + n + 1] == 'd';
    assert FeedbackPath(user)[9 + n + 1] == 'a';
    assert RemovedFeedbackPath(user)[9 + n + 1] == 'r';
    assert SessionsPath(user)[0] == 's' && DeletedSessionsPath(user)[0] == 's';
    assert HistoryPath(user, session)[0] == 'c' && DeletedHistoryPath(user, session)[0] == 'c';
    assert FeedbackPath(user)[0] == 'f' && RemovedFeedbackPath(user)[0] == 'f';
  }
}

=== FILE: calls.dfy ===
/** The outside world of the query pipeline: the language-model and
    retrieval calls it makes, recorded in order, and the answers the model
    and the vector store give, taken as inputs. */
module Calls {
  import opened PyValues
  import opened Citations

  /** The arguments the final prompt template is filled with. */
  datatype PromptArgs = PromptArgs(
    context: string,
    question: string,
    perspective: string,
    chatHistory: Json)

  /** One external call, with the input that decides its answer. */
  datatype Call =
    | RouteCall(routed: string)
    | DeclineCall(query: string)
    | ExtractCall(query: string)
    | ExpandCall(query: string)
    | RetrieveCall(index: string, query: string, k: nat)
    | AnswerCall(prompt: PromptArgs)

  /** A vector store: the passages the index at a path returns for a query
      and a result count `k`. */
  type Retriever = (string, string, nat) -> seq<Passage>

  /** What the outside world answers, fixed for one request: the router's
      reply, the greeting or decline text, the state extractor's reply,
      the expansion replies of the two variants (a JSON reply and a
      comma-separated one), the vector stores, and the final answer for a
      prompt. */
  datatype World = World(
    routerReply: JsonParse,
    declineReply: string,
    statesReply: JsonParse,
    expansionReply: JsonParse,
    expansionText: string,
    retrieve: Retriever,
    answer: PromptArgs -> string)

  /** The number of retrieval calls in a trace. */
  function Retrievals(calls: seq<Call>): nat
    decreases |calls|
  {
    if |calls| == 0 then 0
    else (if calls[0].RetrieveCall? then 1 else 0) + Retrievals(calls[1..])
  }

  /** The number of answer calls in a trace. */
  function Answers(calls: seq<Call>): nat
    decreases |calls|
  {
    if |calls| == 0 then 0
    else (if calls[0].AnswerCall? then 1 else 0) + Answers(calls[1..])
  }

  /** Counting distributes over concatenation. */
  lemma {:induction false} CountsAppend(a: seq<Call>, b: seq<Call>)
    ensures Retrievals(a + b) == Retrievals(a) + Retrievals(b)
    ensures Answers(a + b) == Answers(a) + Answers(b)
    decreases |a|
  {
    if |a| > 0 {
      assert (a + b)[1..] == a[1..] + b;
      CountsAppend(a[1..], b);
    } else {
      assert a + b == b;
    }
  }

  /** A count is zero exactly when the trace holds no call of its kind,
      so "no answer call" and "no retrieval" can be read off the counts. */
  lemma {:induction false} CountsZero(calls: seq<Call>)
    ensures Retrievals(calls) == 0 <==> forall i :: 0 <= i < |calls| ==> !calls[i].RetrieveCall?
    ensures Answers(calls) == 0 <==> forall i :: 0 <= i < |calls| ==> !calls[i].AnswerCall?
    decreases |calls|
  {
    if |calls| > 0 {
      CountsZero(calls[1..]);
      assert forall i :: 0 < i < |calls| ==> calls[i] == calls[1..][i - 1];
    }
  }
}

=== FILE: citations.dfy ===
/** `format_docs_with_citation` (core/tech_query_test.py:46-55 and the
    identical core/tech_query.py:45-54): every retrieved passage becomes a
    block headed by a `[SOURCE: … | PAGE: …]` tag, and the blocks are joined
    by blank lines. */
module Citations {
  import opened Text

  /** A retrieved passage: its metadata, with each value already rendered
      as the text an f-string prints for it, and its page content. */
  datatype Passage = Passage(metadata: map<string, string>, pageContent: string)

  /** `d.metadata.get("source", "Unknown")`. */
  function SourceOf(d: Passage): string {
    if "source" in d.metadata then d.metadata["source"] else "Unknown"
  }

  /** `d.metadata.get("page", "?")`. */
  function PageOf(d: Passage): string {
    if "page" in d.metadata then d.metadata["page"] else "?"
  }

  /** The citation tag that heads a block. */
  function Tag(d: Passage): string {
    "[SOURCE: " + SourceOf(d) + " | PAGE: " + PageOf(d) + "]"
  }

  /** One block: the tag, a line break, the normalised content. */
  function Block(d: Passage): string {
    Tag(d) + "\n" + SafeText(d.pageContent)
  }

  /** The blocks of `docs`, in input order. */
  function Blocks(docs: seq<Passage>): (bs: seq<string>)
    ensures |bs| == |docs|
    ensures forall i :: 0 <= i < |docs| ==> bs[i] == Block(docs[i])
  {
    seq(|docs|, i requires 0 <= i < |docs| => Block(docs[i]))
  }

  /** The whole formatted context: empty exactly when there are no
      passages (`FormatDocsHead` and `FormatDocsLines` state what it
      holds otherwise). */
  function FormatDocs(docs: seq<Passage>): (r: string)
    ensures |docs| == 0 <==> r == ""
  {
    var bs := Blocks(docs);
    if |docs| == 0 then Join("\n\n", bs)
    else
      JoinPrefix("\n\n", bs);
      BlockHead(docs[0]);
      Join("\n\n", bs)
  }

  /** A non-empty context opens with the first passage's tag. */
  lemma FormatDocsHead(docs: seq<Passage>)
    requires |docs| > 0
    ensures |FormatDocs(docs)| > |Tag(docs[0])| && FormatDocs(docs)[..|Tag(docs[0])|] == Tag(docs[0])
  {
    var bs := Blocks(docs);
    JoinPrefix("\n\n", bs);
    BlockHead(docs[0]);
    PrefixOfPrefix(FormatDocs(docs), bs[0], Tag(docs[0]));
  }

  /** A block opens with its tag. */
  lemma BlockHead(d: Passage)
    ensures |Block(d)| > |Tag(d)| && Block(d)[..|Tag(d)|] == Tag(d)
  {
    var t := Tag(d);
    assert Block(d) == t + ("\n" + SafeText(d.pageContent));
  }

  /** A prefix of a prefix is a prefix. */
  lemma PrefixOfPrefix(r: string, b: string, t: string)
    requires |r| >= |b| && r[..|b|] == b
    requires |b| > |t| && b[..|t|] == t
    ensures |r| > |t| && r[..|t|] == t
  {
    assert r[..|t|] == r[..|b|][..|t|];
  }

  /** The metadata of `d` renders on one line. */
  predicate OneLineMetadata(d: Passage) {
    '\n' !in SourceOf(d) && '\n' !in PageOf(d)
  }

  /** Heads and bodies laid out as lines: each head, then its body, with
      one empty line between consecutive pairs. */
  function Layout(heads: seq<string>, bodies: seq<string>): (lines: seq<string>)
    requires |heads| == |bodies| > 0
    decreases |heads|
  {
    var first := [heads[0], bodies[0]];
    if |heads| == 1 then first else first + [""] + Layout(heads[1..], bodies[1..])
  }

  /** Where each pair sits in the layout: line `3i` is head `i`, line
      `3i + 1` body `i`, line `3i + 2` the separating empty line. */
  lemma {:induction false} LayoutAt(heads: seq<string>, bodies: seq<string>, i: nat)
    requires |heads| == |bodies| > i
    ensures var lines := Layout(heads, bodies);
      && |lines| == 3 * |heads| - 1
      && lines[3 * i] == heads[i]
      && lines[3 * i + 1] == bodies[i]
      && (i < |heads| - 1 ==> lines[3 * i + 2] == "")
    decreases |heads|
  {
    if |heads| > 1 {
      var rest := Layout(heads[1..], bodies[1..]);
      LayoutAt(heads[1..], bodies[1..], if i == 0 then 0 else i - 1);
    }
  }

  /** The tags of `docs`, in order. */
  function Tags(docs: seq<Passage>): (ts: seq<string>)
    ensures |ts| == |docs| && forall i :: 0 <= i < |docs| ==> ts[i] == Tag(docs[i])
  {
    seq(|docs|, i requires 0 <= i < |docs| => Tag(docs[i]))
  }

  /** The normalised contents of `docs`, in order. */
  function Contents(docs: seq<Passage>): (cs: seq<string>)
    ensures |cs| == |docs| && forall i :: 0 <= i < |docs| ==> cs[i] == SafeText(docs[i].pageContent)
  {
    seq(|docs|, i requires 0 <= i < |docs| => SafeText(docs[i].pageContent))
  }

  /** A tag renders on one line when its metadata does. */
  lemma TagOneLine(d: Passage)
    requires OneLineMetadata(d)
    ensures '\n' !in Tag(d)
  {
    var s := SourceOf(d);
    var p := PageOf(d);
    assert '\n' !in "[SOURCE: " + s + " | PAGE: " + p + "]";
  }

  /** Two newline-free strings joined by a line break split back into the
      two. */
  lemma TwoLines(a: string, b: string)
    requires '\n' !in a && '\n' !in b
    ensures Split(a + "\n" + b, '\n') == [a, b]
  {
    SplitNone(a, '\n');
    SplitNone(b, '\n');
    SplitConcat(a, b, '\n');
  }

  /** Splitting one block at line breaks gives its tag and its content. */
  lemma BlockLines(d: Passage)
    requires OneLineMetadata(d)
    ensures Split(Block(d), '\n') == [Tag(d), SafeText(d.pageContent)]
  {
    SafeTextHasNoNewline(d.pageContent);
    TagOneLine(d);
    TwoLines(Tag(d), SafeText(d.pageContent));
  }

  /** A blank line between two texts splits into an empty line between
      their lines. */
  lemma BlankLineSplit(a: string, b: string)
    ensures Split(a + "\n\n" + b, '\n') == Split(a, '\n') + [""] + Split(b, '\n')
  {
    assert a + "\n\n" + b == a + ['\n'] + ("" + ['\n'] + b);
    SplitConcat(a, "" + ['\n'] + b, '\n');
    SplitConcat("", b, '\n');
  }

  /** The blocks of `docs` can be read back line by line: splitting the
      formatted context at line breaks gives exactly the tag and content
      of each passage, in order, separated by one empty line. */
  lemma {:induction false} FormatDocsLines(docs: seq<Passage>)
    requires |docs| > 0
    requires forall i :: 0 <= i < |docs| ==> OneLineMetadata(docs[i])
    ensures Split(FormatDocs(docs), '\n') == Layout(Tags(docs), Contents(docs))
    decreases |docs|
  {
    BlockLines(docs[0]);
    if |docs| > 1 {
      var rest := docs[1..];
      assert forall i :: 0 <= i < |rest| ==> rest[i] == docs[i + 1];
      FormatDocsLines(rest);
      FormatDocsLinesStep(docs);
    } else {
      assert Blocks(docs) == [Block(docs[0])];
    }
  }

  /** The inductive step of `FormatDocsLines`: the lines of the first
      block, an empty line, and the lines of the rest. */
  lemma FormatDocsLinesStep(docs: seq<Passage>)
    requires |docs| > 1
    requires Split(Block(docs[0]), '\n') == [Tag(docs[0]), SafeText(docs[0].pageContent)]
    requires Split(FormatDocs(docs[1..]), '\n') == Layout(Tags(docs[1..]), Contents(docs[1..]))
    ensures Split(FormatDocs(docs), '\n') == Layout(Tags(docs), Contents(docs))
  {
    FormatDocsStep(docs);
    BlankLineSplit(Block(docs[0]), FormatDocs(docs[1..]));
    LayoutStep(docs);
  }

  /** The layout of two or more passages is the first pair, an empty
      line, and the layout of the rest. */
  lemma LayoutStep(docs: seq<Passage>)
    requires |docs| > 1
    ensures Layout(Tags(docs), Contents(docs))
      == [Tag(docs[0]), SafeText(docs[0].pageContent)] + [""] + Layout(Tags(docs[1..]), Contents(docs[1..]))
  {
    assert Tags(docs)[1..] == Tags(docs[1..]);
    assert Contents(docs)[1..] == Contents(docs[1..]);
  }

  /** The formatted context of two or more passages is the first block, a
      blank line, and the formatted rest. */
  lemma FormatDocsStep(docs: seq<Passage>)
    requires |docs| > 1
    ensures FormatDocs(docs) == Block(docs[0]) + "\n\n" + FormatDocs(docs[1..])
  {
    var bs := Blocks(docs);
    assert bs[1..] == Blocks(docs[1..]);
  }

  /** Missing metadata is cited as an unknown source on an unknown page. */
  lemma TagDefaults(content: string)
    ensures Tag(Passage(map[], content)) == "[SOURCE: Unknown | PAGE: ?]"
  {
  }
}

=== FILE: expansion.dfy ===
/** Query expansion in the two technical-query variants. The comparison
    variant (core/tech_query_test.py:199-238) asks the model for a JSON
    object of search terms, keeps at most ten of them, appends them to the
    query and strips the result. The single-index variant
    (core/tech_query.py:193-204) splits the model's text at commas, strips
    each piece, and appends them all, without a cap and without a final
    strip. */
module Expansion {
  import opened Wrappers
  import opened PyValues
  import opened Text

  /** The hard limit on expansion terms. */
  const MaxTerms: nat := 10

  function Min(a: nat, b: nat): nat {
    if a <= b then a else b
  }

  /** The terms the guarded block yields: the reply's `"terms"` entry, or
      `[]` when it is missing or when anything in the block raised (a parse
      failure, or `.get` on a value that is not a dict). */
  function ParsedTerms(loaded: Result<Json, Error>): (terms: Json)
    ensures !(loaded.Ok? && loaded.value.JObj? && "terms" in loaded.value.fields) ==> terms == JArr([])
    ensures loaded.Ok? && loaded.value.JObj? && "terms" in loaded.value.fields ==>
      terms == loaded.value.fields["terms"]
  {
    match loaded
    case Ok(JObj(f)) => if "terms" in f then f["terms"] else JArr([])
    case _ => JArr([])
  }

  /** `terms[:10]`: the first ten items of a list, the first ten characters
      of a string (which `join` then treats one by one); no other value can
      be sliced. */
  function Cap(terms: Json): (r: Result<seq<Json>, Error>)
    ensures r.Ok? <==> terms.JArr? || terms.JStr?
    ensures r.Ok? ==> |r.value| <= MaxTerms
    ensures terms.JArr? ==> r.value == terms.items[..Min(MaxTerms, |terms.items|)]
    ensures r.Err? ==> r.error == TypeError
  {
    match terms
    case JArr(items) => Ok(items[..Min(MaxTerms, |items|)])
    case JStr(s) => Ok(Chars(s[..Min(MaxTerms, |s|)]))
    case _ => Err(TypeError)
  }

  /** JSON strings for the given texts. */
  function StrJson(ts: seq<string>): (js: seq<Json>)
    ensures |js| == |ts| && forall i :: 0 <= i < |ts| ==> js[i] == JStr(ts[i])
  {
    seq(|ts|, i requires 0 <= i < |ts| => JStr(ts[i]))
  }

  /** The texts `" ".join` needs: `TypeError` unless every item is a
      string. */
  function StringsOf(items: seq<Json>): (r: Result<seq<string>, Error>)
    ensures r.Ok? <==> forall i :: 0 <= i < |items| ==> items[i].JStr?
    ensures r.Ok? ==> StrJson(r.value) == items
    ensures r.Err? ==> r.error == TypeError
    decreases |items|
  {
    if |items| == 0 then Ok([])
    else if !items[0].JStr? then Err(TypeError)
    else
      match StringsOf(items[1..])
      case Err(e) => Err(e)
      case Ok(rest) =>
        StrJsonCons(items[0].s, rest);
        assert items == [items[0]] + items[1..];
        Ok([items[0].s] + rest)
  }

  /** The JSON strings of one more text. */
  lemma StrJsonCons(t: string, ts: seq<string>)
    ensures StrJson([t] + ts) == [JStr(t)] + StrJson(ts)
  {
  }

  /** Reading back the strings of a list of JSON strings gives the texts. */
  lemma StringsOfStrJson(ts: seq<string>)
    ensures StringsOf(StrJson(ts)) == Ok(ts)
  {
    var r := StringsOf(StrJson(ts));
    assert r.Ok?;
    var v := r.value;
    assert StrJson(v) == StrJson(ts);
    assert |v| == |ts|;
    forall i | 0 <= i < |ts|
      ensures v[i] == ts[i]
    {
      assert StrJson(v)[i] == JStr(v[i]);
      assert StrJson(ts)[i] == JStr(ts[i]);
    }
    assert v == ts;
  }

  /** Lines 232-238 given what the guarded block loaded: cap the terms,
      join them after the query, strip. The result never has whitespace at
      either end, and with no terms it is the stripped query. */
  function ExpandWith(query: string, loaded: Result<Json, Error>): (r: Result<string, Error>)
    ensures r.Ok? ==> Trimmed(r.value)
    ensures ParsedTerms(loaded) == JArr([]) ==> r == Ok(Strip(query))
  {
    match Cap(ParsedTerms(loaded))
    case Err(e) => Err(e)
    case Ok(capped) =>
      match StringsOf(capped)
      case Err(e) => Err(e)
      case Ok(terms) =>
        if |terms| == 0 then NoTerms(query); Ok(Expanded(query, terms))
        else Ok(Expanded(query, terms))
  }

  /** The query followed by the terms, stripped. */
  function Expanded(query: string, terms: seq<string>): (e: string)
    ensures Trimmed(e)
  {
    Strip(query + " " + Join(" ", terms))
  }

  /** With no terms, the expansion is the stripped query. */
  lemma NoTerms(query: string)
    ensures Expanded(query, []) == Strip(query)
  {
    assert query + " " + Join(" ", []) == query + " ";
    StripTrailingSpace(query);
  }

  /** `expand_query` as evidently intended, with `json` importable: the
      model's reply is parsed and its terms used. A reply that is not JSON
      leaves the stripped query. */
  function ExpandQuery(query: string, reply: JsonParse): (r: Result<string, Error>)
    ensures r.Ok? ==> Trimmed(r.value)
    ensures reply.Malformed? ==> r == Ok(Strip(query))
  {
    ExpandWith(query, Loads(reply))
  }

  /** `expand_query` as written: the module never imports `json`, so the
      name lookup at line 227 raises `NameError`, which the `except
      Exception` at line 229 swallows. Whatever the model replies, the
      expanded query is the stripped query. */
  function ExpandAsWritten(query: string, reply: JsonParse): (r: Result<string, Error>)
    ensures r == Ok(Strip(query))
  {
    ExpandWith(query, Err(NameError("json")))
  }

  /** A reply with search terms that the corrected expansion uses and the
      code as written throws away. */
  lemma ExpansionDiscarded()
    ensures var reply := Parsed(JObj(map["terms" := JArr([JStr("wages")])]));
      && ExpandQuery("overtime", reply) == Ok("overtime wages")
      && ExpandAsWritten("overtime", reply) == Ok("overtime")
  {
    WagesReply();
    WagesExpanded();
    assert Trimmed("overtime");
  }

  /** The reply of the counterexample lists one term. */
  lemma WagesReply()
    ensures var reply := Parsed(JObj(map["terms" := JArr([JStr("wages")])]));
      ExpandQuery("overtime", reply) == Ok(Expanded("overtime", ["wages"]))
  {
    assert [JStr("wages")] == StrJson(["wages"]);
    assert ["wages"][..Min(MaxTerms, 1)] == ["wages"];
    ExpandTermsOf("overtime", ["wages"]);
  }

  /** The counterexample's expansion, spelled out. */
  lemma WagesExpanded()
    ensures Expanded("overtime", ["wages"]) == "overtime wages"
  {
    assert Join(" ", ["wages"]) == "wages";
    assert "overtime" + " " + "wages" == "overtime wages";
    assert Trimmed("overtime wages");
  }

  /** A reply listing string terms expands with the first ten of them. */
  lemma ExpandTermsOf(query: string, terms: seq<string>)
    ensures var reply := Parsed(JObj(map["terms" := JArr(StrJson(terms))]));
      ExpandQuery(query, reply) == Ok(Expanded(query, terms[..Min(MaxTerms, |terms|)]))
  {
    var kept := terms[..Min(MaxTerms, |terms|)];
    var reply := Parsed(JObj(map["terms" := JArr(StrJson(terms))]));
    assert ParsedTerms(Loads(reply)) == JArr(StrJson(terms));
    assert Cap(JArr(StrJson(terms))) == Ok(StrJson(kept)) by {
      assert StrJson(terms)[..Min(MaxTerms, |terms|)] == StrJson(kept);
    }
    StringsOfStrJson(kept);
  }

  /** The expansion keeps the first ten terms, in order. For a query with
      no whitespace at its ends and terms that are non-empty single words,
      splitting the expanded query at spaces gives the query's pieces
      followed by the first `min(10, n)` terms. */
  lemma ExpandedTermsKept(query: string, terms: seq<string>)
    requires |query| > 0 && Trimmed(query)
    requires forall i :: 0 <= i < |terms| ==> |terms[i]| > 0 && NoSpace(terms[i])
    ensures var r := ExpandQuery(query, Parsed(JObj(map["terms" := JArr(StrJson(terms))])));
      && r.Ok?
      && Split(r.value, ' ') == Split(query, ' ') + terms[..Min(MaxTerms, |terms|)]
  {
    var kept := terms[..Min(MaxTerms, |terms|)];
    ExpandTermsOf(query, terms);
    FirstWords(terms, Min(MaxTerms, |terms|));
    KeptWords(query, kept);
  }

  /** The first `n` of a list of non-empty single words are such words. */
  lemma FirstWords(terms: seq<string>, n: nat)
    requires n <= |terms|
    requires forall i :: 0 <= i < |terms| ==> |terms[i]| > 0 && NoSpace(terms[i])
    ensures forall i :: 0 <= i < n ==> |terms[..n][i]| > 0 && NoSpace(terms[..n][i])
  {
  }

  /** Stripping does not touch a trimmed query followed by single words,
      and splitting at spaces separates the words again. */
  lemma KeptWords(query: string, kept: seq<string>)
    requires |query| > 0 && Trimmed(query)
    requires forall i :: 0 <= i < |kept| ==> |kept[i]| > 0 && NoSpace(kept[i])
    ensures Split(Expanded(query, kept), ' ') == Split(query, ' ') + kept
  {
    if |kept| == 0 {
      NoTerms(query);
      assert Split(query, ' ') + kept == Split(query, ' ');
    } else {
      var x := query + " " + Join(" ", kept);
      assert Expanded(query, kept) == x by {
        KeptTrimmed(query, kept);
      }
      KeptSplit(query, kept);
    }
  }

  /** A trimmed query, a space and non-empty single words has no
      whitespace at either end. */
  lemma KeptTrimmed(query: string, kept: seq<string>)
    requires |query| > 0 && Trimmed(query) && |kept| > 0
    requires forall i :: 0 <= i < |kept| ==> |kept[i]| > 0 && NoSpace(kept[i])
    ensures Trimmed(query + " " + Join(" ", kept))
  {
    var j := Join(" ", kept);
    var x := query + " " + j;
    JoinLastChar(" ", kept);
    var last := kept[|kept| - 1];
    assert !IsSpace(last[|last| - 1]);
    assert x[|x| - 1] == j[|j| - 1];
    assert x[0] == query[0];
  }

  /** Splitting a query, a space and single words at spaces gives the
      query's pieces and then the words. */
  lemma KeptSplit(query: string, kept: seq<string>)
    requires |kept| > 0
    requires forall i :: 0 <= i < |kept| ==> NoSpace(kept[i])
    ensures Split(query + " " + Join(" ", kept), ' ') == Split(query, ' ') + kept
  {
    var j := Join(" ", kept);
    assert Split(query + " " + j, ' ') == Split(query, ' ') + Split(j, ' ') by {
      assert query + " " + j == query + [' '] + j;
      SplitConcat(query, j, ' ');
    }
    assert Split(j, ' ') == kept by {
      forall i | 0 <= i < |kept|
        ensures ' ' !in kept[i]
      {
        SpaceFree(kept[i]);
      }
      JoinSplit(kept, ' ');
    }
  }

  /** A string without whitespace has no plain space. */
  lemma SpaceFree(w: string)
    requires NoSpace(w)
    ensures ' ' !in w
  {
  }

  /** The terms of the single-index variant: the model's text split at
      commas, each piece stripped. One term more than there are commas. */
  function CommaTerms(text: string): (ts: seq<string>)
    ensures |ts| == Count(text, ',') + 1
    ensures forall i :: 0 <= i < |ts| ==> Trimmed(ts[i])
  {
    var parts := Split(text, ',');
    SplitLength(text, ',');
    seq(|parts|, i requires 0 <= i < |parts| => Strip(parts[i]))
  }

  /** Round trip: terms that are already stripped and contain no comma
      come back unchanged from the text that lists them comma-separated. */
  lemma CommaTermsRoundTrip(ts: seq<string>)
    requires |ts| > 0
    requires forall i :: 0 <= i < |ts| ==> Trimmed(ts[i]) && ',' !in ts[i]
    ensures CommaTerms(Join(",", ts)) == ts
  {
    JoinSplit(ts, ',');
    var parts := Split(Join(",", ts), ',');
    assert parts == ts;
    forall i | 0 <= i < |ts|
      ensures Strip(parts[i]) == ts[i]
    {
    }
  }

  /** The terms of a reply are its comma-separated pieces, each stripped,
      in order: `"wages, overtime"` gives `["wages", "overtime"]`. */
  lemma CommaTermsOfPieces(ps: seq<string>)
    requires |ps| > 0
    requires forall i :: 0 <= i < |ps| ==> ',' !in ps[i]
    ensures CommaTerms(Join(",", ps)) == seq(|ps|, i requires 0 <= i < |ps| => Strip(ps[i]))
  {
    JoinSplit(ps, ',');
  }

  /** `expand_query` of the single-index variant: the query, one space,
      and the terms joined by single spaces. The query is kept exactly as
      given, followed by the space. */
  function CommaExpand(query: string, text: string): (r: string)
    ensures |r| > |query| && r[..|query| + 1] == query + " "
  {
    var r := query + " " + Join(" ", CommaTerms(text));
    assert r[..|query| + 1] == query + " ";
    r
  }

  /** A reply listing clean terms separated by commas expands the query
      with exactly those terms, in order, joined by single spaces. */
  lemma CommaExpandTerms(query: string, ts: seq<string>)
    requires |ts| > 0
    requires forall i :: 0 <= i < |ts| ==> Trimmed(ts[i]) && ',' !in ts[i]
    ensures CommaExpand(query, Join(",", ts)) == query + " " + Join(" ", ts)
  {
    CommaTermsRoundTrip(ts);
  }

  /** Any reply, read as its comma-separated pieces: the expansion is the
      query, one space, and the stripped pieces joined by single spaces. */
  lemma CommaExpandPieces(query: string, ps: seq<string>)
    requires |ps| > 0
    requires forall i :: 0 <= i < |ps| ==> ',' !in ps[i]
    ensures CommaExpand(query, Join(",", ps))
      == query + " " + Join(" ", seq(|ps|, i requires 0 <= i < |ps| => Strip(ps[i])))
  {
    CommaTermsOfPieces(ps);
  }

  /** Unlike the comparison variant, nothing is stripped: an empty reply
      leaves the query's own leading space and a trailing one. */
  lemma CommaExpandNotStripped()
    ensures CommaExpand(" q", "") == " q "
  {
    assert Split("", ',') == [""];
    assert CommaTerms("") == [Strip("")];
    assert Strip("") == "";
    assert Join(" ", [""]) == "";
  }
}

=== FILE: extraction.dfy ===
/** The two JSON-reading model calls around the technical pipeline: the
    intent router `route_query` (core/query_pipeline.py:48-57) and the
    jurisdiction extractor `states_query` (core/test_comparsion.py:43-55).
    The model's reply reaches them as a parse result. */
module Extraction {
  import opened Wrappers
  import opened PyValues
  import opened Seqs

  /** The intent used when the router's reply says nothing usable. */
  const General: string := "GENERAL"

  /** `route_query` after the model call: a reply that is not JSON routes
      to GENERAL (only `JSONDecodeError` is caught); a JSON object yields
      its `"intent"` entry verbatim, whatever it is, or GENERAL without
      one; any other JSON value has no `.get`, and the `AttributeError`
      propagates. */
  function RouteQuery(reply: JsonParse): (r: Result<Json, Error>)
    ensures r.Err? <==> reply.Parsed? && !reply.value.JObj?
    ensures r.Err? ==> r.error == AttributeError
    ensures reply.Malformed? ==> r == Ok(JStr(General))
    ensures reply.Parsed? && reply.value.JObj? ==>
      (r.value == JStr(General) <==>
        "intent" !in reply.value.fields || reply.value.fields["intent"] == JStr(General))
    ensures r.Ok? && r.value != JStr(General) ==> HasField(reply.value, "intent", r.value)
  {
    match reply
    case Malformed => Ok(JStr(General))
    case Parsed(JObj(f)) => Ok(if "intent" in f then f["intent"] else JStr(General))
    case Parsed(_) => Err(AttributeError)
  }

  /** The router does not validate the intent: any JSON value the model
      puts under `"intent"` comes back as it is. */
  lemma RouteIntentUnvalidated(v: Json)
    ensures RouteQuery(Parsed(JObj(map["intent" := v]))) == Ok(v)
  {
  }

  /** `states_query` after the model call: no fallback at all. A reply
      that is not JSON raises `JSONDecodeError`; `data["states"]` raises
      `KeyError` on an object without the entry and `TypeError` on any
      other value; `len(states)` and the indexing loop then raise on a
      value without integer indices. Otherwise the value is returned
      exactly as parsed. */
  function StatesQuery(reply: JsonParse): (r: Result<Json, Error>)
    ensures reply.Malformed? ==> r == Err(JsonDecodeError)
    ensures reply.Parsed? && reply.value.JObj? && "states" !in reply.value.fields ==>
      r == Err(KeyError(JStr("states")))
    ensures reply.Parsed? && !reply.value.JObj? ==> r == Err(TypeError)
    ensures r.Ok? ==> HasField(reply.value, "states", r.value) && Indexed(r.value).Ok?
    ensures reply.Parsed? && reply.value.JObj? && "states" in reply.value.fields ==>
      var v := reply.value.fields["states"];
      (r.Ok? <==> Indexed(v).Ok?) && (v.JArr? ==> r == Ok(v))
  {
    var data :- Loads(reply);
    var states :- Subscript(data, "states");
    var elems :- Indexed(states);
    Ok(states)
  }

  /** The diagnostic loop of core/test_comparsion.py:50-53: `num` runs from
      `len(states)` down to 1 and `states[num - 1]` is printed each time.
      It runs exactly `len(states)` times, prints the elements last to
      first, and leaves the list as it was. */
  method EchoStates(states: seq<Json>) returns (printed: seq<Json>, rounds: nat)
    ensures rounds == |states|
    ensures printed == Reverse(states)
  {
    var num := |states|;
    printed := [];
    rounds := 0;
    while num > 0
      invariant 0 <= num <= |states|
      invariant rounds == |states| - num
      invariant printed == Reverse(states[num..])
      decreases num
    {
      ReverseCons(states[num - 1], states[num..]);
      assert states[num - 1..] == [states[num - 1]] + states[num..];
      printed := printed + [states[num - 1]];
      num := num - 1;
      rounds := rounds + 1;
    }
    assert states[0..] == states;
  }
}

=== FILE: fanout.dfy ===
/** The secondary-retrieval loop of the comparison variant
    (core/tech_query_test.py:252-268). With `n` extracted states, `num`
    runs from `n` down to 0 and the loop reads `states[num - 1]`: indices
    `n - 1, …, 0` and then `-1`, which Python wraps to the last element. So
    the last extracted state is visited twice. Each visited state other
    than the primary one is looked up, its index queried for three
    passages, and the formatted block put in FRONT of what was gathered
    so far. */
module FanOut {
  import opened Wrappers
  import opened PyValues
  import opened Seqs
  import opened Citations
  import opened Calls
  import opened Jurisdictions
  import Text

  /** The passages fetched per secondary state. */
  const SecondaryK: nat := 3

  /** The elements the loop reads, in the order it reads them. */
  function Visited(states: seq<Json>): (vs: seq<Json>)
    ensures |states| == 0 ==> vs == []
    ensures |states| > 0 ==> |vs| == |states| + 1
  {
    if |states| == 0 then []
    else seq(|states| + 1, j requires 0 <= j <= |states| => PyIndex(states, |states| - 1 - j))
  }

  /** The visit order read back to front is the last state followed by all
      the states in their own order: the last state comes twice. */
  lemma VisitedReversed(states: seq<Json>)
    requires |states| > 0
    ensures Reverse(Visited(states)) == [states[|states| - 1]] + states
  {
    var vs := Visited(states);
    var r := Reverse(vs);
    var e := [states[|states| - 1]] + states;
    assert |r| == |e|;
    forall i | 0 <= i < |r|
      ensures r[i] == e[i]
    {
      assert r[i] == vs[|states| - i];
      assert vs[|states| - i] == PyIndex(states, i - 1);
      if i > 0 {
        assert e[i] == states[i - 1];
      }
    }
  }

  /** What the loop has gathered, or the exception that ended it. */
  datatype Outcome = Outcome(context: string, calls: seq<Call>, error: Option<Error>)

  /** A visited element the loop can handle: the primary state, which is
      skipped, or a state of the table. */
  predicate Resolvable(x: Json, primary: string) {
    x == JStr(primary) || IndexPathOf(ComparisonTable, x).Ok?
  }

  /** The loop body applied to each of `visits` in turn, starting from the
      gathered text `acc`. A visited element equal to the primary state is
      skipped; any other is looked up in the table (an exception ends the
      walk, keeping the retrievals already made) and its block is put in
      front of the gathered text followed by a space. */
  function Walk(visits: seq<Json>, primary: string, query: string, retrieve: Retriever, acc: string)
    : (o: Outcome)
    ensures |o.calls| <= |visits|
    decreases |visits|
  {
    if |visits| == 0 then Outcome(acc, [], None)
    else if visits[0] == JStr(primary) then Walk(visits[1..], primary, query, retrieve, acc)
    else
      match IndexPathOf(ComparisonTable, visits[0])
      case Err(e) => Outcome(acc, [], Some(e))
      case Ok(path) =>
        var ctx := FormatDocs(retrieve(path, query, SecondaryK));
        var o := Walk(visits[1..], primary, query, retrieve, ctx + " " + acc);
        Outcome(o.context, [RetrieveCall(path, query, SecondaryK)] + o.calls, o.error)
  }

  /** The walk raises exactly when it meets a state other than the primary
      one that is not in the table; every call it makes is a retrieval of
      the secondary size for the query, at most one per visit. */
  lemma {:induction false} WalkShape(visits: seq<Json>, primary: string, query: string, retrieve: Retriever,
                                     acc: string)
    ensures var o := Walk(visits, primary, query, retrieve, acc);
      && (o.error.None? <==> forall i :: 0 <= i < |visits| ==> Resolvable(visits[i], primary))
      && (forall c :: c in o.calls ==> c.RetrieveCall? && c.query == query && c.k == SecondaryK)
      && |o.calls| <= |visits|
    decreases |visits|
  {
    if |visits| > 0 {
      assert forall i :: 0 < i < |visits| ==> visits[i] == visits[1..][i - 1];
      if visits[0] == JStr(primary) {
        WalkShape(visits[1..], primary, query, retrieve, acc);
      } else if IndexPathOf(ComparisonTable, visits[0]).Ok? {
        var ctx := FormatDocs(retrieve(IndexPathOf(ComparisonTable, visits[0]).value, query, SecondaryK));
        WalkShape(visits[1..], primary, query, retrieve, ctx + " " + acc);
      }
    }
  }

  /** A walk that meets only the primary state makes no call and adds
      nothing to the gathered text. */
  lemma {:induction false} WalkPrimaryOnly(visits: seq<Json>, primary: string, query: string, retrieve: Retriever,
                                           acc: string)
    requires forall i :: 0 <= i < |visits| ==> visits[i] == JStr(primary)
    ensures Walk(visits, primary, query, retrieve, acc) == Outcome(acc, [], None)
    decreases |visits|
  {
    if |visits| > 0 {
      assert forall i :: 0 <= i < |visits| - 1 ==> visits[1..][i] == visits[i + 1];
      WalkPrimaryOnly(visits[1..], primary, query, retrieve, acc);
    }
  }

  /** The loop at lines 253-268 as written, with the retrieval of lines
      258-265 as the oracle `retrieve`. It computes the walk over the
      visit order. */
  method FanOutLoop(states: seq<Json>, primary: string, query: string, retrieve: Retriever)
    returns (context: string, calls: seq<Call>, error: Option<Error>)
    ensures Outcome(context, calls, error) == Walk(Visited(states), primary, query, retrieve, "")
  {
    var vs := Visited(states);
    var n := |states|;
    context := "";
    calls := [];
    error := None;
    var num := n;
    if num > 0 {
      LoopEntry(vs, primary, query, retrieve);
      while num >= 0
        invariant -1 <= num <= n && error.None?
        invariant Walk(vs, primary, query, retrieve, "")
          == Prefixed(calls, Walk(vs[n - num..], primary, query, retrieve, context))
        decreases num
      {
        context, calls, error := LoopRound(states, vs, num, primary, query, retrieve, context, calls);
        if error.Some? {
          return;
        }
        num := num - 1;
      }
      assert n - num == |vs|;
      LoopExit(vs, primary, query, retrieve, context, calls);
    }
  }

  /** The walk over all visits before the first round. */
  lemma LoopEntry(vs: seq<Json>, primary: string, query: string, retrieve: Retriever)
    ensures Walk(vs, primary, query, retrieve, "") == Prefixed([], Walk(vs[0..], primary, query, retrieve, ""))
  {
    assert vs[0..] == vs;
    assert [] + Walk(vs, primary, query, retrieve, "").calls == Walk(vs, primary, query, retrieve, "").calls;
  }

  /** Nothing is left to walk after the last round. */
  lemma LoopExit(vs: seq<Json>, primary: string, query: string, retrieve: Retriever,
                 context: string, calls: seq<Call>)
    ensures Prefixed(calls, Walk(vs[|vs|..], primary, query, retrieve, context)) == Outcome(context, calls, None)
  {
    assert vs[|vs|..] == [];
    assert calls + [] == calls;
  }

  /** One round of the loop, reading `states[num - 1]`: the primary state
      is skipped, an unknown state ends the walk with its exception, any
      other state is retrieved for and its block put in front. */
  method LoopRound(states: seq<Json>, vs: seq<Json>, num: int, primary: string, query: string,
                   retrieve: Retriever, context: string, calls: seq<Call>)
    returns (context': string, calls': seq<Call>, error: Option<Error>)
    requires |states| > 0 && vs == Visited(states) && 0 <= num <= |states|
    ensures error.Some? ==>
      Prefixed(calls, Walk(vs[|states| - num..], primary, query, retrieve, context)) == Outcome(context', calls', error)
    ensures error.None? ==>
      Prefixed(calls, Walk(vs[|states| - num..], primary, query, retrieve, context))
        == Prefixed(calls', Walk(vs[|states| - num + 1..], primary, query, retrieve, context'))
  {
    var k := |states| - num;
    var x := PyIndex(states, num - 1);
    assert vs[k] == x;
    context', calls', error := context, calls, None;
    if x == JStr(primary) {
      StepSkip(vs, k, primary, query, retrieve, context);
    } else {
      match IndexPathOf(ComparisonTable, x)
      case Err(e) =>
        StepFail(vs, k, primary, query, retrieve, context);
        error := Some(e);
        assert calls + [] == calls;
      case Ok(path) =>
        var ctx := FormatDocs(retrieve(path, query, SecondaryK));
        StepFetch(vs, k, primary, query, retrieve, context, calls);
        calls' := calls + [RetrieveCall(path, query, SecondaryK)];
        context' := ctx + " " + context;
    }
  }

  /** An outcome with earlier calls in front. */
  function Prefixed(calls: seq<Call>, o: Outcome): Outcome {
    Outcome(o.context, calls + o.calls, o.error)
  }

  /** The walk skips a visit of the primary state. */
  lemma StepSkip(vs: seq<Json>, k: nat, primary: string, query: string, retrieve: Retriever, acc: string)
    requires k < |vs| && vs[k] == JStr(primary)
    ensures Walk(vs[k..], primary, query, retrieve, acc) == Walk(vs[k + 1..], primary, query, retrieve, acc)
  {
    assert vs[k..][1..] == vs[k + 1..];
  }

  /** The walk stops at a state missing from the table. */
  lemma StepFail(vs: seq<Json>, k: nat, primary: string, query: string, retrieve: Retriever, acc: string)
    requires k < |vs| && vs[k] != JStr(primary) && IndexPathOf(ComparisonTable, vs[k]).Err?
    ensures Walk(vs[k..], primary, query, retrieve, acc)
      == Outcome(acc, [], Some(IndexPathOf(ComparisonTable, vs[k]).error))
  {
    assert vs[k..][0] == vs[k];
  }

  /** The walk retrieves for a state of the table and puts its block in
      front. */
  lemma StepFetch(vs: seq<Json>, k: nat, primary: string, query: string, retrieve: Retriever,
                  acc: string, calls: seq<Call>)
    requires k < |vs| && vs[k] != JStr(primary) && IndexPathOf(ComparisonTable, vs[k]).Ok?
    ensures var path := IndexPathOf(ComparisonTable, vs[k]).value;
      var ctx := FormatDocs(retrieve(path, query, SecondaryK));
      Prefixed(calls, Walk(vs[k..], primary, query, retrieve, acc))
        == Prefixed(calls + [RetrieveCall(path, query, SecondaryK)],
                    Walk(vs[k + 1..], primary, query, retrieve, ctx + " " + acc))
  {
    var path := IndexPathOf(ComparisonTable, vs[k]).value;
    var ctx := FormatDocs(retrieve(path, query, SecondaryK));
    var o := Walk(vs[k + 1..], primary, query, retrieve, ctx + " " + acc);
    var call := RetrieveCall(path, query, SecondaryK);
    var tail := vs[k..];
    assert tail[0] == vs[k] && tail[1..] == vs[k + 1..];
    FetchHead(tail, primary, query, retrieve, acc);
    ConsAssoc(calls, call, o.calls);
  }

  /** Moving one call across the seam of two traces. */
  lemma ConsAssoc(a: seq<Call>, c: Call, b: seq<Call>)
    ensures a + ([c] + b) == (a + [c]) + b
  {
  }

  /** One unfolding of the walk at a state of the table. */
  lemma FetchHead(vs: seq<Json>, primary: string, query: string, retrieve: Retriever, acc: string)
    requires 0 < |vs| && vs[0] != JStr(primary) && IndexPathOf(ComparisonTable, vs[0]).Ok?
    ensures var path := IndexPathOf(ComparisonTable, vs[0]).value;
      var o := Walk(vs[1..], primary, query, retrieve, FormatDocs(retrieve(path, query, SecondaryK)) + " " + acc);
      Walk(vs, primary, query, retrieve, acc)
        == Outcome(o.context, [RetrieveCall(path, query, SecondaryK)] + o.calls, o.error)
  {
  }

  /** The visited elements that are not the primary state, in order. */
  function Kept(xs: seq<Json>, primary: string): (ks: seq<Json>)
    ensures |ks| <= |xs|
    ensures forall x :: x in ks <==> x in xs && x != JStr(primary)
    decreases |xs|
  {
    if |xs| == 0 then []
    else if xs[0] == JStr(primary) then Kept(xs[1..], primary)
    else [xs[0]] + Kept(xs[1..], primary)
  }

  /** Filtering distributes over concatenation. */
  lemma {:induction false} KeptAppend(a: seq<Json>, b: seq<Json>, primary: string)
    ensures Kept(a + b, primary) == Kept(a, primary) + Kept(b, primary)
    decreases |a|
  {
    if |a| == 0 {
      assert a + b == b;
    } else {
      assert (a + b)[1..] == a[1..] + b;
      KeptAppend(a[1..], b, primary);
    }
  }

  /** The block a resolvable element contributes. */
  function BlockOf(x: Json, query: string, retrieve: Retriever): string {
    match IndexPathOf(ComparisonTable, x)
    case Ok(path) => FormatDocs(retrieve(path, query, SecondaryK))
    case Err(_) => ""
  }

  /** The retrieval a resolvable element causes. */
  function FetchOf(x: Json, query: string): Call {
    match IndexPathOf(ComparisonTable, x)
    case Ok(path) => RetrieveCall(path, query, SecondaryK)
    case Err(_) => RetrieveCall("", query, SecondaryK)
  }

  /** The blocks of `xs`, each followed by one space, in the order of `xs`. */
  function Glued(xs: seq<Json>, query: string, retrieve: Retriever): string
    decreases |xs|
  {
    if |xs| == 0 then "" else BlockOf(xs[0], query, retrieve) + " " + Glued(xs[1..], query, retrieve)
  }

  /** Gluing distributes over concatenation. */
  lemma {:induction false} GluedAppend(a: seq<Json>, b: seq<Json>, query: string, retrieve: Retriever)
    ensures Glued(a + b, query, retrieve) == Glued(a, query, retrieve) + Glued(b, query, retrieve)
    decreases |a|
  {
    if |a| == 0 {
      assert a + b == b;
    } else {
      assert (a + b)[1..] == a[1..] + b;
      GluedAppend(a[1..], b, query, retrieve);
    }
  }

  /** The retrievals for `xs`, in the order of `xs`. */
  function Fetches(xs: seq<Json>, query: string): (cs: seq<Call>)
    ensures |cs| == |xs| && forall i :: 0 <= i < |xs| ==> cs[i] == FetchOf(xs[i], query)
  {
    seq(|xs|, i requires 0 <= i < |xs| => FetchOf(xs[i], query))
  }

  /** Closed form of a walk that meets no unknown state: the retrievals
      follow the non-primary visits in visit order, and since each block
      goes in front, the blocks come out in the REVERSE of that order. */
  lemma {:induction false} WalkClosedForm(visits: seq<Json>, primary: string, query: string,
                                          retrieve: Retriever, acc: string)
    requires forall i :: 0 <= i < |visits| ==> Resolvable(visits[i], primary)
    ensures var o := Walk(visits, primary, query, retrieve, acc);
      && o.error.None?
      && o.calls == Fetches(Kept(visits, primary), query)
      && o.context == Glued(Kept(Reverse(visits), primary), query, retrieve) + acc
    decreases |visits|
  {
    if |visits| == 0 {
      assert Glued([], query, retrieve) + acc == acc;
    } else {
      var x := visits[0];
      var tail := visits[1..];
      assert forall i :: 0 <= i < |tail| ==> tail[i] == visits[i + 1];
      assert Kept(Reverse(visits), primary) == Kept(Reverse(tail), primary) + Kept([x], primary) by {
        assert visits == [x] + tail;
        ReverseCons(x, tail);
        KeptAppend(Reverse(tail), [x], primary);
      }
      if x == JStr(primary) {
        WalkClosedForm(tail, primary, query, retrieve, acc);
        assert Kept([x], primary) == [];
        assert Kept(Reverse(tail), primary) + [] == Kept(Reverse(tail), primary);
      } else {
        var ctx := BlockOf(x, query, retrieve);
        WalkClosedForm(tail, primary, query, retrieve, ctx + " " + acc);
        WalkStep(tail, x, primary, query, retrieve, acc);
        FetchStep(tail, x, primary, query);
      }
    }
  }

  /** One kept step of the closed form: the block goes last. */
  lemma WalkStep(tail: seq<Json>, x: Json, primary: string, query: string, retrieve: Retriever, acc: string)
    requires x != JStr(primary)
    ensures var g := Glued(Kept(Reverse(tail), primary), query, retrieve);
      g + (BlockOf(x, query, retrieve) + " " + acc)
        == Glued(Kept(Reverse(tail), primary) + Kept([x], primary), query, retrieve) + acc
  {
    var k := Kept(Reverse(tail), primary);
    KeptSingle(x, primary);
    GluedAppend(k, [x], query, retrieve);
    GluedSingle(x, query, retrieve);
    Text.ConcatAssoc(Glued(k, query, retrieve), BlockOf(x, query, retrieve) + " ", acc);
  }

  /** A single element other than the primary state is kept. */
  lemma KeptSingle(x: Json, primary: string)
    requires x != JStr(primary)
    ensures Kept([x], primary) == [x]
  {
    assert [x][1..] == [];
  }

  /** A single element glues to its block and a space. */
  lemma GluedSingle(x: Json, query: string, retrieve: Retriever)
    ensures Glued([x], query, retrieve) == BlockOf(x, query, retrieve) + " "
  {
    assert [x][1..] == [];
  }

  /** One kept step of the closed form: the retrieval goes first. */
  lemma FetchStep(tail: seq<Json>, x: Json, primary: string, query: string)
    requires x != JStr(primary)
    ensures Fetches(Kept([x] + tail, primary), query) == [FetchOf(x, query)] + Fetches(Kept(tail, primary), query)
  {
    assert ([x] + tail)[1..] == tail;
  }

  /** Closed form of the comparison loop when every extracted state is the
      primary one or in the table: the retrievals are made in visit order
      for the non-primary visits, and the gathered context holds the blocks
      of the last state and then of every state in list order, skipping
      the primary state, each followed by a space. */
  lemma FanOutClosedForm(states: seq<Json>, primary: string, query: string, retrieve: Retriever)
    requires |states| > 0
    requires forall i :: 0 <= i < |states| ==> Resolvable(states[i], primary)
    ensures var o := Walk(Visited(states), primary, query, retrieve, "");
      && o.error.None?
      && o.calls == Fetches(Kept(Visited(states), primary), query)
      && o.context == Glued(Kept([states[|states| - 1]] + states, primary), query, retrieve)
  {
    var vs := Visited(states);
    forall i | 0 <= i < |vs|
      ensures Resolvable(vs[i], primary)
    {
      assert vs[i] == PyIndex(states, |states| - 1 - i);
    }
    WalkClosedForm(vs, primary, query, retrieve, "");
    VisitedReversed(states);
    var g := Glued(Kept([states[|states| - 1]] + states, primary), query, retrieve);
    assert g + "" == g;
  }

  /** The primary state's index is never queried again: every retrieval
      of the loop goes to a different path. */
  lemma {:induction false} PrimaryNeverRetrieved(visits: seq<Json>, primary: string, query: string,
                                                 retrieve: Retriever, acc: string)
    requires primary in ComparisonTable
    ensures forall c :: c in Walk(visits, primary, query, retrieve, acc).calls ==>
      c.RetrieveCall? && c.index != IndexPath(ComparisonTable, primary).value
    decreases |visits|
  {
    if |visits| > 0 {
      var x := visits[0];
      if x == JStr(primary) {
        PrimaryNeverRetrieved(visits[1..], primary, query, retrieve, acc);
      } else if IndexPathOf(ComparisonTable, x).Ok? {
        var ctx := FormatDocs(retrieve(IndexPathOf(ComparisonTable, x).value, query, SecondaryK));
        PrimaryNeverRetrieved(visits[1..], primary, query, retrieve, ctx + " " + acc);
        TablesInjective();
        IndexPathInjective(ComparisonTable, x.s, primary);
      }
    }
  }

  /** The double visit: comparing a jurisdiction with one other known
      jurisdiction queries the other one's index twice, and its block
      appears twice in the gathered context. */
  lemma PairFetchesOtherTwice(primary: string, other: string, query: string, retrieve: Retriever)
    requires other in ComparisonTable && other != primary
    ensures var o := Walk(Visited([JStr(primary), JStr(other)]), primary, query, retrieve, "");
      var path := IndexPath(ComparisonTable, other).value;
      var block := FormatDocs(retrieve(path, query, SecondaryK));
      && o.calls == [RetrieveCall(path, query, 3), RetrieveCall(path, query, 3)]
      && o.context == block + " " + block + " "
      && o.error.None?
  {
    VisitedPair(JStr(primary), JStr(other));
    OtherPrimaryOther(JStr(other), primary, query, retrieve);
  }

  /** The walk over `[x, primary, x]` for a known `x`. */
  lemma OtherPrimaryOther(x: Json, primary: string, query: string, retrieve: Retriever)
    requires x != JStr(primary) && IndexPathOf(ComparisonTable, x).Ok?
    ensures var o := Walk([x, JStr(primary), x], primary, query, retrieve, "");
      var path := IndexPathOf(ComparisonTable, x).value;
      var block := FormatDocs(retrieve(path, query, SecondaryK));
      && o.calls == [RetrieveCall(path, query, 3), RetrieveCall(path, query, 3)]
      && o.context == block + " " + block + " "
      && o.error.None?
  {
    var path := IndexPathOf(ComparisonTable, x).value;
    var block := FormatDocs(retrieve(path, query, SecondaryK));
    var call := RetrieveCall(path, query, SecondaryK);
    var acc := block + " " + "";
    assert acc == block + " ";
    FetchHead([x, JStr(primary), x], primary, query, retrieve, "");
    assert [x, JStr(primary), x][1..] == [JStr(primary), x];
    PrimaryThenOther(x, primary, query, retrieve, acc);
    assert block + " " + acc == block + " " + block + " ";
    assert [call] + [call] == [call, call];
  }

  /** The walk over `[primary, x]` for a known `x`, from the gathered text
      `acc`. */
  lemma PrimaryThenOther(x: Json, primary: string, query: string, retrieve: Retriever, acc: string)
    requires x != JStr(primary) && IndexPathOf(ComparisonTable, x).Ok?
    ensures Walk([JStr(primary), x], primary, query, retrieve, acc) == Walk([x], primary, query, retrieve, acc)
    ensures var path := IndexPathOf(ComparisonTable, x).value;
      var block := FormatDocs(retrieve(path, query, SecondaryK));
      Walk([x], primary, query, retrieve, acc) == Outcome(block + " " + acc, [RetrieveCall(path, query, 3)], None)
  {
    assert [JStr(primary), x][1..] == [x];
    assert [x][1..] == [];
  }

  /** Comparing Maharashtra with Gujarat queries the Gujarat index twice. */
  lemma GujaratTwice(query: string, retrieve: Retriever)
    ensures var o := Walk(Visited([JStr("Maharashtra"), JStr("Gujarat")]), "Maharashtra", query, retrieve, "");
      |o.calls| == 2 && o.calls[0] == o.calls[1] == RetrieveCall(IndexRoot + "guj_ada", query, 3)
  {
    GujaratPath();
    PairFetchesOtherTwice("Maharashtra", "Gujarat", query, retrieve);
  }

  /** Two extracted states are visited second, first, second. */
  lemma VisitedPair(a: Json, b: Json)
    ensures Visited([a, b]) == [b, a, b]
  {
    var vs := Visited([a, b]);
    assert |vs| == 3;
    assert vs[0] == PyIndex([a, b], 1);
    assert vs[1] == PyIndex([a, b], 0);
    assert vs[2] == PyIndex([a, b], -1);
  }

  /** Gujarat's index path in the comparison table. */
  lemma GujaratPath()
    ensures IndexPathOf(ComparisonTable, JStr("Gujarat")) == Ok(IndexRoot + "guj_ada")
  {
  }

  /** With no extracted states the loop does not run. */
  lemma NoStatesNoRetrieval(primary: string, query: string, retrieve: Retriever)
    ensures Walk(Visited([]), primary, query, retrieve, "") == Outcome("", [], None)
  {
  }
}

=== FILE: feedback.dfy ===
/** The feedback services of utility/feedback.py as operations on the blob
    store: marking a bot message of a session's history with the user's
    feedback and logging it, and taking that feedback back. The clock is a
    parameter, and so is the outcome of the call to the LangSmith feedback
    service. */
module Feedback {
  import opened Wrappers
  import opened PyValues
  import opened BlobStore
  import opened Records

  /** The field that identifies a message, and a feedback entry. */
  const MessageKey: string := "message_id"

  /** The field of a message that records its feedback. */
  const StatusKey: string := "feedback_status"

  /** The status a message gets back when its feedback is removed. */
  const NotGiven: string := "not given"

  /** `history.get("messages", [])` iterated (lines 13 and 66): a history
      that is not a dict has no `.get`; a missing list is empty. */
  function Messages(history: Json): (r: Result<seq<Json>, Error>)
    ensures !history.JObj? ==> r == Err(AttributeError)
    ensures history.JObj? && "messages" !in history.fields ==> r == Ok([])
    ensures r.Ok? && |r.value| > 0 ==>
      history.JObj? && "messages" in history.fields && history.fields["messages"] == JArr(r.value)
  {
    if !history.JObj? then Err(AttributeError)
    else if "messages" in history.fields then Iterate(history.fields["messages"])
    else Ok([])
  }

  /** `msg.get("message_id") == run_id and msg["role"] == "bot"` can be
      evaluated on `m` without raising. */
  predicate Scannable(m: Json, runId: string) {
    m.JObj? && (HasField(m, MessageKey, JStr(runId)) ==> "role" in m.fields)
  }

  /** The bot's message with the given id. */
  predicate BotMessage(m: Json, runId: string) {
    HasField(m, MessageKey, JStr(runId)) && HasField(m, "role", JStr("bot"))
  }

  /** The loop of lines 13-17: the index of the first bot message with the
      id, `None` when there is none, or the exception the condition raises
      on the first message it cannot evaluate: `AttributeError` for a
      message that is not a dict, `KeyError` for a message with the id but
      no role. A user message with the id is passed over. */
  function FindBotMessage(items: seq<Json>, runId: string): (r: Result<Option<nat>, Error>)
    ensures r.Ok? && r.value.Some? ==> r.value.value < |items| && BotMessage(items[r.value.value], runId)
    ensures r.Ok? ==> forall j :: 0 <= j < |items| && (r.value.None? || j < r.value.value) ==>
      Scannable(items[j], runId) && !BotMessage(items[j], runId)
    ensures r.Err? ==> exists j :: (0 <= j < |items| && !Scannable(items[j], runId) &&
      r.error == (if items[j].JObj? then KeyError(JStr("role")) else AttributeError) &&
      forall i :: 0 <= i < j ==> Scannable(items[i], runId) && !BotMessage(items[i], runId))
    decreases |items|
  {
    if |items| == 0 then Ok(None)
    else if !items[0].JObj? then Err(AttributeError)
    else if HasField(items[0], MessageKey, JStr(runId)) && "role" !in items[0].fields then
      Err(KeyError(JStr("role")))
    else if BotMessage(items[0], runId) then Ok(Some(0))
    else
      var rest := FindBotMessage(items[1..], runId);
      assert forall j :: 1 <= j < |items| ==> items[j] == items[1..][j - 1];
      match rest
      case Err(e) =>
        HaltsLater(items, runId, e);
        Err(e)
      case Ok(None) => Ok(None)
      case Ok(Some(i)) => Ok(Some(i + 1))
  }

  /** A message the rest of the list halts at is one the whole list halts
      at, when the first message is passed over. */
  lemma HaltsLater(items: seq<Json>, runId: string, e: Error)
    requires |items| > 0 && Scannable(items[0], runId) && !BotMessage(items[0], runId)
    requires exists j :: (0 <= j < |items[1..]| && !Scannable(items[1..][j], runId) &&
      e == (if items[1..][j].JObj? then KeyError(JStr("role")) else AttributeError) &&
      forall i :: 0 <= i < j ==> Scannable(items[1..][i], runId) && !BotMessage(items[1..][i], runId))
    ensures exists j :: (0 <= j < |items| && !Scannable(items[j], runId) &&
      e == (if items[j].JObj? then KeyError(JStr("role")) else AttributeError) &&
      forall i :: 0 <= i < j ==> Scannable(items[i], runId) && !BotMessage(items[i], runId))
  {
    var j :| 0 <= j < |items[1..]| && !Scannable(items[1..][j], runId) &&
      e == (if items[1..][j].JObj? then KeyError(JStr("role")) else AttributeError) &&
      forall i :: 0 <= i < j ==> Scannable(items[1..][i], runId) && !BotMessage(items[1..][i], runId);
    assert items[j + 1] == items[1..][j];
    assert forall i :: 1 <= i < j + 1 ==> items[i] == items[1..][i - 1];
  }

  /** The converse of `FindBotMessage`'s contract: a bot message at `i`
      with only harmless non-matching messages before it is what the loop
      finds. */
  lemma {:induction false} FindBotMessageAt(items: seq<Json>, runId: string, i: nat)
    requires i < |items| && BotMessage(items[i], runId)
    requires forall j :: 0 <= j < i ==> Scannable(items[j], runId) && !BotMessage(items[j], runId)
    ensures FindBotMessage(items, runId) == Ok(Some(i))
    decreases i
  {
    if i > 0 {
      assert forall j :: 0 <= j < i - 1 ==> items[1..][j] == items[j + 1];
      FindBotMessageAt(items[1..], runId, i - 1);
    }
  }

  /** `c.lower()` for ASCII letters; other characters are kept. */
  function LowerChar(c: char): (d: char)
    ensures 'A' <= c <= 'Z' ==> 'a' <= d <= 'z'
    ensures !('A' <= c <= 'Z') ==> d == c
  {
    if 'A' <= c <= 'Z' then (c as int - 'A' as int + 'a' as int) as char else c
  }

  /** `s.lower()`, character by character. */
  function Lower(s: string): (r: string)
    ensures |r| == |s|
    ensures forall i :: 0 <= i < |s| ==> r[i] == LowerChar(s[i])
  {
    seq(|s|, i requires 0 <= i < |s| => LowerChar(s[i]))
  }

  /** Lowering twice is lowering once. */
  lemma LowerIdempotent(s: string)
    ensures Lower(Lower(s)) == Lower(s)
  {
    assert forall i :: 0 <= i < |s| ==> LowerChar(LowerChar(s[i])) == LowerChar(s[i]);
  }

  /** `score_map.get(value.lower())` (lines 38-43). */
  function Score(value: string): (r: Option<int>)
    ensures r.Some? ==> 0 <= r.value <= 2
  {
    var v := Lower(value);
    if v == "bad" then Some(0)
    else if v == "good" then Some(1)
    else if v == "awesome" then Some(2)
    else None
  }

  /** The score ignores case: a value scores what its lower-case form
      scores, and exactly the three words, in any case, score. */
  lemma ScoreIgnoresCase(value: string)
    ensures Score(Lower(value)) == Score(value)
    ensures Score(value).Some? <==> Lower(value) in {"bad", "good", "awesome"}
  {
    LowerIdempotent(value);
  }

  /** The score orders the three words: bad below good below awesome. */
  lemma ScoreOrder()
    ensures Score("Bad") == Some(0) && Score("GOOD") == Some(1) && Score("Awesome") == Some(2)
    ensures Score("great") == None
  {
    assert Lower("Bad") == "bad";
    assert Lower("GOOD") == "good";
    assert Lower("Awesome") == "awesome";
    assert Lower("great") == "great";
  }

  /** The entry logged for one feedback (lines 27-33). */
  function Entry(session: string, runId: string, value: string, comment: string, now: string): (e: Json)
    ensures HasField(e, MessageKey, JStr(runId)) && HasField(e, "feedback", JStr(value))
  {
    JObj(map[MessageKey := JStr(runId), "feedback" := JStr(value), "comment" := JStr(comment),
             "session_id" := JStr(session), "timestamp" := JStr(now)])
  }

  /** What submitting returns: the score handed to LangSmith, and the reply,
      which depends on whether the LangSmith call raised (`logError` holds
      the exception's text) or not. */
  datatype Submission = Submission(score: Option<int>, reply: Json)

  /** The reply of lines 54-57. */
  function Reply(logError: Option<string>): (j: Json)
    ensures logError.None? ==> HasField(j, "status", JStr("success"))
    ensures logError.Some? ==> HasField(j, "error", JStr(logError.value)) && "status" !in j.fields
  {
    match logError
    case None => JObj(map["status" := JStr("success"), "message" := JStr("Feedback saved and logged to LangSmith")])
    case Some(e) => JObj(map["message" := JStr("Feedback saved but failed to log to LangSmith"), "error" := JStr(e)])
  }

  /** `submit_feedback_logic` (lines 7-57): the first bot message with the
      id gets the feedback as its status and the history is written back;
      then an entry is appended to the user's feedback log. Without such a
      message it raises `ValueError` and writes nothing. Only the history
      and the feedback log can change. */
  function SubmitFeedback(store: Store, user: string, session: string, runId: string, value: string,
                          comment: string, now: string, logError: Option<string>): (r: Effect<Submission>)
    ensures r.result.Ok? ==> r.result.value == Submission(Score(value), Reply(logError))
    ensures r.result.Ok? ==>
      MarkBot(Read(store, HistoryPath(user, session)), runId, value).Ok?
      && MarkBot(Read(store, HistoryPath(user, session)), runId, value).value.Some?
    ensures r.result.Err? ==> forall p :: p != HistoryPath(user, session) ==> Unchanged(store, r.store, p)
  {
    var path := HistoryPath(user, session);
    match MarkBot(Read(store, path), runId, value)
    case Err(e) => Effect(store, Err(e))
    case Ok(None) => Effect(store, Err(ValueError("Message ID not found in chat history.")))
    case Ok(Some(marked)) =>
      Log(Write(store, path, marked), user, Entry(session, runId, value, comment, now),
          Submission(Score(value), Reply(logError)))
  }

  /** Lines 12-17 on the history: the history with the first bot message
      carrying the id marked, `None` when there is no such message, or the
      exception the scan raises. */
  function MarkBot(history: Json, runId: string, value: string): Result<Option<Json>, Error> {
    match Messages(history)
    case Err(e) => Err(e)
    case Ok(msgs) =>
      match FindBotMessage(msgs, runId)
      case Err(e) => Err(e)
      case Ok(None) => Ok(None)
      case Ok(Some(i)) => Ok(Some(MarkAt(history, msgs, i, value)))
  }

  /** `msg["feedback_status"] = status` on the `i`-th message, seen from
      the history that holds the messages: that message gets the status,
      and nothing else in the history changes. */
  function MarkAt(history: Json, msgs: seq<Json>, i: nat, status: string): (h: Json)
    requires Messages(history) == Ok(msgs) && i < |msgs| && msgs[i].JObj?
    ensures h.JObj? && history.JObj? && h.fields.Keys == history.fields.Keys
    ensures forall k :: k in history.fields && k != "messages" ==> h.fields[k] == history.fields[k]
    ensures Messages(h).Ok? && |Messages(h).value| == |msgs|
    ensures Messages(h).value[i] == SetField(msgs[i], StatusKey, JStr(status))
    ensures forall j :: 0 <= j < |msgs| && j != i ==> Messages(h).value[j] == msgs[j]
  {
    SetField(history, "messages", JArr(SetAt(msgs, i, StatusKey, JStr(status))))
  }

  /** Lines 34-36: `(read(path) or []).append(entry)` written back; a
      stored log that is truthy but not a list has no `append`. Only the
      log can change. */
  function Log<T>(store: Store, user: string, entry: Json, done: T): (r: Effect<T>)
    ensures forall p :: p != FeedbackPath(user) ==> Unchanged(store, r.store, p)
    ensures r.result.Ok? <==> Or(Read(store, FeedbackPath(user)), JArr([])).JArr?
    ensures r.result.Ok? ==> r.result.value == done
    ensures r.result.Ok? ==>
      Read(r.store, FeedbackPath(user)) == JArr(Or(Read(store, FeedbackPath(user)), JArr([])).items + [entry])
    ensures r.result.Err? ==> r == Effect(store, Err(AttributeError))
  {
    match Or(Read(store, FeedbackPath(user)), JArr([]))
    case JArr(entries) => Effect(Write(store, FeedbackPath(user), JArr(entries + [entry])), Ok(done))
    case _ => Effect(store, Err(AttributeError))
  }

  /** Submitting can change the session's history and the user's
      feedback log, and no other blob. */
  lemma SubmitFrame(store: Store, user: string, session: string, runId: string, value: string,
                    comment: string, now: string, logError: Option<string>, p: string)
    requires p != HistoryPath(user, session) && p != FeedbackPath(user)
    ensures Unchanged(store, SubmitFeedback(store, user, session, runId, value, comment, now, logError).store, p)
  {
    var marked := MarkBot(Read(store, HistoryPath(user, session)), runId, value);
    if marked.Ok? && marked.value.Some? {
      assert Unchanged(store, Write(store, HistoryPath(user, session), marked.value.value), p);
    }
  }

  /** Without a bot message carrying the id, submitting raises the
      not-found `ValueError` and writes nothing. */
  lemma SubmitNoMatchNoWrite(store: Store, user: string, session: string, runId: string, value: string,
                             comment: string, now: string, logError: Option<string>)
    requires Messages(Read(store, HistoryPath(user, session))).Ok?
    requires FindBotMessage(Messages(Read(store, HistoryPath(user, session))).value, runId) == Ok(None)
    ensures SubmitFeedback(store, user, session, runId, value, comment, now, logError)
      == Effect(store, Err(ValueError("Message ID not found in chat history.")))
  {
  }

  /** Submitting marks the first bot message with the id, and only it:
      every other message, and every other field of the history, is as it
      was; the result carries the score and the reply, whatever the
      LangSmith call did. */
  lemma SubmitMarksFirstBot(store: Store, user: string, session: string, runId: string, value: string,
                            comment: string, now: string, logError: Option<string>)
    requires SubmitFeedback(store, user, session, runId, value, comment, now, logError).result.Ok?
    ensures Messages(Read(store, HistoryPath(user, session))).Ok?
    ensures FindBotMessage(Messages(Read(store, HistoryPath(user, session))).value, runId).Ok?
    ensures FindBotMessage(Messages(Read(store, HistoryPath(user, session))).value, runId).value.Some?
    ensures var history := Read(store, HistoryPath(user, session));
      var msgs := Messages(history).value;
      var i := FindBotMessage(msgs, runId).value.value;
      var r := SubmitFeedback(store, user, session, runId, value, comment, now, logError);
      var after := Read(r.store, HistoryPath(user, session));
      && history.JObj? && after.JObj? && after.fields.Keys == history.fields.Keys
      && (forall k :: k in history.fields && k != "messages" ==> after.fields[k] == history.fields[k])
      && Messages(after).Ok? && |Messages(after).value| == |msgs|
      && Messages(after).value[i] == SetField(msgs[i], StatusKey, JStr(value))
      && (forall j :: 0 <= j < |msgs| && j != i ==> Messages(after).value[j] == msgs[j])
      && r.result.value == Submission(Score(value), Reply(logError))
  {
    PathsDistinct(user, session);
    var history := Read(store, HistoryPath(user, session));
    var msgs := Messages(history).value;
    var i := FindBotMessage(msgs, runId).value.value;
    var marked := MarkAt(history, msgs, i, value);
    var r := SubmitFeedback(store, user, session, runId, value, comment, now, logError);
    assert Unchanged(Write(store, HistoryPath(user, session), marked), r.store, HistoryPath(user, session));
    assert Read(r.store, HistoryPath(user, session)) == marked;
  }

  /** A successful submit leaves the log holding what it held before (an
      empty list for a missing or falsy blob) followed by the one new
      entry. */
  lemma SubmitAppendsOne(store: Store, user: string, session: string, runId: string, value: string,
                         comment: string, now: string, logError: Option<string>)
    requires SubmitFeedback(store, user, session, runId, value, comment, now, logError).result.Ok?
    ensures var prior := Or(Read(store, FeedbackPath(user)), JArr([]));
      var r := SubmitFeedback(store, user, session, runId, value, comment, now, logError);
      && prior.JArr?
      && Read(r.store, FeedbackPath(user)) == JArr(prior.items + [Entry(session, runId, value, comment, now)])
  {
    PathsDistinct(user, session);
    var marked := MarkBot(Read(store, HistoryPath(user, session)), runId, value).value.value;
    ReadAfterWrite(store, HistoryPath(user, session), marked, FeedbackPath(user));
  }

  /** A user message that shares the bot message's id comes first in the
      history but is not the one marked. */
  lemma SubmitSkipsUserMessage(store: Store, user: string, session: string, runId: string, value: string,
                               comment: string, now: string, logError: Option<string>)
    requires FeedbackPath(user) !in store
    requires HistoryPath(user, session) in store
    requires store[HistoryPath(user, session)] == JObj(map["messages" := JArr([
               JObj(map[MessageKey := JStr(runId), "role" := JStr("user")]),
               JObj(map[MessageKey := JStr(runId), "role" := JStr("bot")])])])
    ensures var r := SubmitFeedback(store, user, session, runId, value, comment, now, logError);
      var h := Read(r.store, HistoryPath(user, session));
      && r.result.Ok?
      && h.JObj? && "messages" in h.fields && h.fields["messages"].JArr?
      && |h.fields["messages"].items| == 2
      && h.fields["messages"].items[0] == JObj(map[MessageKey := JStr(runId), "role" := JStr("user")])
      && HasField(h.fields["messages"].items[1], StatusKey, JStr(value))
  {
    var msgs := Messages(store[HistoryPath(user, session)]).value;
    FindBotMessageAt(msgs, runId, 1);
    MissingIsEmptyList(store, FeedbackPath(user));
    SubmitSucceeds(store, user, session, runId, value, comment, now, logError);
    SubmitMarksFirstBot(store, user, session, runId, value, comment, now, logError);
  }

  /** The converse of the error cases: with a bot message carrying the id
      and a feedback log that is a list (or missing), submitting
      succeeds. */
  lemma SubmitSucceeds(store: Store, user: string, session: string, runId: string, value: string,
                       comment: string, now: string, logError: Option<string>)
    requires MarkBot(Read(store, HistoryPath(user, session)), runId, value).Ok?
    requires MarkBot(Read(store, HistoryPath(user, session)), runId, value).value.Some?
    requires Or(Read(store, FeedbackPath(user)), JArr([])).JArr?
    ensures SubmitFeedback(store, user, session, runId, value, comment, now, logError).result.Ok?
  {
    PathsDistinct(user, session);
    var marked := MarkBot(Read(store, HistoryPath(user, session)), runId, value).value.value;
    ReadAfterWrite(store, HistoryPath(user, session), marked, FeedbackPath(user));
  }

  /** `remove_feedback_logic` (lines 60-101): the first message with the
      id, whatever its role, gets `"not given"` back and the history is
      written; then the user's feedback log loses every entry for the
      message and the last of them, stamped `removed_on`, joins the
      removed log. Without such a message it raises `ValueError` and
      writes nothing. Only the history and the two logs can change. */
  function RemoveFeedback(store: Store, user: string, session: string, runId: string, now: string)
    : (r: Effect<Json>)
    ensures r.result.Ok? ==> r.result.value == JObj(map["status" := JStr("removed"), MessageKey := JStr(runId)])
    ensures r.result.Ok? ==>
      MarkFirst(Read(store, HistoryPath(user, session)), runId).Ok?
      && MarkFirst(Read(store, HistoryPath(user, session)), runId).value.Some?
    ensures r.result.Err? ==> forall p :: p != HistoryPath(user, session) ==> Unchanged(store, r.store, p)
  {
    var path := HistoryPath(user, session);
    match MarkFirst(Read(store, path), runId)
    case Err(e) => Effect(store, Err(e))
    case Ok(None) => Effect(store, Err(ValueError("Message ID not found in chat history")))
    case Ok(Some(reset)) => Withdraw(Write(store, path, reset), user, runId, now)
  }

  /** Lines 62-70 on the history: the history with the first message
      carrying the id, whatever its role, reset to `"not given"`. */
  function MarkFirst(history: Json, runId: string): Result<Option<Json>, Error> {
    match Messages(history)
    case Err(e) => Err(e)
    case Ok(msgs) =>
      match FindFirst(msgs, MessageKey, JStr(runId))
      case Err(e) => Err(e)
      case Ok(None) => Ok(None)
      case Ok(Some(i)) => Ok(Some(MarkAt(history, msgs, i, NotGiven)))
  }

  /** Lines 78-101, once the history is written: the partitioning loop
      over the log; with no entry for the message it raises `ValueError`
      and the log is not rewritten; otherwise the removed log is written,
      then the active one. Only the two logs can change. */
  function Withdraw(store: Store, user: string, runId: string, now: string): (r: Effect<Json>)
    ensures forall p :: p != FeedbackPath(user) && p != RemovedFeedbackPath(user) ==> Unchanged(store, r.store, p)
    ensures r.result.Err? ==> r.store == store
  {
    var removed := Or(Read(store, RemovedFeedbackPath(user)), JArr([]));
    match Iterate(Or(Read(store, FeedbackPath(user)), JArr([])))
    case Err(e) => Effect(store, Err(e))
    case Ok(items) =>
      if !AllDicts(items) then Effect(store, Err(AttributeError))
      else
        match LastMatch(items, MessageKey, JStr(runId))
        case None => Effect(store, Err(ValueError("Feedback entry not found for removal.")))
        case Some(x) =>
          match removed
          case JArr(rs) =>
            var moved := Write(store, RemovedFeedbackPath(user), JArr(rs + [SetField(x, "removed_on", JStr(now))]));
            Effect(Write(moved, FeedbackPath(user), JArr(Unmatched(items, MessageKey, JStr(runId)))),
                   Ok(JObj(map["status" := JStr("removed"), MessageKey := JStr(runId)])))
          case _ => Effect(store, Err(AttributeError))
  }

  /** Removing can change the session's history and the user's two
      feedback logs, and no other blob. */
  lemma RemoveFrame(store: Store, user: string, session: string, runId: string, now: string, p: string)
    requires p != HistoryPath(user, session) && p != FeedbackPath(user) && p != RemovedFeedbackPath(user)
    ensures Unchanged(store, RemoveFeedback(store, user, session, runId, now).store, p)
  {
    var reset := MarkFirst(Read(store, HistoryPath(user, session)), runId);
    if reset.Ok? && reset.value.Some? {
      var written := Write(store, HistoryPath(user, session), reset.value.value);
      assert Unchanged(store, written, p);
      assert Unchanged(written, Withdraw(written, user, runId, now).store, p);
    }
  }

  /** Without a message carrying the id, removing raises the not-found
      `ValueError` and writes nothing. */
  lemma RemoveNoMessageNoWrite(store: Store, user: string, session: string, runId: string, now: string)
    requires Messages(Read(store, HistoryPath(user, session))).Ok?
    requires FindFirst(Messages(Read(store, HistoryPath(user, session))).value, MessageKey, JStr(runId)) == Ok(None)
    ensures RemoveFeedback(store, user, session, runId, now)
      == Effect(store, Err(ValueError("Message ID not found in chat history")))
  {
  }

  /** Removing resets the status of the first message with the id, user
      or bot, and of no other message; the history is written even when
      the log turns out to hold no entry for it. */
  lemma RemoveResetsFirst(store: Store, user: string, session: string, runId: string, now: string)
    requires Messages(Read(store, HistoryPath(user, session))).Ok?
    requires FindFirst(Messages(Read(store, HistoryPath(user, session))).value, MessageKey, JStr(runId)).Ok?
    requires FindFirst(Messages(Read(store, HistoryPath(user, session))).value, MessageKey, JStr(runId)).value.Some?
    ensures var history := Read(store, HistoryPath(user, session));
      var msgs := Messages(history).value;
      var i := FindFirst(msgs, MessageKey, JStr(runId)).value.value;
      var r := RemoveFeedback(store, user, session, runId, now);
      var after := Read(r.store, HistoryPath(user, session));
      && history.JObj? && after.JObj? && after.fields.Keys == history.fields.Keys
      && (forall k :: k in history.fields && k != "messages" ==> after.fields[k] == history.fields[k])
      && Messages(after).Ok? && |Messages(after).value| == |msgs|
      && Messages(after).value[i] == SetField(msgs[i], StatusKey, JStr(NotGiven))
      && (forall j :: 0 <= j < |msgs| && j != i ==> Messages(after).value[j] == msgs[j])
  {
    PathsDistinct(user, session);
    var history := Read(store, HistoryPath(user, session));
    var msgs := Messages(history).value;
    var i := FindFirst(msgs, MessageKey, JStr(runId)).value.value;
    var reset := Write(store, HistoryPath(user, session), MarkAt(history, msgs, i, NotGiven));
    assert Unchanged(reset, Withdraw(reset, user, runId, now).store, HistoryPath(user, session));
  }

  /** A log without an entry for the message makes removal raise
      `ValueError` after the history write: the store keeps the reset
      history, and nothing else has changed. */
  lemma RemoveNoEntryKeepsReset(store: Store, user: string, session: string, runId: string, now: string)
    requires MarkFirst(Read(store, HistoryPath(user, session)), runId).Ok?
    requires MarkFirst(Read(store, HistoryPath(user, session)), runId).value.Some?
    requires var log := Or(Read(store, FeedbackPath(user)), JArr([]));
      log.JArr? && forall i :: 0 <= i < |log.items| ==> log.items[i].JObj? && !HasField(log.items[i], MessageKey, JStr(runId))
    ensures RemoveFeedback(store, user, session, runId, now)
      == Effect(Write(store, HistoryPath(user, session), MarkFirst(Read(store, HistoryPath(user, session)), runId).value.value),
                Err(ValueError("Feedback entry not found for removal.")))
  {
    PathsDistinct(user, session);
    var reset := MarkFirst(Read(store, HistoryPath(user, session)), runId).value.value;
    ReadAfterWrite(store, HistoryPath(user, session), reset, FeedbackPath(user));
  }

  /** With a log of records, a successful removal leaves in the log
      exactly the entries for other messages, in order, and adds the last
      entry for the message, stamped with the removal time, to the end of
      the removed log; a log with no entry for it raises `ValueError`
      after the history was written, and the logs are left as they were. */
  lemma WithdrawPartitions(store: Store, user: string, runId: string, now: string)
    requires Iterate(Or(Read(store, FeedbackPath(user)), JArr([]))).Ok?
    requires AllDicts(Iterate(Or(Read(store, FeedbackPath(user)), JArr([]))).value)
    ensures var items := Iterate(Or(Read(store, FeedbackPath(user)), JArr([]))).value;
      var removed := Or(Read(store, RemovedFeedbackPath(user)), JArr([]));
      var r := Withdraw(store, user, runId, now);
      match LastMatch(items, MessageKey, JStr(runId))
      case None => r == Effect(store, Err(ValueError("Feedback entry not found for removal.")))
      case Some(x) =>
        && (r.result.Ok? <==> removed.JArr?)
        && (r.result.Ok? ==>
              && Read(r.store, FeedbackPath(user)) == JArr(Unmatched(items, MessageKey, JStr(runId)))
              && (forall y :: y in Unmatched(items, MessageKey, JStr(runId)) ==> !HasField(y, MessageKey, JStr(runId)))
              && Read(r.store, RemovedFeedbackPath(user))
                 == JArr(removed.items + [SetField(x, "removed_on", JStr(now))]))
  {
    PathsDistinct(user, "");
  }

  /** Submitting and then removing the same feedback finds the entry just
      logged: the removal succeeds when the prior log was a list of records
      and the removed log can take an entry, the logged entry (stamped)
      ends the removed log, and the log keeps exactly the prior entries for
      other messages. */
  lemma SubmitThenRemove(store: Store, user: string, session: string, runId: string, value: string,
                         comment: string, now: string, logError: Option<string>, later: string)
    requires SubmitFeedback(store, user, session, runId, value, comment, now, logError).result.Ok?
    requires Or(Read(store, FeedbackPath(user)), JArr([])).JArr?
    requires AllDicts(Or(Read(store, FeedbackPath(user)), JArr([])).items)
    requires Or(Read(store, RemovedFeedbackPath(user)), JArr([])).JArr?
    ensures var s := SubmitFeedback(store, user, session, runId, value, comment, now, logError).store;
      var prior := Or(Read(store, FeedbackPath(user)), JArr([])).items;
      var removed := Or(Read(store, RemovedFeedbackPath(user)), JArr([])).items;
      var r := RemoveFeedback(s, user, session, runId, later);
      && r.result == Ok(JObj(map["status" := JStr("removed"), MessageKey := JStr(runId)]))
      && Read(r.store, FeedbackPath(user)) == JArr(Unmatched(prior, MessageKey, JStr(runId)))
      && Read(r.store, RemovedFeedbackPath(user))
         == JArr(removed + [SetField(Entry(session, runId, value, comment, now), "removed_on", JStr(later))])
  {
    var reset := SubmitThenReachLog(store, user, session, runId, value, comment, now, logError, later);
    SubmitLeavesLogs(store, user, session, runId, value, comment, now, logError, reset);
    var prior := Or(Read(store, FeedbackPath(user)), JArr([])).items;
    WithdrawAppended(reset, user, runId, later, prior, Entry(session, runId, value, comment, now));
  }

  /** The logs removal reaches after a submit: the feedback log with the
      new entry last, and the removed log as it was before the submit. */
  lemma SubmitLeavesLogs(store: Store, user: string, session: string, runId: string, value: string,
                         comment: string, now: string, logError: Option<string>, reset: Store)
    requires SubmitFeedback(store, user, session, runId, value, comment, now, logError).result.Ok?
    requires var s := SubmitFeedback(store, user, session, runId, value, comment, now, logError).store;
      Unchanged(s, reset, FeedbackPath(user)) && Unchanged(s, reset, RemovedFeedbackPath(user))
    ensures Or(Read(store, FeedbackPath(user)), JArr([])).JArr?
    ensures Or(Read(reset, FeedbackPath(user)), JArr([]))
      == JArr(Or(Read(store, FeedbackPath(user)), JArr([])).items + [Entry(session, runId, value, comment, now)])
    ensures Read(reset, RemovedFeedbackPath(user)) == Read(store, RemovedFeedbackPath(user))
  {
    var s := SubmitFeedback(store, user, session, runId, value, comment, now, logError).store;
    ReadUnchanged(s, reset, FeedbackPath(user));
    SubmitAppendsOne(store, user, session, runId, value, comment, now, logError);
    SubmitKeepsRemoved(store, user, session, runId, value, comment, now, logError);
    ReadUnchanged(s, reset, RemovedFeedbackPath(user));
  }

  /** Submitting leaves the removed log alone. */
  lemma SubmitKeepsRemoved(store: Store, user: string, session: string, runId: string, value: string,
                           comment: string, now: string, logError: Option<string>)
    ensures var s := SubmitFeedback(store, user, session, runId, value, comment, now, logError).store;
      Read(s, RemovedFeedbackPath(user)) == Read(store, RemovedFeedbackPath(user))
  {
    PathsDistinct(user, session);
    SubmitFrame(store, user, session, runId, value, comment, now, logError, RemovedFeedbackPath(user));
  }

  /** After a successful submit, removal finds a message with the id (the
      marked bot message, or a user message before it) and goes on to the
      logs, which its history write left as they were. */
  lemma SubmitThenReachLog(store: Store, user: string, session: string, runId: string, value: string,
                           comment: string, now: string, logError: Option<string>, later: string)
    returns (reset: Store)
    requires SubmitFeedback(store, user, session, runId, value, comment, now, logError).result.Ok?
    ensures var s := SubmitFeedback(store, user, session, runId, value, comment, now, logError).store;
      && RemoveFeedback(s, user, session, runId, later) == Withdraw(reset, user, runId, later)
      && Unchanged(s, reset, FeedbackPath(user)) && Unchanged(s, reset, RemovedFeedbackPath(user))
  {
    var s := SubmitFeedback(store, user, session, runId, value, comment, now, logError).store;
    SubmitMarksFirstBot(store, user, session, runId, value, comment, now, logError);
    var msgs := Messages(Read(store, HistoryPath(user, session))).value;
    var i := FindBotMessage(msgs, runId).value.value;
    var marked := Messages(Read(s, HistoryPath(user, session))).value;
    forall j | 0 <= j < i
      ensures marked[j].JObj?
    {
      assert marked[j] == msgs[j] && Scannable(msgs[j], runId);
    }
    reset := RemoveReachesLog(s, user, session, runId, later, i);
  }

  /** Removal on a history with a message carrying the id at `i`, after
      only dicts, resets a message and goes on to the logs, which the
      history write left as they were. */
  lemma RemoveReachesLog(s: Store, user: string, session: string, runId: string, later: string, i: nat)
    returns (reset: Store)
    requires Messages(Read(s, HistoryPath(user, session))).Ok?
    requires var msgs := Messages(Read(s, HistoryPath(user, session))).value;
      i < |msgs| && HasField(msgs[i], MessageKey, JStr(runId)) && forall j :: 0 <= j < i ==> msgs[j].JObj?
    ensures RemoveFeedback(s, user, session, runId, later) == Withdraw(reset, user, runId, later)
    ensures Unchanged(s, reset, FeedbackPath(user)) && Unchanged(s, reset, RemovedFeedbackPath(user))
  {
    PathsDistinct(user, session);
    var after := Read(s, HistoryPath(user, session));
    var marked := Messages(after).value;
    HistoryScanFinds(marked, runId, i);
    var k := FindFirst(marked, MessageKey, JStr(runId)).value.value;
    reset := Write(s, HistoryPath(user, session), MarkAt(after, marked, k, NotGiven));
  }

  /** Withdrawing from a log of records that ends with an entry for the
      message moves that entry, stamped, to the removed log, and leaves the
      earlier entries for other messages. */
  lemma WithdrawAppended(store: Store, user: string, runId: string, later: string, prior: seq<Json>, entry: Json)
    requires Or(Read(store, FeedbackPath(user)), JArr([])) == JArr(prior + [entry])
    requires AllDicts(prior) && HasField(entry, MessageKey, JStr(runId))
    requires Or(Read(store, RemovedFeedbackPath(user)), JArr([])).JArr?
    ensures var removed := Or(Read(store, RemovedFeedbackPath(user)), JArr([])).items;
      var r := Withdraw(store, user, runId, later);
      && r.result == Ok(JObj(map["status" := JStr("removed"), MessageKey := JStr(runId)]))
      && Read(r.store, FeedbackPath(user)) == JArr(Unmatched(prior, MessageKey, JStr(runId)))
      && Read(r.store, RemovedFeedbackPath(user)) == JArr(removed + [SetField(entry, "removed_on", JStr(later))])
  {
    var items := prior + [entry];
    assert AllDicts(items);
    LastMatchAppended(prior, entry, runId);
    assert Unmatched(items, MessageKey, JStr(runId)) == Unmatched(prior, MessageKey, JStr(runId)) by {
      assert items[..|items| - 1] == prior;
    }
    WithdrawPartitions(store, user, runId, later);
  }

  /** The first-match scan of removal finds a message at or before any
      index holding the id, when the messages before it are dicts. */
  lemma HistoryScanFinds(items: seq<Json>, runId: string, i: nat)
    requires i < |items| && HasField(items[i], MessageKey, JStr(runId))
    requires forall j :: 0 <= j < i ==> items[j].JObj?
    ensures FindFirst(items, MessageKey, JStr(runId)).Ok?
    ensures FindFirst(items, MessageKey, JStr(runId)).value.Some?
  {
    var r := FindFirst(items, MessageKey, JStr(runId));
    if r.Err? {
      assert false;
    }
  }

  /** An entry for the message appended to a log is the log's last match. */
  lemma LastMatchAppended(prior: seq<Json>, entry: Json, runId: string)
    requires HasField(entry, MessageKey, JStr(runId))
    ensures LastMatch(prior + [entry], MessageKey, JStr(runId)) == Some(entry)
  {
    var items := prior + [entry];
    assert items[|items| - 1] == entry;
  }
}

=== FILE: jurisdictions.dfy ===
/** The jurisdiction tables `INDEX_FOLDER_DIC` of the two technical-query
    variants (core/tech_query_test.py:13-21, core/tech_query.py:12-20) and
    the index path built from them (core/tech_query_test.py:35,
    core/tech_query.py:34). The two tables differ only in how they spell
    Uttarakhand. */
module Jurisdictions {
  import opened Wrappers
  import opened PyValues

  /** Where the per-jurisdiction indexes live. */
  const IndexRoot: string := "core/unified_index_state/"

  /** The table of the comparison variant. */
  const ComparisonTable: map<string, string> := map[
    "Maharashtra" := "maha_ada",
    "Gujarat" := "guj_ada",
    "Uttarakhand" := "uk_ada",
    "Central" := "cen_ada",
    "Jharkhand" := "jha_ada",
    "Karnataka" := "ka_ada",
    "Uttar Pradesh" := "up_ada"
  ]

  /** The table of the single-index variant. */
  const SingleTable: map<string, string> := map[
    "Maharashtra" := "maha_ada",
    "Gujarat" := "guj_ada",
    "Uttrakhand" := "uk_ada",
    "Central" := "cen_ada",
    "Jharkhand" := "jha_ada",
    "Karnataka" := "ka_ada",
    "Uttar Pradesh" := "up_ada"
  ]

  /** `f"core/unified_index_state/{table[state]}"`: the index path of a
      known jurisdiction, `KeyError` for any other name. */
  function IndexPath(table: map<string, string>, state: string): (r: Result<string, Error>)
    ensures r.Ok? <==> state in table
    ensures r.Ok? ==> (|r.value| >= |IndexRoot| && r.value[..|IndexRoot|] == IndexRoot
                       && r.value[|IndexRoot|..] == table[state])
    ensures !r.Ok? ==> r == Err(KeyError(JStr(state)))
  {
    if state in table then Ok(IndexRoot + table[state]) else Err(KeyError(JStr(state)))
  }

  /** `table[x]` for a JSON value `x` taken from the model's reply: a string
      is looked up; a list or dict cannot be hashed and raises `TypeError`;
      any other value is hashable but never a key and raises `KeyError`. */
  function IndexPathOf(table: map<string, string>, x: Json): (r: Result<string, Error>)
    ensures r.Ok? <==> x.JStr? && x.s in table
    ensures x.JStr? ==> r == IndexPath(table, x.s)
    ensures (x.JArr? || x.JObj?) ==> r == Err(TypeError)
    ensures !x.JStr? && !x.JArr? && !x.JObj? ==> r == Err(KeyError(x))
  {
    match x
    case JStr(s) => IndexPath(table, s)
    case JArr(_) => Err(TypeError)
    case JObj(_) => Err(TypeError)
    case _ => Err(KeyError(x))
  }

  /** Different jurisdictions of a table never share an index folder. */
  predicate Injective(table: map<string, string>) {
    forall a, b :: a in table && b in table && a != b ==> table[a] != table[b]
  }

  /** Both tables are injective, so distinct jurisdictions load distinct
      index paths. */
  lemma TablesInjective()
    ensures Injective(ComparisonTable) && Injective(SingleTable)
  {
    ComparisonInjective();
    SingleInjective();
  }

  /** The comparison table's folders are pairwise different. */
  lemma ComparisonInjective()
    ensures Injective(ComparisonTable)
  {
    FoldersDistinct();
  }

  /** The single-index table's folders are pairwise different. */
  lemma SingleInjective()
    ensures Injective(SingleTable)
  {
    FoldersDistinct();
  }

  /** The seven folder names differ pairwise: by their first letter, and
      "uk_ada" from "up_ada" by their second. */
  lemma FoldersDistinct()
    ensures forall i, j :: 0 <= i < j < |Folders| ==> Folders[i] != Folders[j]
  {
    forall i, j | 0 <= i < j < |Folders|
      ensures Folders[i] != Folders[j]
    {
      if Folders[i][0] == Folders[j][0] {
        assert Folders[i][1] != Folders[j][1];
      }
    }
  }

  /** The folders both tables map to. */
  const Folders: seq<string> := ["maha_ada", "guj_ada", "uk_ada", "cen_ada", "jha_ada", "ka_ada", "up_ada"]

  /** Distinct known jurisdictions have distinct index paths. */
  lemma IndexPathInjective(table: map<string, string>, a: string, b: string)
    requires Injective(table)
    requires a in table && b in table && a != b
    ensures IndexPath(table, a).value != IndexPath(table, b).value
  {
    var pa := IndexPath(table, a).value;
    var pb := IndexPath(table, b).value;
    assert pa[|IndexRoot|..] == table[a];
    assert pb[|IndexRoot|..] == table[b];
  }

  /** The comparison variant knows "Uttarakhand" but not "Uttrakhand"; the
      single-index variant the other way round, under the same folder. */
  lemma TableSpellings()
    ensures "Uttarakhand" in ComparisonTable && "Uttrakhand" !in ComparisonTable
    ensures "Uttrakhand" in SingleTable && "Uttarakhand" !in SingleTable
    ensures ComparisonTable["Uttarakhand"] == SingleTable["Uttrakhand"]
  {
  }

  /** Every other jurisdiction is known to both tables under the same
      folder. */
  lemma TablesAgreeElsewhere(state: string)
    requires state != "Uttarakhand" && state != "Uttrakhand"
    ensures state in ComparisonTable <==> state in SingleTable
    ensures state in ComparisonTable ==> ComparisonTable[state] == SingleTable[state]
  {
  }

  /** Each table has seven entries. */
  lemma TableSizes()
    ensures |ComparisonTable| == 7 && |SingleTable| == 7
  {
    assert |ComparisonTable.Keys| == 7;
    assert |SingleTable.Keys| == 7;
  }
}

=== FILE: pipeline.dfy ===
/** `process_query` (core/query_pipeline.py:59-88): route the query, then
    either let the model greet or decline, hand the query to the
    comparison variant of the technical pipeline, or give up. */
module Pipeline {
  import opened Wrappers
  import opened PyValues
  import opened Calls
  import opened Extraction
  import opened TechQuery

  /** The intent that hands the query to the technical pipeline. */
  const Technical: string := "TECHNICAL"

  /** The reply for any other intent. */
  const UnknownIntent: string := "Unable to determine query intent."

  /** The router sees the query and the jurisdiction, as one text. */
  function RouterInput(query: string, state: string): (s: string)
    ensures |s| == |query| + 5 + |state|
    ensures s[..|query|] == query && s[|query| + 5..] == state
  {
    var s := query + " for " + state;
    assert s[..|query|] == query;
    assert s[|query| + 5..] == state;
    s
  }

  /** The whole request. The router call comes first; an exception from
      parsing its reply ends the request there. GENERAL makes one more
      call, for the greeting or decline text, and returns it; TECHNICAL
      returns whatever the technical pipeline returns, with its calls
      after the router's; anything else returns the fixed text. */
  function ProcessQuery(query: string, state: string, perspective: string, chatHistory: Json, w: World)
    : (r: Run)
    ensures |r.calls| > 0 && r.calls[0] == RouteCall(RouterInput(query, state))
  {
    var route := [RouteCall(RouterInput(query, state))];
    match RouteQuery(w.routerReply)
    case Err(e) => Run(route, Err(e))
    case Ok(intent) =>
      if intent == JStr(General) then Run(route + [DeclineCall(query)], Ok(Some(w.declineReply)))
      else if intent == JStr(Technical) then
        var t := ProcessComparison(query, state, perspective, chatHistory, w);
        Run(route + t.calls, t.result)
      else Run(route, Ok(Some(UnknownIntent)))
  }

  /** Calls that belong to the technical pipeline. */
  predicate TechnicalCall(c: Call) {
    c.ExtractCall? || c.ExpandCall? || c.RetrieveCall? || c.AnswerCall?
  }

  /** A GENERAL intent, including the fallback for a reply that is not
      JSON, makes exactly one more call, the decline, returns its text,
      and never reaches the technical pipeline. */
  lemma GeneralDeclines(query: string, state: string, perspective: string, chatHistory: Json, w: World)
    requires RouteQuery(w.routerReply) == Ok(JStr(General))
    ensures var r := ProcessQuery(query, state, perspective, chatHistory, w);
      && r == Run([RouteCall(RouterInput(query, state)), DeclineCall(query)], Ok(Some(w.declineReply)))
      && forall c :: c in r.calls ==> !TechnicalCall(c)
  {
  }

  /** A router reply that is not JSON counts as GENERAL. */
  lemma MalformedReplyDeclines(query: string, state: string, perspective: string, chatHistory: Json, w: World)
    requires w.routerReply.Malformed?
    ensures ProcessQuery(query, state, perspective, chatHistory, w).calls
      == [RouteCall(RouterInput(query, state)), DeclineCall(query)]
  {
    GeneralDeclines(query, state, perspective, chatHistory, w);
  }

  /** A router reply that is JSON but not an object raises
      `AttributeError` right after the router call. */
  lemma NonObjectReplyRaises(query: string, state: string, perspective: string, chatHistory: Json, w: World)
    requires w.routerReply.Parsed? && !w.routerReply.value.JObj?
    ensures ProcessQuery(query, state, perspective, chatHistory, w)
      == Run([RouteCall(RouterInput(query, state))], Err(AttributeError))
  {
  }

  /** TECHNICAL hands the original query, jurisdiction, perspective and
      history to the comparison variant, and returns what it returns. */
  lemma TechnicalDelegates(query: string, state: string, perspective: string, chatHistory: Json, w: World)
    requires RouteQuery(w.routerReply) == Ok(JStr(Technical))
    ensures var r := ProcessQuery(query, state, perspective, chatHistory, w);
      var t := ProcessComparison(query, state, perspective, chatHistory, w);
      r.calls == [RouteCall(RouterInput(query, state))] + t.calls && r.result == t.result
  {
  }

  /** Any other intent, whatever JSON value the model put there, gets the
      fixed reply after the router call alone. */
  lemma OtherIntentGivesUp(query: string, state: string, perspective: string, chatHistory: Json,
                           w: World, intent: Json)
    requires RouteQuery(w.routerReply) == Ok(intent)
    requires intent != JStr(General) && intent != JStr(Technical)
    ensures ProcessQuery(query, state, perspective, chatHistory, w)
      == Run([RouteCall(RouterInput(query, state))], Ok(Some(UnknownIntent)))
  {
  }

  /** A reply object with more keys than `intent` routes by its `intent`
      alone: `{"intent": "LEGAL", "reason": "x"}` gives up like any other
      unknown intent. */
  lemma ExtraKeysIgnored(query: string, state: string, perspective: string, chatHistory: Json, w: World)
    requires w.routerReply == Parsed(JObj(map["intent" := JStr("LEGAL"), "reason" := JStr("x")]))
    ensures ProcessQuery(query, state, perspective, chatHistory, w)
      == Run([RouteCall(RouterInput(query, state))], Ok(Some(UnknownIntent)))
  {
    assert RouteQuery(w.routerReply) == Ok(JStr("LEGAL"));
    assert JStr("LEGAL") != JStr(General) && JStr("LEGAL") != JStr(Technical);
    OtherIntentGivesUp(query, state, perspective, chatHistory, w, JStr("LEGAL"));
  }

  /** Whatever the replies, a request asks for at most one answer, and for
      one exactly when it returns an answer from the technical pipeline. */
  lemma AnswersAtMostOnce(query: string, state: string, perspective: string, chatHistory: Json, w: World)
    ensures var r := ProcessQuery(query, state, perspective, chatHistory, w);
      Answers(r.calls) <= 1
      && (Answers(r.calls) == 1 <==>
          RouteQuery(w.routerReply) == Ok(JStr(Technical)) && r.result.Ok? && r.result.value.Some?)
  {
    var r := ProcessQuery(query, state, perspective, chatHistory, w);
    var route := [RouteCall(RouterInput(query, state))];
    assert Answers(route) == 0 by {
      assert route[1..] == [];
    }
    if RouteQuery(w.routerReply) == Ok(JStr(Technical)) {
      var t := ProcessComparison(query, state, perspective, chatHistory, w);
      ComparisonAnswersOnce(query, state, perspective, chatHistory, w);
      CountsAppend(route, t.calls);
    } else if RouteQuery(w.routerReply) == Ok(JStr(General)) {
      assert r.calls[1..][1..] == [];
    }
  }
}

=== FILE: py_values.dfy ===
/** The Python values the repository's code handles once `json.load` or
    `json.loads` has produced them, the exceptions the code can raise on
    them, and the few pieces of Python semantics (truthiness, `or`,
    negative indexing, iteration) the modelled functions depend on. */
module PyValues {
  import opened Wrappers

  /** A parsed JSON document. Numbers are integers; objects are maps (Python
      keeps insertion order in a dict, which only shows when it is written
      back out, and that serialisation is not modelled). */
  datatype Json =
    | JNull
    | JBool(b: bool)
    | JNum(n: int)
    | JStr(s: string)
    | JArr(items: seq<Json>)
    | JObj(fields: map<string, Json>)

  /** The exception classes the modelled code raises or lets through. */
  datatype Error =
    | KeyError(key: Json)
    | ValueError(message: string)
    | TypeError
    | AttributeError
    | IndexError
    | NameError(name: string)
    | FileNotFound(path: string)
    | JsonDecodeError

  /** What `json.loads` makes of a language-model reply. */
  datatype JsonParse = Malformed | Parsed(value: Json)

  /** `json.loads` as a call that can raise `JSONDecodeError`. */
  function Loads(reply: JsonParse): Result<Json, Error> {
    match reply
    case Malformed => Err(JsonDecodeError)
    case Parsed(v) => Ok(v)
  }

  /** Python truthiness: `None`, `False`, `0`, and empty strings, lists and
      dicts are false. */
  predicate Truthy(j: Json) {
    match j
    case JNull => false
    case JBool(b) => b
    case JNum(n) => n != 0
    case JStr(s) => |s| > 0
    case JArr(items) => |items| > 0
    case JObj(fields) => |fields| > 0
  }

  /** Python's `a or b`. */
  function Or(a: Json, b: Json): Json {
    if Truthy(a) then a else b
  }

  /** True when `j` is a dict whose `key` entry equals `v`, that is, when
      `j.get(key) == v` holds for a dict `j` and a non-null `v`. */
  predicate HasField(j: Json, key: string, v: Json) {
    j.JObj? && key in j.fields && j.fields[key] == v
  }

  /** `j[key] = v` on a dict. */
  function SetField(j: Json, key: string, v: Json): (r: Json)
    requires j.JObj?
    ensures r.JObj? && key in r.fields && r.fields[key] == v
    ensures forall k :: k in j.fields && k != key ==> k in r.fields && r.fields[k] == j.fields[k]
    ensures r.fields.Keys == j.fields.Keys + {key}
  {
    JObj(j.fields[key := v])
  }

  /** `j[key]` for a string key: `KeyError` on a dict without it,
      `TypeError` on anything that is not a dict. */
  function Subscript(j: Json, key: string): (r: Result<Json, Error>)
    ensures r.Ok? <==> j.JObj? && key in j.fields
    ensures r.Ok? ==> r.value == j.fields[key]
    ensures j.JObj? && key !in j.fields ==> r == Err(KeyError(JStr(key)))
    ensures !j.JObj? ==> r == Err(TypeError)
  {
    match j
    case JObj(f) => if key in f then Ok(f[key]) else Err(KeyError(JStr(key)))
    case _ => Err(TypeError)
  }

  /** Python's `s[i]` for `-len(s) <= i < len(s)`: a negative index counts
      from the end. */
  function PyIndex<T>(s: seq<T>, i: int): T
    requires -|s| <= i < |s|
  {
    if i < 0 then s[|s| + i] else s[i]
  }

  /** The characters of a string as the one-character strings Python
      yields when it indexes or iterates a `str`. */
  function Chars(s: string): (r: seq<Json>)
    ensures |r| == |s|
    ensures forall i :: 0 <= i < |s| ==> r[i] == JStr([s[i]])
  {
    seq(|s|, i requires 0 <= i < |s| => JStr([s[i]]))
  }

  /** The elements a `for x in j:` loop reaches when its body starts with
      `x.get(...)`: a list yields its items; an empty string or dict yields
      nothing; a non-empty string or dict yields strings, and the first
      `.get` on one raises `AttributeError`; anything else is not iterable. */
  function Iterate(j: Json): (r: Result<seq<Json>, Error>)
    ensures j.JArr? ==> r == Ok(j.items)
    ensures r.Ok? && |r.value| > 0 ==> j.JArr?
    ensures r.Ok? <==> j.JArr? || j == JStr("") || j == JObj(map[])
  {
    match j
    case JArr(items) => Ok(items)
    case JStr(s) => if |s| == 0 then Ok([]) else Err(AttributeError)
    case JObj(f) => if |f| == 0 then Ok([]) else Err(AttributeError)
    case _ => Err(TypeError)
  }

  /** The elements reached by `len(j)` followed by `j[i]` for integer
      indices, as the states loops do: a list yields its items, a string its
      characters; a non-empty dict has no integer keys, so the first
      subscript, at `len(j) - 1`, raises `KeyError`; other values have no
      `len`. */
  function Indexed(j: Json): (r: Result<seq<Json>, Error>)
    ensures j.JArr? ==> r == Ok(j.items)
    ensures r.Ok? <==> j.JArr? || j.JStr? || j == JObj(map[])
  {
    match j
    case JArr(items) => Ok(items)
    case JStr(s) => Ok(Chars(s))
    case JObj(f) => if |f| == 0 then Ok([]) else Err(KeyError(JNum(|f| - 1)))
    case _ => Err(TypeError)
  }
}

=== FILE: records.dfy ===
/** The list-of-dicts idioms the session and feedback services repeat:
    scanning a list for the first record whose field has a value (with
    `break`), updating one field of a record in place, and the
    partitioning loop that keeps the records that do not match and
    remembers the last one that does. Each scan calls `.get` on every
    record it reaches, so a record that is not a dict raises
    `AttributeError`. */
module Records {
  import opened Wrappers
  import opened PyValues

  /** Every element is a dict. */
  predicate AllDicts(items: seq<Json>) {
    forall i :: 0 <= i < |items| ==> items[i].JObj?
  }

  /** `for x in items: if x.get(key) == v: … break`: the index of the
      first match, `None` when there is none, or `AttributeError` when a
      record that is not a dict is reached before the first match. */
  function FindFirst(items: seq<Json>, key: string, v: Json): (r: Result<Option<nat>, Error>)
    ensures r.Err? ==> r.error == AttributeError
    ensures r.Ok? && r.value.Some? ==> r.value.value < |items| && HasField(items[r.value.value], key, v)
    ensures r.Ok? ==> forall j :: 0 <= j < |items| && (r.value.None? || j < r.value.value) ==>
      items[j].JObj? && !HasField(items[j], key, v)
    ensures r.Err? ==> exists j :: (0 <= j < |items| && !items[j].JObj? &&
      forall i :: 0 <= i < j ==> !HasField(items[i], key, v))
    decreases |items|
  {
    if |items| == 0 then Ok(None)
    else if !items[0].JObj? then Err(AttributeError)
    else if HasField(items[0], key, v) then Ok(Some(0))
    else
      match FindFirst(items[1..], key, v)
      case Err(e) =>
        ghost var j :| 0 <= j < |items[1..]| && !items[1..][j].JObj? &&
          forall i :: 0 <= i < j ==> !HasField(items[1..][i], key, v);
        assert !items[j + 1].JObj?;
        assert forall i :: 0 <= i < j + 1 ==> !HasField(items[i], key, v) by {
          forall i | 0 <= i < j + 1
            ensures !HasField(items[i], key, v)
          {
            if i > 0 {
              assert items[i] == items[1..][i - 1];
            }
          }
        }
        Err(e)
      case Ok(None) =>
        assert forall j :: 1 <= j < |items| ==> items[j] == items[1..][j - 1];
        Ok(None)
      case Ok(Some(i)) =>
        assert forall j :: 1 <= j < |items| ==> items[j] == items[1..][j - 1];
        Ok(Some(i + 1))
  }

  /** The converse of `FindFirst`'s contract: a matching record at `i`
      with only non-matching dicts before it is what the scan finds. */
  lemma {:induction false} FindFirstAt(items: seq<Json>, key: string, v: Json, i: nat)
    requires i < |items| && HasField(items[i], key, v)
    requires forall j :: 0 <= j < i ==> items[j].JObj? && !HasField(items[j], key, v)
    ensures FindFirst(items, key, v) == Ok(Some(i))
    decreases i
  {
    if i > 0 {
      assert forall j :: 0 <= j < i - 1 ==> items[1..][j] == items[j + 1];
      FindFirstAt(items[1..], key, v, i - 1);
    }
  }

  /** The converse for a scan without a match: a list of dicts none of
      which matches gives `None`. */
  lemma {:induction false} FindFirstNone(items: seq<Json>, key: string, v: Json)
    requires forall j :: 0 <= j < |items| ==> items[j].JObj? && !HasField(items[j], key, v)
    ensures FindFirst(items, key, v) == Ok(None)
    decreases |items|
  {
    if |items| > 0 {
      assert forall j :: 0 <= j < |items| - 1 ==> items[1..][j] == items[j + 1];
      FindFirstNone(items[1..], key, v);
    }
  }

  /** Updating another field of the record the scan found leaves the scan
      finding it again. */
  lemma FindFirstAfterSet(items: seq<Json>, key: string, v: Json, i: nat, field: string, x: Json)
    requires FindFirst(items, key, v) == Ok(Some(i)) && field != key
    ensures i < |items| && items[i].JObj?
    ensures FindFirst(SetAt(items, i, field, x), key, v) == Ok(Some(i))
  {
    var after := SetAt(items, i, field, x);
    assert HasField(after[i], key, v);
    FindFirstAt(after, key, v, i);
  }

  /** A matching record appended to a list the scan finds nothing in is
      found at the end. */
  lemma FindFirstAppended(items: seq<Json>, key: string, v: Json, rec: Json)
    requires FindFirst(items, key, v) == Ok(None) && HasField(rec, key, v)
    ensures FindFirst(items + [rec], key, v) == Ok(Some(|items|))
  {
    FindFirstAt(items + [rec], key, v, |items|);
  }

  /** `items[i][key] = v` on a list of records: one field of one record
      changes. */
  function SetAt(items: seq<Json>, i: nat, key: string, v: Json): (r: seq<Json>)
    requires i < |items| && items[i].JObj?
    ensures |r| == |items| && r[i] == SetField(items[i], key, v)
    ensures forall j :: 0 <= j < |items| && j != i ==> r[j] == items[j]
  {
    items[i := SetField(items[i], key, v)]
  }

  /** Setting the same field to the same value twice is setting it once. */
  lemma SetAtTwice(items: seq<Json>, i: nat, key: string, v: Json)
    requires i < |items| && items[i].JObj?
    ensures SetAt(SetAt(items, i, key, v), i, key, v) == SetAt(items, i, key, v)
  {
    var once := SetAt(items, i, key, v);
    assert once[i].fields[key := v] == once[i].fields;
  }

  /** The records kept by the partitioning loop: those that do not match,
      in their order. */
  function Unmatched(items: seq<Json>, key: string, v: Json): (r: seq<Json>)
    ensures |r| <= |items|
    ensures forall x :: x in r <==> x in items && !HasField(x, key, v)
    decreases |items|
  {
    if |items| == 0 then []
    else
      var init := items[..|items| - 1];
      var last := items[|items| - 1];
      assert items == init + [last];
      if HasField(last, key, v) then Unmatched(init, key, v) else Unmatched(init, key, v) + [last]
  }

  /** The kept records of a concatenation are those of each part, in
      order: the filter neither reorders nor merges duplicates. */
  lemma {:induction false} UnmatchedAppend(a: seq<Json>, b: seq<Json>, key: string, v: Json)
    ensures Unmatched(a + b, key, v) == Unmatched(a, key, v) + Unmatched(b, key, v)
    decreases |b|
  {
    if |b| == 0 {
      assert a + b == a;
    } else {
      var init := b[..|b| - 1];
      var last := b[|b| - 1];
      assert (a + b)[..|a + b| - 1] == a + init;
      assert (a + b)[|a + b| - 1] == last;
      UnmatchedAppend(a, init, key, v);
    }
  }

  /** One record is kept exactly when it does not match. */
  lemma UnmatchedSingle(x: Json, key: string, v: Json)
    ensures Unmatched([x], key, v) == if HasField(x, key, v) then [] else [x]
  {
    assert [x][..0] == [];
  }

  /** The record the partitioning loop remembers: the last match. */
  function LastMatch(items: seq<Json>, key: string, v: Json): (r: Option<Json>)
    ensures r.None? <==> forall i :: 0 <= i < |items| ==> !HasField(items[i], key, v)
    ensures r.Some? ==> exists i :: (0 <= i < |items| && items[i] == r.value && HasField(r.value, key, v) &&
      forall j :: i < j < |items| ==> !HasField(items[j], key, v))
    decreases |items|
  {
    if |items| == 0 then None
    else
      var init := items[..|items| - 1];
      var last := items[|items| - 1];
      if HasField(last, key, v) then Some(last)
      else
        var r := LastMatch(init, key, v);
        assert forall i :: 0 <= i < |init| ==> init[i] == items[i];
        r
  }

  /** With no record matching, the loop keeps them all. */
  lemma {:induction false} UnmatchedNone(items: seq<Json>, key: string, v: Json)
    requires forall i :: 0 <= i < |items| ==> !HasField(items[i], key, v)
    ensures Unmatched(items, key, v) == items
    decreases |items|
  {
    if |items| > 0 {
      var init := items[..|items| - 1];
      UnmatchedNone(init, key, v);
      assert items == init + [items[|items| - 1]];
    }
  }

  /** The partitioning loop (utility/manage_sessions.py:130-137 and
      utility/feedback.py:85-91) as written: every record is visited; a
      match replaces the remembered record, any other record is kept. */
  method Partition(items: seq<Json>, key: string, v: Json)
    returns (kept: seq<Json>, last: Option<Json>, err: Option<Error>)
    ensures err.None? <==> AllDicts(items)
    ensures err.Some? ==> err.value == AttributeError
    ensures err.None? ==> kept == Unmatched(items, key, v) && last == LastMatch(items, key, v)
  {
    kept := [];
    last := None;
    err := None;
    var i := 0;
    while i < |items|
      invariant 0 <= i <= |items|
      invariant AllDicts(items[..i])
      invariant kept == Unmatched(items[..i], key, v)
      invariant last == LastMatch(items[..i], key, v)
    {
      var x := items[i];
      if !x.JObj? {
        err := Some(AttributeError);
        return;
      }
      PartitionStep(items, i, key, v);
      if HasField(x, key, v) {
        last := Some(x);
      } else {
        kept := kept + [x];
      }
      i := i + 1;
    }
    assert items[..|items|] == items;
  }

  /** One more record visited by the partitioning loop. */
  lemma PartitionStep(items: seq<Json>, i: nat, key: string, v: Json)
    requires i < |items| && AllDicts(items[..i]) && items[i].JObj?
    ensures AllDicts(items[..i + 1])
    ensures var x := items[i];
      && Unmatched(items[..i + 1], key, v)
         == (if HasField(x, key, v) then Unmatched(items[..i], key, v) else Unmatched(items[..i], key, v) + [x])
      && LastMatch(items[..i + 1], key, v) == (if HasField(x, key, v) then Some(x) else LastMatch(items[..i], key, v))
  {
    assert items[..i + 1][..i] == items[..i];
    assert items[..i + 1][i] == items[i];
  }
}

=== FILE: seqs.dfy ===
/** Small sequence facts used by the loops of the model that walk a list
    from its end towards its start. */
module Seqs {

  /** `s` read back to front. Defined by peeling the last element, which is
      the order in which the back-to-front loops of the source visit it. */
  function Reverse<T>(s: seq<T>): (r: seq<T>)
    ensures |r| == |s|
    ensures forall i :: 0 <= i < |s| ==> r[i] == s[|s| - 1 - i]
  {
    if |s| == 0 then [] else [s[|s| - 1]] + Reverse(s[..|s| - 1])
  }

  /** Reversing a sequence with one more element at its front puts that
      element last. */
  lemma {:induction false} ReverseCons<T>(x: T, s: seq<T>)
    ensures Reverse([x] + s) == Reverse(s) + [x]
  {
    var r := Reverse([x] + s);
    var q := Reverse(s) + [x];
    assert |r| == |q|;
    forall i | 0 <= i < |r|
      ensures r[i] == q[i]
    {
      if i < |s| {
        assert r[i] == ([x] + s)[|s| - i];
      }
    }
  }
}

=== FILE: sessions.dfy ===
/** The session services of utility/manage_sessions.py as operations on
    the blob store. A user's sessions are a list of records in one blob;
    each session's chat history is a record with a `"messages"` list in
    another. Timestamps are parameters. */
module Sessions {
  import opened Wrappers
  import opened PyValues
  import opened BlobStore
  import opened Records

  /** The field that identifies a session record. */
  const SessionKey: string := "session_id"

  /** `get_user_sessions` (lines 27-30): the stored list, or `[]` when the
      blob is missing or falsy. */
  function GetUserSessions(store: Store, user: string): (r: Json)
    ensures SessionsPath(user) !in store ==> r == JArr([])
    ensures SessionsPath(user) in store && Truthy(store[SessionsPath(user)]) ==> r == store[SessionsPath(user)]
    ensures Truthy(r) || r == JArr([])
  {
    Or(Read(store, SessionsPath(user)), JArr([]))
  }

  /** `get_chat_session` (lines 33-36): the stored history, or `{}`. */
  function GetChatSession(store: Store, user: string, session: string): (r: Json)
    ensures HistoryPath(user, session) !in store ==> r == JObj(map[])
    ensures HistoryPath(user, session) in store ==> r == store[HistoryPath(user, session)]
  {
    Read(store, HistoryPath(user, session))
  }

  /** `messages[-1]["timestamp"]` (line 57): `IndexError` for no messages,
      and the subscript's own exceptions for a last message that is not a
      dict or has no timestamp. */
  function LastTimestamp(messages: seq<Json>): (r: Result<Json, Error>)
    ensures |messages| == 0 ==> r == Err(IndexError)
    ensures r.Ok? <==> |messages| > 0 && messages[|messages| - 1].JObj?
                       && "timestamp" in messages[|messages| - 1].fields
    ensures r.Ok? ==> HasField(messages[|messages| - 1], "timestamp", r.value)
    ensures |messages| > 0 && !messages[|messages| - 1].JObj? ==> r == Err(TypeError)
    ensures |messages| > 0 && messages[|messages| - 1].JObj? && r.Err? ==> r == Err(KeyError(JStr("timestamp")))
  {
    if |messages| == 0 then Err(IndexError) else Subscript(messages[|messages| - 1], "timestamp")
  }

  /** The record of a new session (lines 66-72). */
  function NewSession(session: string, title: string, ts: Json): (rec: Json)
    ensures HasField(rec, SessionKey, JStr(session))
  {
    JObj(map[SessionKey := JStr(session), "title" := JStr(title), "starred" := JBool(false),
             "created_on" := ts, "last_updated" := ts])
  }

  /** Lines 59-73 on the session list: the first record of the session
      gets `last_updated`; without one, a new record is appended. Either
      way the session is then listed, and its first record carries the
      new timestamp. */
  function Touch(sessions: Json, session: string, title: string, ts: Json): (r: Result<seq<Json>, Error>)
    ensures r.Err? ==> r.error == AttributeError || r.error == TypeError
    ensures r.Ok? ==>
      var f := FindFirst(r.value, SessionKey, JStr(session));
      f.Ok? && f.value.Some? && HasField(r.value[f.value.value], "last_updated", ts)
  {
    match Iterate(sessions)
    case Err(e) => Err(e)
    case Ok(items) =>
      match FindFirst(items, SessionKey, JStr(session))
      case Err(e) => Err(e)
      case Ok(Some(i)) =>
        FindFirstAfterSet(items, SessionKey, JStr(session), i, "last_updated", ts);
        Ok(SetAt(items, i, "last_updated", ts))
      case Ok(None) =>
        if sessions.JArr? then
          FindFirstAppended(items, SessionKey, JStr(session), NewSession(session, title, ts));
          Ok(items + [NewSession(session, title, ts)])
        else Err(AttributeError)
  }

  /** Touching a session that is listed changes only the `last_updated`
      field of its first record; the list keeps its length. */
  lemma TouchExisting(sessions: Json, session: string, title: string, ts: Json)
    requires sessions.JArr? && FindFirst(sessions.items, SessionKey, JStr(session)).Ok?
    requires FindFirst(sessions.items, SessionKey, JStr(session)).value.Some?
    ensures var i := FindFirst(sessions.items, SessionKey, JStr(session)).value.value;
      var r := Touch(sessions, session, title, ts);
      && r.Ok? && |r.value| == |sessions.items|
      && r.value[i] == SetField(sessions.items[i], "last_updated", ts)
      && (forall j :: 0 <= j < |sessions.items| && j != i ==> r.value[j] == sessions.items[j])
  {
  }

  /** Touching a session that is not listed appends exactly one new
      record, created and updated at `ts` and not starred, and leaves the
      earlier records alone. */
  lemma TouchNew(sessions: Json, session: string, title: string, ts: Json)
    requires sessions.JArr? && FindFirst(sessions.items, SessionKey, JStr(session)) == Ok(None)
    ensures var r := Touch(sessions, session, title, ts);
      && r.Ok? && |r.value| == |sessions.items| + 1
      && r.value[..|sessions.items|] == sessions.items
      && r.value[|sessions.items|] == NewSession(session, title, ts)
  {
    var r := Touch(sessions, session, title, ts);
    assert r.value == sessions.items + [NewSession(session, title, ts)];
    assert r.value[..|sessions.items|] == sessions.items;
  }

  /** `chat_history["messages"].extend(messages)` (line 84). */
  function Extend(history: Json, messages: seq<Json>): (r: Result<Json, Error>)
    ensures r.Ok? <==> history.JObj? && "messages" in history.fields && history.fields["messages"].JArr?
    ensures !history.JObj? ==> r == Err(TypeError)
    ensures history.JObj? && "messages" !in history.fields ==> r == Err(KeyError(JStr("messages")))
    ensures r.Ok? ==>
      var before := history.fields["messages"].items;
      && r.value.JObj? && r.value.fields.Keys == history.fields.Keys
      && r.value.fields["messages"] == JArr(before + messages)
      && (forall k :: k in history.fields && k != "messages" ==> r.value.fields[k] == history.fields[k])
  {
    match Subscript(history, "messages")
    case Err(e) => Err(e)
    case Ok(JArr(before)) => Ok(SetField(history, "messages", JArr(before + messages)))
    case Ok(_) => Err(AttributeError)
  }

  /** The history a session without a stored one starts from (lines
      78-81). */
  function EmptyHistory(session: string): Json {
    JObj(map[SessionKey := JStr(session), "messages" := JArr([])])
  }

  /** `update_or_create_session_service` (lines 39-91): the session list
      is written first, then the history; an exception in the history step
      leaves the list written. */
  function UpdateOrCreate(store: Store, user: string, session: string, messages: seq<Json>, title: string)
    : (r: Effect<Json>)
    ensures LastTimestamp(messages).Err? ==> r == Effect(store, Err(LastTimestamp(messages).error))
  {
    var sessionsPath := SessionsPath(user);
    var historyPath := HistoryPath(user, session);
    var sessions := Or(Read(store, sessionsPath), JArr([]));
    match LastTimestamp(messages)
    case Err(e) => Effect(store, Err(e))
    case Ok(ts) =>
      match Touch(sessions, session, title, ts)
      case Err(e) => Effect(store, Err(e))
      case Ok(touched) =>
        var listed := Write(store, sessionsPath, JArr(touched));
        var history := Or(Read(listed, historyPath), EmptyHistory(session));
        match Extend(history, messages)
        case Err(e) => Effect(listed, Err(e))
        case Ok(extended) =>
          Effect(Write(listed, historyPath, extended),
                 Ok(JObj(map["session_metadata" := JArr(touched), "chat_history" := extended])))
  }

  /** An update writes the session list and the history and no other
      blob. */
  lemma UpdateFrame(store: Store, user: string, session: string, messages: seq<Json>, title: string, p: string)
    requires p != SessionsPath(user) && p != HistoryPath(user, session)
    ensures Unchanged(store, UpdateOrCreate(store, user, session, messages, title).store, p)
  {
    var ts := LastTimestamp(messages);
    if ts.Ok? {
      var touched := Touch(Or(Read(store, SessionsPath(user)), JArr([])), session, title, ts.value);
      if touched.Ok? {
        var listed := Write(store, SessionsPath(user), JArr(touched.value));
        assert Unchanged(store, listed, p);
        var extended := Extend(Or(Read(listed, HistoryPath(user, session)), EmptyHistory(session)), messages);
        if extended.Ok? {
          assert Unchanged(listed, Write(listed, HistoryPath(user, session), extended.value), p);
        }
      }
    }
  }

  /** After a successful update the stored list is the touched list and
      the stored history holds the prior messages followed by the new ones,
      in order; a session without a stored history gets exactly the new
      messages under its id. */
  lemma UpdateStores(store: Store, user: string, session: string, messages: seq<Json>, title: string)
    requires UpdateOrCreate(store, user, session, messages, title).result.Ok?
    ensures var r := UpdateOrCreate(store, user, session, messages, title);
      var ts := LastTimestamp(messages).value;
      var prior := Or(Read(store, HistoryPath(user, session)), EmptyHistory(session));
      && Touch(Or(Read(store, SessionsPath(user)), JArr([])), session, title, ts).Ok?
      && Read(r.store, SessionsPath(user))
         == JArr(Touch(Or(Read(store, SessionsPath(user)), JArr([])), session, title, ts).value)
      && prior.JObj? && "messages" in prior.fields && prior.fields["messages"].JArr?
      && Read(r.store, HistoryPath(user, session)).fields["messages"]
         == JArr(prior.fields["messages"].items + messages)
      && (HistoryPath(user, session) !in store ==>
            Read(r.store, HistoryPath(user, session)) == JObj(map[SessionKey := JStr(session), "messages" := JArr(messages)]))
  {
    PathsDistinct(user, session);
    var ts := LastTimestamp(messages).value;
    var touched := Touch(Or(Read(store, SessionsPath(user)), JArr([])), session, title, ts).value;
    ReadAfterWrite(store, SessionsPath(user), JArr(touched), HistoryPath(user, session));
    var listed := Write(store, SessionsPath(user), JArr(touched));
    var prior := Or(Read(listed, HistoryPath(user, session)), EmptyHistory(session));
    ReadAfterWrite(listed, HistoryPath(user, session), Extend(prior, messages).value, SessionsPath(user));
    if HistoryPath(user, session) !in store {
      assert [] + messages == messages;
      assert Extend(prior, messages).value.fields == map[SessionKey := JStr(session), "messages" := JArr(messages)];
    }
  }

  /** A stored history that is not a dict (a list, say, which has no
      `"messages"` key) makes the update raise `TypeError` after the
      touched session list was already written. */
  lemma UpdatePartialWrite(store: Store, user: string, session: string, messages: seq<Json>, title: string)
    requires LastTimestamp(messages).Ok?
    requires Touch(Or(Read(store, SessionsPath(user)), JArr([])), session, title, LastTimestamp(messages).value).Ok?
    requires Truthy(Read(store, HistoryPath(user, session))) && !Read(store, HistoryPath(user, session)).JObj?
    ensures var r := UpdateOrCreate(store, user, session, messages, title);
      var touched := Touch(Or(Read(store, SessionsPath(user)), JArr([])), session, title, LastTimestamp(messages).value);
      && r.result == Err(TypeError)
      && SessionsPath(user) in r.store && r.store[SessionsPath(user)] == JArr(touched.value)
  {
    PathsDistinct(user, session);
    var ts := LastTimestamp(messages).value;
    var touched := Touch(Or(Read(store, SessionsPath(user)), JArr([])), session, title, ts).value;
    ReadAfterWrite(store, SessionsPath(user), JArr(touched), HistoryPath(user, session));
  }

  /** `star_user_session` (lines 94-109): the first record of the session
      gets `starred`; with no record the for-else raises `ValueError`
      before anything is written. Only the session list can change. */
  function StarSession(store: Store, user: string, session: string, starred: bool): (r: Effect<Json>)
    ensures r.result.Err? ==> r.store == store
    ensures forall p :: p != SessionsPath(user) ==> Unchanged(store, r.store, p)
  {
    var path := SessionsPath(user);
    match Iterate(Or(Read(store, path), JArr([])))
    case Err(e) => Effect(store, Err(e))
    case Ok(items) =>
      match FindFirst(items, SessionKey, JStr(session))
      case Err(e) => Effect(store, Err(e))
      case Ok(None) => Effect(store, Err(ValueError("Session not found")))
      case Ok(Some(i)) =>
        Effect(Write(store, path, JArr(SetAt(items, i, "starred", JBool(starred)))),
               Ok(JObj(map["status" := JStr("success"), "starred" := JBool(starred)])))
  }

  /** The records a session-list operation scans. */
  function Listed(store: Store, user: string): Result<seq<Json>, Error> {
    Iterate(Or(Read(store, SessionsPath(user)), JArr([])))
  }

  /** Starring a listed session changes the `starred` field of its first
      record and nothing else; starring an unlisted one raises
      `ValueError("Session not found")` and writes nothing. */
  lemma StarFirstOnly(store: Store, user: string, session: string, starred: bool)
    requires Listed(store, user).Ok? && FindFirst(Listed(store, user).value, SessionKey, JStr(session)).Ok?
    ensures var items := Listed(store, user).value;
      var r := StarSession(store, user, session, starred);
      match FindFirst(items, SessionKey, JStr(session)).value
      case None => r == Effect(store, Err(ValueError("Session not found")))
      case Some(i) =>
        && r.result == Ok(JObj(map["status" := JStr("success"), "starred" := JBool(starred)]))
        && Read(r.store, SessionsPath(user)).JArr?
        && var after := Read(r.store, SessionsPath(user)).items;
        && |after| == |items|
        && after[i] == SetField(items[i], "starred", JBool(starred))
        && (forall j :: 0 <= j < |items| && j != i ==> after[j] == items[j])
  {
  }

  /** Starring twice with the same flag is starring once. */
  lemma StarIdempotent(store: Store, user: string, session: string, starred: bool)
    ensures var once := StarSession(store, user, session, starred);
      StarSession(once.store, user, session, starred) == once
  {
    var once := StarSession(store, user, session, starred);
    if once.result.Ok? {
      var path := SessionsPath(user);
      var items := Listed(store, user).value;
      var i := FindFirst(items, SessionKey, JStr(session)).value.value;
      var after := SetAt(items, i, "starred", JBool(starred));
      FindFirstAfterSet(items, SessionKey, JStr(session), i, "starred", JBool(starred));
      assert Read(once.store, path) == JArr(after);
      assert |after| > 0;
      assert Listed(once.store, user) == Ok(after);
      SetAtTwice(items, i, "starred", JBool(starred));
      assert Write(once.store, path, JArr(after)) == once.store;
    }
  }

  /** A successful update leaves the session listed, so starring it
      afterwards succeeds. */
  lemma UpdateThenStarSucceeds(store: Store, user: string, session: string, messages: seq<Json>,
                               title: string, starred: bool)
    requires UpdateOrCreate(store, user, session, messages, title).result.Ok?
    ensures StarSession(UpdateOrCreate(store, user, session, messages, title).store, user, session, starred).result.Ok?
  {
    var r := UpdateOrCreate(store, user, session, messages, title);
    var ts := LastTimestamp(messages).value;
    var sessions := Or(Read(store, SessionsPath(user)), JArr([]));
    var touched := Touch(sessions, session, title, ts).value;
    UpdateStores(store, user, session, messages, title);
    var items := Iterate(sessions).value;
    match FindFirst(items, SessionKey, JStr(session)).value
    case Some(i) =>
      FindFirstAfterSet(items, SessionKey, JStr(session), i, "last_updated", ts);
    case None =>
      FindFirstAppended(items, SessionKey, JStr(session), NewSession(session, title, ts));
    assert |touched| > 0;
    assert Listed(r.store, user) == Ok(touched);
  }

  /** `rename_user_session` (lines 151-179): the first record of the
      session gets the new title and `last_updated = now`; with no record
      it raises `ValueError` naming the session and the user, before
      anything is written. */
  function RenameSession(store: Store, user: string, session: string, newTitle: string, now: string)
    : (r: Effect<Json>)
    ensures r.result.Err? ==> r.store == store
    ensures forall p :: p != SessionsPath(user) ==> Unchanged(store, r.store, p)
  {
    var path := SessionsPath(user);
    match Listed(store, user)
    case Err(e) => Effect(store, Err(e))
    case Ok(items) =>
      match FindFirst(items, SessionKey, JStr(session))
      case Err(e) => Effect(store, Err(e))
      case Ok(None) =>
        Effect(store, Err(ValueError("Session ID '" + session + "' not found for user '" + user + "'")))
      case Ok(Some(i)) =>
        var titled := SetAt(items, i, "title", JStr(newTitle));
        Effect(Write(store, path, JArr(SetAt(titled, i, "last_updated", JStr(now)))),
               Ok(JObj(map[SessionKey := JStr(session), "new_title" := JStr(newTitle)])))
  }

  /** Renaming a listed session changes the title and `last_updated` of
      its first record, keeps its id, and leaves every other record
      alone. */
  lemma RenameFirstOnly(store: Store, user: string, session: string, newTitle: string, now: string)
    requires Listed(store, user).Ok?
    requires FindFirst(Listed(store, user).value, SessionKey, JStr(session)).Ok?
    requires FindFirst(Listed(store, user).value, SessionKey, JStr(session)).value.Some?
    ensures var items := Listed(store, user).value;
      var i := FindFirst(items, SessionKey, JStr(session)).value.value;
      var r := RenameSession(store, user, session, newTitle, now);
      && r.result == Ok(JObj(map[SessionKey := JStr(session), "new_title" := JStr(newTitle)]))
      && Read(r.store, SessionsPath(user)).JArr?
      && var after := Read(r.store, SessionsPath(user)).items;
      && |after| == |items|
      && HasField(after[i], "title", JStr(newTitle)) && HasField(after[i], "last_updated", JStr(now))
      && HasField(after[i], SessionKey, JStr(session))
      && (forall j :: 0 <= j < |items| && j != i ==> after[j] == items[j])
  {
  }

  /** `delete_user_session` (lines 112-149): the history is copied to the
      deleted folder and removed from the active one; then every record
      of the session leaves the active list, which is rewritten whatever
      happens next, and the last of them joins the deleted list. */
  function DeleteSession(store: Store, user: string, session: string): (r: Effect<Json>)
    ensures HistoryPath(user, session) !in store ==>
      r == Effect(store, Err(FileNotFound(HistoryPath(user, session))))
  {
    var active := HistoryPath(user, session);
    match Copy(store, active, DeletedHistoryPath(user, session))
    case Err(e) => Effect(store, Err(e))
    case Ok(copied) => Unlist(Remove(copied, active), user, session)
  }

  /** Lines 126-149, once the history has moved: only the two session
      lists can change. */
  function Unlist(moved: Store, user: string, session: string): (r: Effect<Json>)
    ensures forall p :: p != SessionsPath(user) && p != DeletedSessionsPath(user) ==> Unchanged(moved, r.store, p)
  {
    var deleted := Or(Read(moved, DeletedSessionsPath(user)), JArr([]));
    match Listed(moved, user)
    case Err(e) => Effect(moved, Err(e))
    case Ok(items) =>
      if !AllDicts(items) then Effect(moved, Err(AttributeError))
      else
        var rewritten := Write(moved, SessionsPath(user), JArr(Unmatched(items, SessionKey, JStr(session))));
        match LastMatch(items, SessionKey, JStr(session))
        case None => Effect(rewritten, Err(ValueError("Session metadata not found")))
        case Some(x) =>
          match deleted
          case JArr(ds) =>
            Effect(Write(rewritten, DeletedSessionsPath(user), JArr(ds + [x])),
                   Ok(JObj(map["status" := JStr("deleted"), SessionKey := JStr(session)])))
          case _ => Effect(rewritten, Err(AttributeError))
  }

  /** Delete touches the user's two session lists and the session's two
      history blobs, and no other blob. */
  lemma DeleteFrame(store: Store, user: string, session: string, p: string)
    requires p != SessionsPath(user) && p != DeletedSessionsPath(user)
    requires p != HistoryPath(user, session) && p != DeletedHistoryPath(user, session)
    ensures Unchanged(store, DeleteSession(store, user, session).store, p)
  {
    var active := HistoryPath(user, session);
    var copied := Copy(store, active, DeletedHistoryPath(user, session));
    if copied.Ok? {
      var moved := Remove(copied.value, active);
      assert Unchanged(store, copied.value, p);
      assert Unchanged(copied.value, moved, p);
      assert Unchanged(moved, Unlist(moved, user, session).store, p);
    }
  }

  /** Whatever happens after the copy, a present history has moved: the
      deleted folder holds it and the active folder no longer does. */
  lemma DeleteMovesHistory(store: Store, user: string, session: string)
    requires HistoryPath(user, session) in store
    ensures var r := DeleteSession(store, user, session);
      && HistoryPath(user, session) !in r.store
      && DeletedHistoryPath(user, session) in r.store
      && r.store[DeletedHistoryPath(user, session)] == store[HistoryPath(user, session)]
  {
    PathsDistinct(user, session);
    var moved := Remove(Copy(store, HistoryPath(user, session), DeletedHistoryPath(user, session)).value,
                        HistoryPath(user, session));
    assert Unchanged(moved, DeleteSession(store, user, session).store, HistoryPath(user, session));
    assert Unchanged(moved, DeleteSession(store, user, session).store, DeletedHistoryPath(user, session));
  }

  /** A successful delete leaves no record of the session in the active
      list (duplicates included), keeps the other records in order, and
      appends the last record of the session to the deleted list. */
  lemma DeleteDropsAll(store: Store, user: string, session: string)
    requires DeleteSession(store, user, session).result.Ok?
    ensures var r := DeleteSession(store, user, session);
      var moved := Remove(Copy(store, HistoryPath(user, session), DeletedHistoryPath(user, session)).value,
                          HistoryPath(user, session));
      var items := Listed(moved, user).value;
      var ds := Or(Read(moved, DeletedSessionsPath(user)), JArr([])).items;
      && Read(r.store, SessionsPath(user)) == JArr(Unmatched(items, SessionKey, JStr(session)))
      && (forall x :: x in Unmatched(items, SessionKey, JStr(session)) ==> !HasField(x, SessionKey, JStr(session)))
      && Read(r.store, DeletedSessionsPath(user)) == JArr(ds + [LastMatch(items, SessionKey, JStr(session)).value])
  {
    PathsDistinct(user, session);
  }

  /** With no record of the session, delete still moves the history and
      writes the active list back (creating it when it was missing) before
      raising. */
  lemma DeleteNoMatchStillWrites(store: Store, user: string, session: string)
    requires HistoryPath(user, session) in store
    requires Listed(store, user).Ok?
    requires var items := Listed(store, user).value;
      forall j :: 0 <= j < |items| ==> items[j].JObj? && !HasField(items[j], SessionKey, JStr(session))
    ensures var r := DeleteSession(store, user, session);
      && r.result == Err(ValueError("Session metadata not found"))
      && HistoryPath(user, session) !in r.store
      && SessionsPath(user) in r.store && r.store[SessionsPath(user)] == JArr(Listed(store, user).value)
  {
    PathsDistinct(user, session);
    var moved := Remove(Copy(store, HistoryPath(user, session), DeletedHistoryPath(user, session)).value,
                        HistoryPath(user, session));
    assert Unchanged(store, moved, SessionsPath(user));
    assert Listed(moved, user) == Listed(store, user);
    var items := Listed(moved, user).value;
    UnmatchedNone(items, SessionKey, JStr(session));
  }

  /** After a successful delete the session cannot be starred: it is no
      longer listed. */
  lemma DeleteThenStarFails(store: Store, user: string, session: string, starred: bool)
    requires DeleteSession(store, user, session).result.Ok?
    ensures var after := DeleteSession(store, user, session).store;
      StarSession(after, user, session, starred) == Effect(after, Err(ValueError("Session not found")))
  {
    DeleteDropsAll(store, user, session);
    var after := DeleteSession(store, user, session).store;
    var moved := Remove(Copy(store, HistoryPath(user, session), DeletedHistoryPath(user, session)).value,
                        HistoryPath(user, session));
    var items := Listed(moved, user).value;
    var kept := Unmatched(items, SessionKey, JStr(session));
    assert forall j :: 0 <= j < |kept| ==> kept[j] in items;
    assert Listed(after, user) == Ok(kept) by {
      if |kept| == 0 {
        assert Or(JArr(kept), JArr([])) == JArr([]);
      }
    }
    FindFirstNone(kept, SessionKey, JStr(session));
  }
}

=== FILE: tech_query.dfy ===
/** The two `process_tech_query` variants as functions of the outside
    world's answers. The comparison variant (core/tech_query_test.py)
    looks the primary jurisdiction up, asks the model which jurisdictions
    the query names, expands the query, retrieves six passages from the
    primary index, walks the extracted jurisdictions for three passages
    each, and asks for the answer. The single-index variant
    (core/tech_query.py) looks the jurisdiction up, expands the query
    from comma-separated text, retrieves twelve passages and asks for the
    answer. Either returns `None` when the primary retrieval is empty. */
module TechQuery {
  import opened Wrappers
  import opened PyValues
  import opened Text
  import opened Citations
  import opened Calls
  import opened Jurisdictions
  import opened Expansion
  import opened Extraction
  import opened FanOut

  /** Passages fetched from the primary index of the comparison variant. */
  const PrimaryK: nat := 6

  /** Passages fetched by the single-index variant. */
  const SingleK: nat := 12

  /** What the prompt shows for a falsy chat history. */
  const NoHistory: string := "No prior conversation."

  /** The calls one request made, in order, and what it returned: the
      answer text, `None` for an empty primary retrieval, or the
      exception. */
  datatype Run = Run(calls: seq<Call>, result: Result<Option<string>, Error>)

  /** `chat_history or "No prior conversation."`. */
  function HistoryOrDefault(chatHistory: Json): (h: Json)
    ensures Truthy(chatHistory) ==> h == chatHistory
    ensures !Truthy(chatHistory) ==> h == JStr(NoHistory)
  {
    Or(chatHistory, JStr(NoHistory))
  }

  /** The comparison variant, core/tech_query_test.py:22-280, with the
      expansion of lines 199-238 as evidently intended (its reply parsed).
      Each exception ends the request with the calls made so far. */
  function ProcessComparison(query: string, state: string, perspective: string, chatHistory: Json,
                             w: World): (r: Run)
    ensures state !in ComparisonTable ==> r == Run([], Err(KeyError(JStr(state))))
    ensures state in ComparisonTable ==> |r.calls| > 0 && r.calls[0] == ExtractCall(query)
  {
    match IndexPath(ComparisonTable, state)
    case Err(e) => Run([], Err(e))
    case Ok(path) =>
      match StatesQuery(w.statesReply)
      case Err(e) => Run([ExtractCall(query)], Err(e))
      case Ok(states) =>
        match ExpandQuery(query, w.expansionReply)
        case Err(e) => Run([ExtractCall(query), ExpandCall(query)], Err(e))
        case Ok(expanded) =>
          var rest := Compare(path, state, perspective, chatHistory, Indexed(states).value, expanded,
                              w.retrieve, w.answer);
          Run([ExtractCall(query), ExpandCall(query)] + rest.calls, rest.result)
  }

  /** Lines 243-280 of the comparison variant, once the primary index
      path, the extracted jurisdictions and the expanded query are known:
      the primary retrieval, the walk over the jurisdictions, the prompt
      and the answer. */
  function Compare(path: string, state: string, perspective: string, chatHistory: Json,
                   elems: seq<Json>, expanded: string, retrieve: Retriever, answer: PromptArgs -> string)
    : (r: Run)
    ensures |r.calls| > 0 && r.calls[0] == RetrieveCall(path, expanded, PrimaryK)
    ensures r.result == Ok(None) <==> |retrieve(path, expanded, PrimaryK)| == 0
    ensures r.result.Ok? && r.result.value.Some? ==> r.calls[|r.calls| - 1].AnswerCall?
  {
    var docs := retrieve(path, expanded, PrimaryK);
    var primary := [RetrieveCall(path, expanded, PrimaryK)];
    if |docs| == 0 then Run(primary, Ok(None))
    else
      var walk := Walk(Visited(elems), state, expanded, retrieve, "");
      if walk.error.Some? then Run(primary + walk.calls, Err(walk.error.value))
      else
        var args := PromptArgs(FormatDocs(docs) + " " + walk.context, SafeText(expanded),
                               perspective, HistoryOrDefault(chatHistory));
        Run(primary + walk.calls + [AnswerCall(args)], Ok(Some(answer(args))))
  }

  /** The single-index variant, core/tech_query.py:1-228. */
  function ProcessSingle(query: string, state: string, perspective: string, chatHistory: Json,
                         w: World): (r: Run)
    ensures state !in SingleTable ==> r == Run([], Err(KeyError(JStr(state))))
    ensures state in SingleTable ==> |r.calls| >= 2 && r.calls[0] == ExpandCall(query)
  {
    match IndexPath(SingleTable, state)
    case Err(e) => Run([], Err(e))
    case Ok(path) =>
      var expanded := CommaExpand(query, w.expansionText);
      var docs := w.retrieve(path, expanded, SingleK);
      var fetched := [ExpandCall(query), RetrieveCall(path, expanded, SingleK)];
      if |docs| == 0 then Run(fetched, Ok(None))
      else
        var args := PromptArgs(FormatDocs(docs), SafeText(expanded), perspective, HistoryOrDefault(chatHistory));
        Run(fetched + [AnswerCall(args)], Ok(Some(w.answer(args))))
  }

  /** A trace of retrievals holds no answer call. */
  lemma {:induction false} RetrievalsOnly(calls: seq<Call>)
    requires forall c :: c in calls ==> c.RetrieveCall?
    ensures Answers(calls) == 0 && Retrievals(calls) == |calls|
    decreases |calls|
  {
    if |calls| > 0 {
      assert calls[0] in calls;
      assert forall c :: c in calls[1..] ==> c in calls;
      RetrievalsOnly(calls[1..]);
    }
  }

  /** A comparison request that got past the lookup, the extraction and
      the expansion: the two model calls, then the rest. */
  lemma ComparisonStages(query: string, state: string, perspective: string, chatHistory: Json,
                         w: World, states: Json, expanded: string)
    requires state in ComparisonTable
    requires StatesQuery(w.statesReply) == Ok(states) && ExpandQuery(query, w.expansionReply) == Ok(expanded)
    ensures var r := ProcessComparison(query, state, perspective, chatHistory, w);
      var rest := Compare(IndexPath(ComparisonTable, state).value, state, perspective, chatHistory,
                          Indexed(states).value, expanded, w.retrieve, w.answer);
      r == Run([ExtractCall(query), ExpandCall(query)] + rest.calls, rest.result)
  {
  }

  /** An empty primary retrieval returns `None` after exactly three calls
      (extraction, expansion, one retrieval): no secondary index is
      queried and no answer is asked for. */
  lemma ComparisonNoDocs(query: string, state: string, perspective: string, chatHistory: Json,
                         w: World, expanded: string)
    requires state in ComparisonTable && StatesQuery(w.statesReply).Ok?
    requires ExpandQuery(query, w.expansionReply) == Ok(expanded)
    requires w.retrieve(IndexPath(ComparisonTable, state).value, expanded, PrimaryK) == []
    ensures var r := ProcessComparison(query, state, perspective, chatHistory, w);
      var path := IndexPath(ComparisonTable, state).value;
      && r.result == Ok(None)
      && r.calls == [ExtractCall(query), ExpandCall(query), RetrieveCall(path, expanded, PrimaryK)]
      && Answers(r.calls) == 0 && Retrievals(r.calls) == 1
  {
    var path := IndexPath(ComparisonTable, state).value;
    ComparisonStages(query, state, perspective, chatHistory, w, StatesQuery(w.statesReply).value, expanded);
    var calls := [ExtractCall(query), ExpandCall(query), RetrieveCall(path, expanded, PrimaryK)];
    assert [ExtractCall(query), ExpandCall(query)] + [RetrieveCall(path, expanded, PrimaryK)] == calls;
    ThreeCalls(calls);
  }

  /** Counting the calls of a three-call trace. */
  lemma ThreeCalls(calls: seq<Call>)
    requires |calls| == 3 && calls[0].ExtractCall? && calls[1].ExpandCall? && calls[2].RetrieveCall?
    ensures Answers(calls) == 0 && Retrievals(calls) == 1
  {
    var t1 := calls[1..];
    var t2 := t1[1..];
    assert t2[1..] == [];
    assert Answers(t2) == 0 && Retrievals(t2) == 1;
    assert Answers(t1) == 0 && Retrievals(t1) == 1;
  }

  /** The rest of a comparison request asks for an answer at most once,
      and exactly when it returns one. */
  lemma CompareAnswersOnce(path: string, state: string, perspective: string, chatHistory: Json,
                           elems: seq<Json>, expanded: string, retrieve: Retriever, answer: PromptArgs -> string)
    ensures var r := Compare(path, state, perspective, chatHistory, elems, expanded, retrieve, answer);
      Answers(r.calls) == (if r.result.Ok? && r.result.value.Some? then 1 else 0)
  {
    var r := Compare(path, state, perspective, chatHistory, elems, expanded, retrieve, answer);
    var docs := retrieve(path, expanded, PrimaryK);
    var primary := [RetrieveCall(path, expanded, PrimaryK)];
    if |docs| > 0 {
      var walk := Walk(Visited(elems), state, expanded, retrieve, "");
      WalkShape(Visited(elems), state, expanded, retrieve, "");
      PrimaryThenWalk(primary, walk.calls);
      if walk.error.None? {
        var args := PromptArgs(FormatDocs(docs) + " " + walk.context, SafeText(expanded),
                               perspective, HistoryOrDefault(chatHistory));
        assert r.calls == primary + walk.calls + [AnswerCall(args)];
        OneAnswerAfterRetrievals(primary + walk.calls, args);
      } else {
        assert r.calls == primary + walk.calls;
        RetrievalsOnly(primary + walk.calls);
      }
    } else {
      assert r.calls == primary;
      RetrievalsOnly(primary);
    }
  }

  /** The primary retrieval followed by the walk's is a trace of
      retrievals. */
  lemma PrimaryThenWalk(primary: seq<Call>, walked: seq<Call>)
    requires |primary| == 1 && primary[0].RetrieveCall?
    requires forall c :: c in walked ==> c.RetrieveCall?
    ensures forall c :: c in primary + walked ==> c.RetrieveCall?
  {
  }

  /** Retrievals followed by one answer call count one answer. */
  lemma OneAnswerAfterRetrievals(calls: seq<Call>, args: PromptArgs)
    requires forall c :: c in calls ==> c.RetrieveCall?
    ensures Answers(calls + [AnswerCall(args)]) == 1
  {
    RetrievalsOnly(calls);
    CountsAppend(calls, [AnswerCall(args)]);
    assert [AnswerCall(args)][1..] == [];
  }

  /** The model is asked for an answer at most once, and exactly when the
      request returns an answer. */
  lemma ComparisonAnswersOnce(query: string, state: string, perspective: string, chatHistory: Json, w: World)
    ensures var r := ProcessComparison(query, state, perspective, chatHistory, w);
      Answers(r.calls) == (if r.result.Ok? && r.result.value.Some? then 1 else 0)
  {
    var r := ProcessComparison(query, state, perspective, chatHistory, w);
    if state in ComparisonTable && StatesQuery(w.statesReply).Ok? && ExpandQuery(query, w.expansionReply).Ok? {
      var states := StatesQuery(w.statesReply).value;
      var expanded := ExpandQuery(query, w.expansionReply).value;
      ComparisonStages(query, state, perspective, chatHistory, w, states, expanded);
      var rest := Compare(IndexPath(ComparisonTable, state).value, state, perspective, chatHistory,
                          Indexed(states).value, expanded, w.retrieve, w.answer);
      CompareAnswersOnce(IndexPath(ComparisonTable, state).value, state, perspective, chatHistory,
                         Indexed(states).value, expanded, w.retrieve, w.answer);
      CountsAppend([ExtractCall(query), ExpandCall(query)], rest.calls);
      CountsZero([ExtractCall(query), ExpandCall(query)]);
    } else {
      ComparisonEarlyExit(query, state, perspective, chatHistory, w);
    }
  }

  /** A comparison request that stops before the primary retrieval raises
      and has asked for no answer. */
  lemma ComparisonEarlyExit(query: string, state: string, perspective: string, chatHistory: Json, w: World)
    requires !(state in ComparisonTable && StatesQuery(w.statesReply).Ok? && ExpandQuery(query, w.expansionReply).Ok?)
    ensures var r := ProcessComparison(query, state, perspective, chatHistory, w);
      r.result.Err? && Answers(r.calls) == 0
  {
    var r := ProcessComparison(query, state, perspective, chatHistory, w);
    if state in ComparisonTable && StatesQuery(w.statesReply).Ok? {
      assert r.calls == [ExtractCall(query), ExpandCall(query)];
    } else if state in ComparisonTable {
      assert r.calls == [ExtractCall(query)];
    }
    CountsZero(r.calls);
  }

  /** The prompt of a comparison request whose extracted jurisdictions are
      all the primary one or in the table: the context is the primary block
      followed by the blocks of the last extracted jurisdiction and then of
      every extracted jurisdiction in order, skipping the primary one, and
      the question is the normalised expanded query. */
  lemma ComparisonPrompt(query: string, state: string, perspective: string, chatHistory: Json,
                         w: World, states: Json, expanded: string)
    requires state in ComparisonTable
    requires StatesQuery(w.statesReply) == Ok(states) && ExpandQuery(query, w.expansionReply) == Ok(expanded)
    requires |w.retrieve(IndexPath(ComparisonTable, state).value, expanded, PrimaryK)| > 0
    requires var elems := Indexed(states).value;
      |elems| > 0 && forall i :: 0 <= i < |elems| ==> Resolvable(elems[i], state)
    ensures var r := ProcessComparison(query, state, perspective, chatHistory, w);
      var docs := w.retrieve(IndexPath(ComparisonTable, state).value, expanded, PrimaryK);
      var elems := Indexed(states).value;
      var args := PromptArgs(
        FormatDocs(docs) + " " + Glued(Kept([elems[|elems| - 1]] + elems, state), expanded, w.retrieve),
        SafeText(expanded), perspective, HistoryOrDefault(chatHistory));
      && r.result == Ok(Some(w.answer(args)))
      && r.calls[|r.calls| - 1] == AnswerCall(args)
      && Normalized(args.question)
  {
    ComparisonStages(query, state, perspective, chatHistory, w, states, expanded);
    FanOutClosedForm(Indexed(states).value, state, expanded, w.retrieve);
    SafeTextNormalized(expanded);
  }

  /** With the expansion as written (no `json` module, so every reply
      counts as unparsable) the comparison variant searches with the
      stripped query. */
  lemma ComparisonSearchesStrippedQuery(query: string, state: string, perspective: string,
                                        chatHistory: Json, w: World)
    requires state in ComparisonTable && StatesQuery(w.statesReply).Ok? && w.expansionReply.Malformed?
    ensures var r := ProcessComparison(query, state, perspective, chatHistory, w);
      |r.calls| >= 3 && r.calls[2] == RetrieveCall(IndexPath(ComparisonTable, state).value, Strip(query), PrimaryK)
  {
    assert ExpandQuery(query, w.expansionReply) == Ok(Strip(query));
    ComparisonStages(query, state, perspective, chatHistory, w, StatesQuery(w.statesReply).value, Strip(query));
  }

  /** The comparison variant as written throws the expansion reply away,
      which is the pipeline above given an unparsable reply: whatever the
      model answers, the primary search uses the expansion as written,
      the stripped query. */
  lemma ComparisonAsWritten(query: string, state: string, perspective: string, chatHistory: Json, w: World)
    requires state in ComparisonTable && StatesQuery(w.statesReply).Ok?
    ensures var r := ProcessComparison(query, state, perspective, chatHistory, w.(expansionReply := Malformed));
      && |r.calls| >= 3
      && r.calls[2] == RetrieveCall(IndexPath(ComparisonTable, state).value,
                                    ExpandAsWritten(query, w.expansionReply).value, PrimaryK)
  {
    ComparisonSearchesStrippedQuery(query, state, perspective, chatHistory, w.(expansionReply := Malformed));
  }

  /** An empty retrieval in the single-index variant returns `None` after
      the expansion and the one retrieval, before any prompt is built. */
  lemma SingleNoDocs(query: string, state: string, perspective: string, chatHistory: Json, w: World)
    requires state in SingleTable
    requires w.retrieve(IndexPath(SingleTable, state).value, CommaExpand(query, w.expansionText), SingleK) == []
    ensures var r := ProcessSingle(query, state, perspective, chatHistory, w);
      && r.result == Ok(None)
      && r.calls == [ExpandCall(query),
                     RetrieveCall(IndexPath(SingleTable, state).value, CommaExpand(query, w.expansionText), SingleK)]
      && Answers(r.calls) == 0
  {
    var r := ProcessSingle(query, state, perspective, chatHistory, w);
    CountsZero(r.calls);
  }

  /** The prompt of a single-index request with passages: the context is
      the formatted passages and nothing else, the question is the
      normalised expanded query, which begins with the query itself and a
      space, and a falsy history is replaced by the default text. */
  lemma SinglePrompt(query: string, state: string, perspective: string, chatHistory: Json, w: World)
    requires state in SingleTable
    requires |w.retrieve(IndexPath(SingleTable, state).value, CommaExpand(query, w.expansionText), SingleK)| > 0
    ensures var r := ProcessSingle(query, state, perspective, chatHistory, w);
      var expanded := CommaExpand(query, w.expansionText);
      var docs := w.retrieve(IndexPath(SingleTable, state).value, expanded, SingleK);
      && |r.calls| == 3 && r.calls[2].AnswerCall?
      && r.calls[2].prompt == PromptArgs(FormatDocs(docs), SafeText(expanded), perspective, HistoryOrDefault(chatHistory))
      && r.result == Ok(Some(w.answer(r.calls[2].prompt)))
      && expanded[..|query| + 1] == query + " "
      && Normalized(r.calls[2].prompt.question)
      && (!Truthy(chatHistory) ==> r.calls[2].prompt.chatHistory == JStr(NoHistory))
  {
    SingleRun(query, state, perspective, chatHistory, w);
    SafeTextNormalized(CommaExpand(query, w.expansionText));
  }

  /** The trace and result of a single-index request that retrieved
      something. */
  lemma SingleRun(query: string, state: string, perspective: string, chatHistory: Json, w: World)
    requires state in SingleTable
    requires |w.retrieve(IndexPath(SingleTable, state).value, CommaExpand(query, w.expansionText), SingleK)| > 0
    ensures var path := IndexPath(SingleTable, state).value;
      var expanded := CommaExpand(query, w.expansionText);
      var docs := w.retrieve(path, expanded, SingleK);
      var args := PromptArgs(FormatDocs(docs), SafeText(expanded), perspective, HistoryOrDefault(chatHistory));
      ProcessSingle(query, state, perspective, chatHistory, w)
        == Run([ExpandCall(query), RetrieveCall(path, expanded, SingleK), AnswerCall(args)], Ok(Some(w.answer(args))))
  {
  }

  /** The two variants disagree on Uttarakhand: the comparison variant
      goes on to ask the model about it, while the single-index variant
      knows only the spelling "Uttrakhand" and raises `KeyError` before
      any call. */
  lemma UttarakhandSplitsVariants(query: string, perspective: string, chatHistory: Json, w: World)
    ensures ProcessSingle(query, "Uttarakhand", perspective, chatHistory, w)
      == Run([], Err(KeyError(JStr("Uttarakhand"))))
    ensures ProcessComparison(query, "Uttarakhand", perspective, chatHistory, w).calls[0] == ExtractCall(query)
  {
    TableSpellings();
  }
}

=== FILE: text.dfy ===
/** String handling shared by both technical-query variants: Python's
    whitespace test, `strip`, the `\s+` substitution, `safe_text`
    (core/tech_query_test.py:40-44, core/tech_query.py:39-43), and the
    `split`/`join` pair used by query expansion and citation formatting. */
module Text {

  /** Python's `str.isspace()`. The same characters are what `\s` matches
      in a `str` regular expression and what `str.strip()` removes. */
  predicate IsSpace(c: char) {
    || c == ' '
    || '\t' <= c <= '\r'
    || '\U{1c}' <= c <= '\U{1f}'
    || c == '\U{85}'
    || c == '\U{a0}'
    || c == '\U{1680}'
    || '\U{2000}' <= c <= '\U{200a}'
    || c == '\U{2028}'
    || c == '\U{2029}'
    || c == '\U{202f}'
    || c == '\U{205f}'
    || c == '\U{3000}'
  }

  /** No character of `s` is whitespace. */
  predicate NoSpace(s: string) {
    forall i :: 0 <= i < |s| ==> !IsSpace(s[i])
  }

  /** Every whitespace character of `s` is a plain space and no two
      whitespace characters are adjacent. */
  predicate SingleSpaced(s: string) {
    && (forall i :: 0 <= i < |s| && IsSpace(s[i]) ==> s[i] == ' ')
    && (forall i :: 0 < i < |s| ==> !SpacePair(s, i))
  }

  /** The characters at `i - 1` and `i` are both whitespace. */
  predicate SpacePair(s: string, i: int)
    requires 0 < i < |s|
  {
    IsSpace(s[i - 1]) && IsSpace(s[i])
  }

  /** `s` neither starts nor ends with whitespace. */
  predicate Trimmed(s: string) {
    |s| == 0 || (!IsSpace(s[0]) && !IsSpace(s[|s| - 1]))
  }

  /** The shape `safe_text` promises: single spaces between words, none at
      either end. */
  predicate Normalized(s: string) {
    SingleSpaced(s) && Trimmed(s)
  }

  /** `s.lstrip()`: drops the leading whitespace run and nothing else. */
  function LStrip(s: string): (r: string)
    ensures |r| <= |s| && r == s[|s| - |r|..]
    ensures |r| > 0 ==> !IsSpace(r[0])
    ensures forall i :: 0 <= i < |s| - |r| ==> IsSpace(s[i])
    decreases |s|
  {
    if |s| > 0 && IsSpace(s[0]) then LStrip(s[1..]) else s
  }

  /** `s.rstrip()`: drops the trailing whitespace run and nothing else. */
  function RStrip(s: string): (r: string)
    ensures |r| <= |s| && r == s[..|r|]
    ensures |r| > 0 ==> !IsSpace(r[|r| - 1])
    ensures forall i :: |r| <= i < |s| ==> IsSpace(s[i])
    decreases |s|
  {
    if |s| > 0 && IsSpace(s[|s| - 1]) then RStrip(s[..|s| - 1]) else s
  }

  /** `s.strip()`: whitespace removed from both ends (`StripOnlyEnds`
      says nothing else is); a string that already has none there is
      returned unchanged. */
  function Strip(s: string): (r: string)
    ensures Trimmed(r)
    ensures |r| <= |s|
    ensures Trimmed(s) ==> r == s
  {
    RStrip(LStrip(s))
  }

  /** Stripping removes only whitespace, and only at the ends: the result
      occurs in `s` with nothing but whitespace before and after it. */
  lemma StripOnlyEnds(s: string)
    ensures exists i :: Framed(s, i, Strip(s))
  {
    var l := LStrip(s);
    StripFramed(s, l, RStrip(l));
    assert Framed(s, |s| - |l|, Strip(s));
  }

  /** Whitespace stripped from the left and then from the right leaves a
      piece framed by whitespace. */
  lemma StripFramed(s: string, l: string, r: string)
    requires |l| <= |s| && l == s[|s| - |l|..] && (forall k :: 0 <= k < |s| - |l| ==> IsSpace(s[k]))
    requires |r| <= |l| && r == l[..|r|] && (forall k :: |r| <= k < |l| ==> IsSpace(l[k]))
    ensures Framed(s, |s| - |l|, r)
  {
    var i := |s| - |l|;
    assert r == s[i..i + |r|];
    forall k | i + |r| <= k < |s|
      ensures IsSpace(s[k])
    {
      assert s[k] == l[k - i];
    }
  }

  /** `r` occurs in `s` at offset `i` with only whitespace before and
      after it. */
  predicate Framed(s: string, i: int, r: string) {
    && 0 <= i <= |s| - |r| && r == s[i..i + |r|]
    && (forall k :: 0 <= k < i ==> IsSpace(s[k]))
    && (forall k :: i + |r| <= k < |s| ==> IsSpace(s[k]))
  }

  /** `re.sub(r"\s+", " ", s)`: every maximal whitespace run becomes a
      single space, everything else is kept. */
  function Collapse(s: string): (r: string)
    ensures |s| > 0 ==> |r| > 0 && (IsSpace(r[0]) <==> IsSpace(s[0]))
    ensures |s| > 0 && !IsSpace(s[0]) ==> r[0] == s[0]
    ensures |r| <= |s|
    decreases |s|
  {
    if |s| == 0 then ""
    else if IsSpace(s[0]) then " " + Collapse(LStrip(s[1..]))
    else [s[0]] + Collapse(s[1..])
  }

  /** The substitution leaves no whitespace but single plain spaces. */
  lemma {:induction false} CollapseSingleSpaced(s: string)
    ensures SingleSpaced(Collapse(s))
    decreases |s|
  {
    if |s| > 0 {
      if IsSpace(s[0]) {
        CollapseSingleSpaced(LStrip(s[1..]));
        SingleSpacedCons(' ', Collapse(LStrip(s[1..])));
      } else {
        CollapseSingleSpaced(s[1..]);
        SingleSpacedCons(s[0], Collapse(s[1..]));
      }
    }
  }

  /** Putting one character in front keeps single spacing when it is a
      plain space followed by a non-space, or is not whitespace at all. */
  lemma SingleSpacedCons(c: char, rest: string)
    requires SingleSpaced(rest)
    requires IsSpace(c) ==> c == ' ' && (|rest| > 0 ==> !IsSpace(rest[0]))
    ensures SingleSpaced([c] + rest)
  {
    var t := [c] + rest;
    forall k | 0 < k < |t|
      ensures !SpacePair(t, k)
    {
      if k > 1 {
        assert !SpacePair(rest, k - 1);
        assert t[k] == rest[k - 1] && t[k - 1] == rest[k - 2];
      }
    }
    forall k | 0 <= k < |t| && IsSpace(t[k])
      ensures t[k] == ' '
    {
      if k > 0 {
        assert t[k] == rest[k - 1];
      }
    }
  }

  /** `safe_text` (core/tech_query_test.py:40-44): the UTF-8 round trip with
      `errors="ignore"` drops only lone surrogates, which Dafny's `char`
      cannot hold, so it is the identity here; then whitespace runs are
      collapsed and the ends stripped. The spacing inside the result is
      stated by `SafeTextNormalized`. */
  function SafeText(s: string): (r: string)
    ensures Trimmed(r)
    ensures |r| <= |s|
  {
    Strip(Collapse(s))
  }

  /** `safe_text` leaves single spaces between words and none at either
      end. */
  lemma SafeTextNormalized(s: string)
    ensures Normalized(SafeText(s))
  {
    CollapseSingleSpaced(s);
    StripKeepsSingleSpaced(Collapse(s));
  }

  /** A contiguous piece of a single-spaced string is single-spaced. */
  lemma SliceSingleSpaced(s: string, i: nat, j: nat)
    requires SingleSpaced(s) && i <= j <= |s|
    ensures SingleSpaced(s[i..j])
  {
    var t := s[i..j];
    forall k | 0 < k < |t|
      ensures !SpacePair(t, k)
    {
      assert !SpacePair(s, i + k);
      assert t[k] == s[i + k] && t[k - 1] == s[i + k - 1];
    }
  }

  /** Stripping cuts a contiguous piece, so it keeps single spacing. */
  lemma StripKeepsSingleSpaced(s: string)
    requires SingleSpaced(s)
    ensures SingleSpaced(Strip(s))
  {
    var l := LStrip(s);
    SuffixSingleSpaced(s, |s| - |l|);
    PrefixSingleSpaced(l, |RStrip(l)|);
  }

  /** A tail of a single-spaced string is single-spaced. */
  lemma SuffixSingleSpaced(s: string, n: nat)
    requires SingleSpaced(s) && n <= |s|
    ensures SingleSpaced(s[n..])
  {
    SliceSingleSpaced(s, n, |s|);
    assert s[n..|s|] == s[n..];
  }

  /** A head of a single-spaced string is single-spaced. */
  lemma PrefixSingleSpaced(s: string, n: nat)
    requires SingleSpaced(s) && n <= |s|
    ensures SingleSpaced(s[..n])
  {
    SliceSingleSpaced(s, 0, n);
    assert s[0..n] == s[..n];
  }

  /** A single-spaced string has nothing left for the substitution to do. */
  lemma {:induction false} CollapseFixpoint(s: string)
    requires SingleSpaced(s)
    ensures Collapse(s) == s
    decreases |s|
  {
    if |s| > 0 {
      SliceSingleSpaced(s, 1, |s|);
      assert s[1..|s|] == s[1..];
      CollapseFixpoint(s[1..]);
      if IsSpace(s[0]) {
        if |s| > 1 {
          assert !SpacePair(s, 1);
          assert !IsSpace(s[1..][0]);
        }
        assert LStrip(s[1..]) == s[1..];
      }
      assert s == [s[0]] + s[1..];
    }
  }

  /** `safe_text` applied to its own output changes nothing. */
  lemma SafeTextIdempotent(s: string)
    ensures SafeText(SafeText(s)) == SafeText(s)
  {
    var r := SafeText(s);
    SafeTextNormalized(s);
    CollapseFixpoint(r);
  }

  /** Output of `safe_text` contains no line break, since every whitespace
      character left in it is a plain space. */
  lemma SafeTextHasNoNewline(s: string)
    ensures '\n' !in SafeText(s)
  {
    var r := SafeText(s);
    SafeTextNormalized(s);
    forall i | 0 <= i < |r|
      ensures r[i] != '\n'
    {
      if IsSpace(r[i]) {
        assert r[i] == ' ';
      }
    }
  }

  /** The longest prefix of `s` without whitespace. */
  function TakeWord(s: string): (w: string)
    ensures |w| <= |s| && w == s[..|w|] && s == w + s[|w|..]
    ensures NoSpace(w)
    ensures |w| < |s| ==> IsSpace(s[|w|])
    ensures |s| > 0 && !IsSpace(s[0]) ==> |w| > 0
    decreases |s|
  {
    if |s| == 0 || IsSpace(s[0]) then "" else [s[0]] + TakeWord(s[1..])
  }

  /** Python's `s.split()` with no argument: the maximal non-whitespace runs
      of `s`, in order. */
  function Words(s: string): seq<string>
    decreases |s|
  {
    var t := LStrip(s);
    if |t| == 0 then []
    else
      var w := TakeWord(t);
      assert |w| > 0;
      [w] + Words(t[|w|..])
  }

  /** Python's `sep.join(parts)`. */
  function Join(sep: string, parts: seq<string>): string
    decreases |parts|
  {
    if |parts| == 0 then ""
    else if |parts| == 1 then parts[0]
    else parts[0] + sep + Join(sep, parts[1..])
  }

  /** Joining one more part in front puts the separator between it and the
      rest. */
  lemma JoinCons(sep: string, p: string, parts: seq<string>)
    requires |parts| > 0
    ensures Join(sep, [p] + parts) == p + sep + Join(sep, parts)
  {
    assert ([p] + parts)[1..] == parts;
  }

  /** The substitution passes a word through unchanged. */
  lemma {:induction false} CollapseWord(w: string, x: string)
    requires NoSpace(w)
    ensures Collapse(w + x) == w + Collapse(x)
    decreases |w|
  {
    if |w| > 0 {
      var y := w[1..] + x;
      assert w + x == [w[0]] + y;
      CollapseCons(w[0], y);
      CollapseWord(w[1..], x);
      assert [w[0]] + (w[1..] + Collapse(x)) == w + Collapse(x);
    } else {
      assert w + x == x;
    }
  }

  /** One step of the substitution: a leading non-space is kept, a leading
      whitespace run becomes one space. */
  lemma CollapseCons(c: char, y: string)
    ensures !IsSpace(c) ==> Collapse([c] + y) == [c] + Collapse(y)
    ensures IsSpace(c) ==> Collapse([c] + y) == " " + Collapse(LStrip(y))
  {
    assert ([c] + y)[1..] == y;
  }

  /** A non-empty string of whitespace collapses to one space. */
  lemma CollapseBlank(s: string)
    requires |s| > 0 && |LStrip(s)| == 0
    ensures Collapse(s) == " "
  {
    assert IsSpace(s[0]);
    assert |LStrip(s[1..])| == 0;
  }

  /** `rstrip` only looks past a suffix that keeps some non-whitespace. */
  lemma {:induction false} RStripAppend(a: string, b: string)
    requires |RStrip(b)| > 0
    ensures RStrip(a + b) == a + RStrip(b)
    decreases |b|
  {
    if IsSpace(b[|b| - 1]) {
      assert (a + b)[..|a + b| - 1] == a + b[..|b| - 1];
      RStripAppend(a, b[..|b| - 1]);
    }
  }

  /** Stripping a word followed by one space gives back the word. */
  lemma StripWordSpace(w: string)
    requires |w| > 0 && NoSpace(w)
    ensures Strip(w + " ") == w && Strip(w) == w
  {
    var ws := w + " ";
    assert !IsSpace(ws[0]) && !IsSpace(w[0]);
    assert LStrip(ws) == ws;
    assert LStrip(w) == w;
    assert ws[..|ws| - 1] == w;
    assert RStrip(ws) == RStrip(w);
    assert !IsSpace(w[|w| - 1]);
    assert RStrip(w) == w;
  }

  /** `lstrip` of a string that already starts with a non-space (or is
      empty) changes nothing. */
  lemma LStripNoop(s: string)
    requires |s| == 0 || !IsSpace(s[0])
    ensures LStrip(s) == s
  {
  }

  /** A word and what follows it: how `Words` and the substitution both
      take the first word off a string that starts with one. */
  lemma WordsStep(t: string)
    requires |t| > 0 && !IsSpace(t[0])
    ensures var w := TakeWord(t);
      && |w| > 0
      && t == w + t[|w|..]
      && Words(t) == [w] + Words(LStrip(t[|w|..]))
      && Collapse(t) == w + Collapse(t[|w|..])
  {
    var w := TakeWord(t);
    var rest := t[|w|..];
    assert t == w + rest;
    CollapseWord(w, rest);
    LStripNoop(t);
    assert Words(t) == [w] + Words(rest);
    var rest2 := LStrip(rest);
    LStripNoop(rest2);
    assert Words(rest) == Words(rest2);
  }

  /** The last word of a string: what follows it is blank. */
  lemma LastWord(w: string, rest: string)
    requires |w| > 0 && NoSpace(w) && |LStrip(rest)| == 0
    ensures Strip(w + Collapse(rest)) == w
  {
    if |rest| == 0 {
      assert w + Collapse(rest) == w;
    } else {
      CollapseBlank(rest);
    }
    StripWordSpace(w);
  }

  /** The substitution turns a leading whitespace run into one space. */
  lemma CollapseLeadingSpace(s: string)
    requires |s| > 0 && IsSpace(s[0])
    ensures Collapse(s) == " " + Collapse(LStrip(s))
  {
    assert LStrip(s) == LStrip(s[1..]);
  }

  /** Stripping a word, one space and text that starts with a non-space
      only touches the end of that text. */
  lemma StripAfterWord(w: string, c: string)
    requires |w| > 0 && !IsSpace(w[0])
    requires |c| > 0 && !IsSpace(c[0])
    ensures Strip(w + " " + c) == w + " " + Strip(c)
  {
    LStripNoop(c);
    assert |RStrip(c)| > 0;
    RStripAppend(w + " ", c);
    assert (w + " " + c)[0] == w[0];
    LStripNoop(w + " " + c);
  }

  /** A word followed by whitespace and further words: one step of the
      characterisation below, given that it holds for the further words. */
  lemma InnerWord(t: string)
    requires |t| > 0 && !IsSpace(t[0])
    requires var rest2 := LStrip(t[|TakeWord(t)|..]);
      |rest2| > 0 && Strip(Collapse(rest2)) == Join(" ", Words(rest2))
    ensures Strip(Collapse(t)) == Join(" ", Words(t))
  {
    var w := TakeWord(t);
    var rest2 := LStrip(t[|w|..]);
    var c := Collapse(rest2);
    var ws := Words(rest2);
    InnerCollapse(t);
    InnerStrip(t);
    InnerWords(t);
    Chain(Collapse(t), w, c, Words(t), ws);
  }

  lemma InnerCollapse(t: string)
    requires |t| > 0 && !IsSpace(t[0])
    requires |LStrip(t[|TakeWord(t)|..])| > 0
    ensures var w := TakeWord(t);
      Collapse(t) == w + " " + Collapse(LStrip(t[|w|..]))
  {
    var w := TakeWord(t);
    var rest := t[|w|..];
    var c := Collapse(LStrip(rest));
    assert Collapse(t) == w + Collapse(rest) by {
      assert t == w + rest;
      CollapseWord(w, rest);
    }
    assert Collapse(rest) == " " + c by {
      assert |rest| > 0 && IsSpace(rest[0]);
      CollapseLeadingSpace(rest);
    }
    ConcatAssoc(w, " ", c);
  }

  /** Concatenation is associative. */
  lemma ConcatAssoc(a: string, b: string, c: string)
    ensures a + (b + c) == a + b + c
  {
  }

  lemma InnerStrip(t: string)
    requires |t| > 0 && !IsSpace(t[0])
    requires |LStrip(t[|TakeWord(t)|..])| > 0
    ensures var w := TakeWord(t); var c := Collapse(LStrip(t[|w|..]));
      Strip(w + " " + c) == w + " " + Strip(c)
  {
    var w := TakeWord(t);
    var c := Collapse(LStrip(t[|w|..]));
    assert |w| > 0 && w[0] == t[0];
    StripAfterWord(w, c);
  }

  lemma InnerWords(t: string)
    requires |t| > 0 && !IsSpace(t[0])
    requires |LStrip(t[|TakeWord(t)|..])| > 0
    ensures var w := TakeWord(t); var ws := Words(LStrip(t[|w|..]));
      Words(t) == [w] + ws && Join(" ", [w] + ws) == w + " " + Join(" ", ws)
  {
    var w := TakeWord(t);
    var rest2 := LStrip(t[|w|..]);
    WordsStep(t);
    LStripNoop(rest2);
    JoinCons(" ", w, Words(rest2));
  }

  /** Equalities that close one step of the characterisation. */
  lemma Chain(x: string, w: string, c: string, wt: seq<string>, ws: seq<string>)
    requires x == w + " " + c
    requires Strip(w + " " + c) == w + " " + Strip(c)
    requires Strip(c) == Join(" ", ws)
    requires wt == [w] + ws
    requires Join(" ", [w] + ws) == w + " " + Join(" ", ws)
    ensures Strip(x) == Join(" ", wt)
  {
  }

  /** The heart of the reference characterisation below, for a string that
      does not start with whitespace. */
  lemma {:induction false} StripCollapseWords(t: string)
    requires |t| == 0 || !IsSpace(t[0])
    ensures Strip(Collapse(t)) == Join(" ", Words(t))
    decreases |t|
  {
    if |t| > 0 {
      WordsStep(t);
      var w := TakeWord(t);
      var rest := t[|w|..];
      var rest2 := LStrip(rest);
      if |rest2| == 0 {
        LastWord(w, rest);
      } else {
        StripCollapseWords(rest2);
        InnerWord(t);
      }
    }
  }

  /** Reference characterisation of `safe_text`: it equals
      `" ".join(text.split())`, the words of the text separated by single
      spaces. */
  lemma {:induction false} SafeTextIsJoinedWords(s: string)
    ensures SafeText(s) == Join(" ", Words(s))
  {
    var t := LStrip(s);
    if |s| > 0 && IsSpace(s[0]) {
      assert LStrip(s[1..]) == t;
      assert Collapse(s) == " " + Collapse(t);
      assert (" " + Collapse(t))[1..] == Collapse(t);
      assert LStrip(" " + Collapse(t)) == LStrip(Collapse(t));
    }
    assert LStrip(t) == t;
    StripCollapseWords(t);
  }

  /** Number of occurrences of `c` in `s`. */
  function Count(s: string, c: char): nat
    decreases |s|
  {
    if |s| == 0 then 0 else (if s[0] == c then 1 else 0) + Count(s[1..], c)
  }

  /** Python's `s.split(c)` for a one-character separator: the pieces
      between separators (`SplitLength` counts them, `SplitJoin` puts them
      back together). */
  function Split(s: string, c: char): (parts: seq<string>)
    ensures |parts| > 0
    decreases |s|
  {
    if |s| == 0 then [""]
    else
      var rest := Split(s[1..], c);
      if s[0] == c then [""] + rest
      else [[s[0]] + rest[0]] + rest[1..]
  }

  /** Round trip: joining the pieces with the separator gives back the
      string. */
  lemma {:induction false} SplitJoin(s: string, c: char)
    ensures Join([c], Split(s, c)) == s
    decreases |s|
  {
    if |s| > 0 {
      var rest := Split(s[1..], c);
      SplitJoin(s[1..], c);
      if s[0] == c {
        JoinCons([c], "", rest);
      } else if |rest| == 1 {
        assert Join([c], rest) == rest[0];
      } else {
        assert rest == [rest[0]] + rest[1..];
        JoinCons([c], rest[0], rest[1..]);
        JoinCons([c], [s[0]] + rest[0], rest[1..]);
      }
    }
  }

  /** A separator after a separator-free prefix ends the first piece. */
  lemma {:induction false} SplitAfter(a: string, b: string, c: char)
    requires c !in a
    ensures Split(a + [c] + b, c) == [a] + Split(b, c)
    decreases |a|
  {
    if |a| == 0 {
      assert a + [c] + b == [c] + b;
      assert ([c] + b)[1..] == b;
    } else {
      assert (a + [c] + b)[1..] == a[1..] + [c] + b;
      SplitAfter(a[1..], b, c);
      assert [a[0]] + a[1..] == a;
    }
  }

  /** A string without the separator is a single piece. */
  lemma SplitNone(s: string, c: char)
    requires c !in s
    ensures Split(s, c) == [s]
  {
    SplitJoin(s, c);
  }

  /** Splitting at a separator placed between two strings splits each of
      them separately. */
  lemma {:induction false} SplitConcat(a: string, b: string, c: char)
    ensures Split(a + [c] + b, c) == Split(a, c) + Split(b, c)
    decreases |a|
  {
    if |a| == 0 {
      assert a + [c] + b == [c] + b;
      SplitCons(c, b, c);
    } else {
      SplitConcat(a[1..], b, c);
      SplitConcatStep(a, b, c);
    }
  }

  /** The inductive step of `SplitConcat`, for a non-empty `a`. */
  lemma SplitConcatStep(a: string, b: string, c: char)
    requires |a| > 0
    requires Split(a[1..] + [c] + b, c) == Split(a[1..], c) + Split(b, c)
    ensures Split(a + [c] + b, c) == Split(a, c) + Split(b, c)
  {
    var s := a + [c] + b;
    var t := a[1..] + [c] + b;
    assert s[1..] == t && s[0] == a[0];
    ConsAppend(a[0], c, Split(a[1..], c), Split(b, c), Split(t, c), Split(s, c), Split(a, c));
  }

  /** The unfolding of `Split` on a non-empty string, seen on the pieces
      of its tail: putting a character in front of a concatenation of
      pieces is putting it in front of the first part. */
  lemma ConsAppend(x: char, c: char, ra: seq<string>, rb: seq<string>, rt: seq<string>,
                   st: seq<string>, sa: seq<string>)
    requires |ra| > 0 && rt == ra + rb
    requires st == if x == c then [""] + rt else [[x] + rt[0]] + rt[1..]
    requires sa == if x == c then [""] + ra else [[x] + ra[0]] + ra[1..]
    ensures st == sa + rb
  {
    if x != c {
      SplitConsPiece(x, ra, rb);
    }
  }

  /** A character that joins the first piece of `sa + sb` joins the first
      piece of `sa`. */
  lemma SplitConsPiece(x: char, sa: seq<string>, sb: seq<string>)
    requires |sa| > 0
    ensures [[x] + (sa + sb)[0]] + (sa + sb)[1..] == ([[x] + sa[0]] + sa[1..]) + sb
  {
    assert (sa + sb)[0] == sa[0];
    assert (sa + sb)[1..] == sa[1..] + sb;
  }

  /** Splitting a string with one more character in front: a separator
      starts a new empty piece, anything else joins the first piece. */
  lemma SplitCons(x: char, s: string, c: char)
    ensures var rest := Split(s, c);
      Split([x] + s, c) == if x == c then [""] + rest else [[x] + rest[0]] + rest[1..]
  {
    assert ([x] + s)[1..] == s;
  }

  /** Splitting gives one piece more than there are separators, and no
      piece holds a separator. */
  lemma {:induction false} SplitLength(s: string, c: char)
    ensures |Split(s, c)| == Count(s, c) + 1
    ensures forall i :: 0 <= i < |Split(s, c)| ==> c !in Split(s, c)[i]
    decreases |s|
  {
    if |s| > 0 {
      SplitLength(s[1..], c);
      var rest := Split(s[1..], c);
      if s[0] != c {
        assert c !in [s[0]] + rest[0];
      }
    }
  }


  /** Round trip the other way: splitting the join of separator-free parts
      gives the parts back. */
  lemma {:induction false} JoinSplit(parts: seq<string>, c: char)
    requires |parts| > 0
    requires forall i :: 0 <= i < |parts| ==> c !in parts[i]
    ensures Split(Join([c], parts), c) == parts
    decreases |parts|
  {
    SplitNone(parts[0], c);
    if |parts| > 1 {
      JoinSplit(parts[1..], c);
      SplitConcat(parts[0], Join([c], parts[1..]), c);
      assert [parts[0]] + parts[1..] == parts;
    }
  }

  /** A join of parts whose last part is non-empty ends with that part's
      last character. */
  lemma {:induction false} JoinLastChar(sep: string, parts: seq<string>)
    requires |parts| > 0 && |parts[|parts| - 1]| > 0
    ensures var j := Join(sep, parts); var p := parts[|parts| - 1];
      |j| >= |p| && j[|j| - 1] == p[|p| - 1]
    decreases |parts|
  {
    if |parts| > 1 {
      JoinLastChar(sep, parts[1..]);
    }
  }

  /** `lstrip` of a concatenation whose first part is not all whitespace
      stops inside that part. */
  lemma {:induction false} LStripAppend(a: string, b: string)
    ensures |LStrip(a)| > 0 ==> LStrip(a + b) == LStrip(a) + b
    ensures |LStrip(a)| == 0 ==> LStrip(a + b) == LStrip(b)
    decreases |a|
  {
    if |a| == 0 {
      assert a + b == b;
    } else if IsSpace(a[0]) {
      assert (a + b)[1..] == a[1..] + b;
      LStripAppend(a[1..], b);
    } else {
      assert (a + b)[0] == a[0];
    }
  }

  /** A trailing space makes no difference once the string is stripped. */
  lemma StripTrailingSpace(q: string)
    ensures Strip(q + " ") == Strip(q)
  {
    LStripAppend(q, " ");
    var l := LStrip(q);
    if |l| > 0 {
      RStripSpace(l);
    } else {
      assert LStrip(" ") == "" by {
        assert " "[1..] == "";
      }
    }
  }

  /** `rstrip` drops a trailing space. */
  lemma RStripSpace(l: string)
    ensures RStrip(l + " ") == RStrip(l)
  {
    assert (l + " ")[..|l|] == l;
  }

  /** A join starts with its first part. */
  lemma JoinPrefix(sep: string, parts: seq<string>)
    requires |parts| > 0
    ensures var j := Join(sep, parts); |j| >= |parts[0]| && j[..|parts[0]|] == parts[0]
  {
    if |parts| > 1 {
      var j := Join(sep, parts);
      assert j == parts[0] + (sep + Join(sep, parts[1..]));
    }
  }
}

=== FILE: wrappers.dfy ===
/** Failure-carrying values shared by every module of the model. A Python
    call either returns a value or raises; `Result` records which. */
module Wrappers {

  /** A value that may be absent, as Python's `None` or a missing key. */
  datatype Option<+T> = None | Some(value: T)

  /** The outcome of a call that can raise: its value, or the exception. */
  datatype Result<+T, +E> = Ok(value: T) | Err(error: E) {

    /** True when the call raised. */
    predicate IsFailure() {
      Err?
    }

    /** Re-raises the exception of a failed call under another value type. */
    function PropagateFailure<U>(): Result<U, E>
      requires Err?
    {
      Err(error)
    }

    /** The value of a call that returned. */
    function Extract(): T
      requires Ok?
    {
      value
    }
  }
}
